=== FILE: README.md ===
# collection_scanner, modelled in Dafny

`collection_scanner` reads the records of a key-value collection (possibly
split into numbered partitions) in ascending key order and hands them out in
batches. Along the way it:

- skips key prefixes;
- stops at a given key;
- drops records newer than an end timestamp;
- merges in the fields of "secondary" collections for the same key;
- keeps a cursor (`startafter`) so that the next batch resumes where the
  last one ended.

A read-ahead cache (`_CachedBlocksCollection`) fans each store call out over
the partitions and hands out the records in key order. The older variant in
`collection_scanner/__init__.py` uses a plainer wrapper and also attaches
"has-many" item data and lists key prefixes. `collection_scanner/utils.py`
holds the helpers: partition discovery, the retry predicate, the collection
filter and prefix generation.

The model is pure functions over immutable values:

- **The store** (`Store`): each partition is a key-ordered sequence of
  records. A store call returns, in key order, at most `count` records whose
  key is strictly after `startafter` and not below the `start` seek key. It
  never returns more than a server-side per-call limit.
- **Keys** (`Keys`): Python's string order, `Less`, is written out. The
  character `~` is the "jump" character that `startafter = prefix + '~'`
  uses to skip a prefix.
- **The read-ahead cache** (`CachedBlocks`, with its invariant in
  `CacheWindow`): the trim, the refetch over the partitions, the sort and the
  hand-out of `get`.
- **The secondary join** (`Secondary`): per-batch secondary reads, the
  `depleted` flags and the `last` cursor. `Lookup` is the reference it is
  compared with.
- **The scanner** (`Scanner`): `get_new_batch` as a page walk (`Walk`,
  `ReadPage`), pages as a batch (`Batch`) and batches as a scan
  (`ScanBatches`).
  - The walk, page and batch properties are proved in `WalkProps`,
    `PageProps` and `BatchProps`.
  - The main theorem, `BatchProps.ScanYields`, says this: over a
    well-formed store, a scan hands out, in strictly ascending key order,
    the merged form of exactly those store records between the initial
    cursor and the final cursor that pass the stop, exclude and
    end-timestamp rules.
  - `DrainProps` says how a scan ends. A scan never hands out more records
    than its count limit leaves (`DrainProps.ScanCounts`). A scan without a
    stop key that switches itself off short of its count limit has read
    past every store record after its initial cursor, and so has handed
    out every one of them that passes (`DrainProps.ScanEnds`).
- **The older variant** (`LegacyWrapper`, `LegacyScanner`): the wrapper's
  `get`, the has-many attachment, `get_additional_column_data` and
  `scan_prefixes`.
- **The helpers** (`Discovery`, `Partitions`, `Prefixes`).

Effects are parameters. The store's content is a value. The accessor's
cache is threaded through the scanner state. The accessor's random partition
pick is an `Option<nat>` argument, and the scanner always passes `None`. Loops that the source runs until the store is
exhausted take a `fuel: nat` bound.

## Model

| member | source | states |
|---|---|---|
| Keys.JumpSkipsPrefix | collection_scanner/utils.py:5 | for keys made of characters below `~`, a key lies after `prefix + '~'` exactly when it lies after the prefix and does not start with it, so the jump cursor skips exactly the prefixed keys |
| Keys.Prefix | collection_scanner/utils.py:45 | `key[:codelen]` is a prefix of the key, of length `codelen` or the whole key when shorter |
| Keys.Less | collection_scanner/scanner.py:260 | Python's `<` on strings: character by character, a proper prefix sorting first; its laws are `Keys.LessTransitive` and `Keys.LessTotal` |
| Keys.Jump | collection_scanner/scanner.py:254 | the jump cursor is the prefix followed by `~` |
| Keys.BetweenJump | collection_scanner/scanner.py:254 | a key between a prefix and its jump cursor starts with the prefix |
| Store.StoreGet | collection_scanner/scanner.py:115-117 | one store call returns no more than the requested count and the server's per-call limit |
| Store.EligibleMembers | collection_scanner/scanner.py:95 | the records a call may return are exactly those of the partition after the cursor and not below the seek key |
| Store.CursorAdvance | collection_scanner/scanner.py:99 | moving a partition cursor to the k-th returned key leaves exactly the eligible records after it, so repeated calls neither skip nor repeat |
| Store.FetchLoopExact | collection_scanner/scanner.py:90-99 | the per-partition read loop returns exactly the first `count` eligible records of the partition, however small the per-call limit |
| Store.FetchLoop | collection_scanner/scanner.py:90-99 | the per-partition read loop returns no more records than it still wants |
| Records.Strip | collection_scanner/scanner.py:272-274 | the output carries the record's fields, plus `_key` and `_ts` exactly when they were asked for in `meta`, holding the record's key and timestamp |
| Records.StripKeepsRequested | collection_scanner/scanner.py:272-274 | with both meta fields asked for, stripping loses nothing: the record can be rebuilt from the output |
| Records.MergeSecondaryAsWritten | collection_scanner/scanner.py:262-267 | the merge as written: the secondary's field values win, the primary's other fields are kept, and the merged `_ts` is the secondary's, whatever the primary's was |
| Records.MergeAsWrittenLosesNewerPrimary | collection_scanner/scanner.py:262-267 | a primary at 300 merged with a secondary at 250 comes out at 250, older than the primary |
| Records.MergeSecondary | collection_scanner/scanner.py:262-267 | the merged record keeps the key, holds the secondary's fields over the primary's, and has the later of the two timestamps |
| Records.MergeAsWrittenAgrees | collection_scanner/scanner.py:262-267 | the merge as written and the corrected merge give the same fields, and the same record exactly when the secondary is not older than the primary |
| Sorting.Sort | collection_scanner/scanner.py:101 | sorting permutes the records |
| Sorting.SortSorted | collection_scanner/scanner.py:101 | the sort orders records by key |
| Sorting.SortAscending | collection_scanner/scanner.py:101 | records with distinct keys sort into strictly ascending order |
| Sorting.AscendingUnique | collection_scanner/scanner.py:101 | two strictly ascending orderings of the same records are equal, so the sort result is determined by its contents |
| CachedBlocks.TrimAsWritten | collection_scanner/scanner.py:72-83 | the trim as written leaves a suffix of the cache whose first key is not below the cursor, so the cursor's own key can stay |
| CachedBlocks.TrimAsWrittenKeepsCursorKey | collection_scanner/scanner.py:72-83 | a cache holding a and b, trimmed against cursor b, still holds b, which was already handed out |
| CachedBlocks.Trim | collection_scanner/scanner.py:72-83 | the trim drops exactly the leading records at or before the cursor, and empties the cache when there is no cursor |
| CachedBlocks.FetchStart | collection_scanner/scanner.py:86-88 | a refetch starts at the later of the cursor and the last cached key |
| CachedBlocks.GetAsWritten | collection_scanner/scanner.py:61-112 | the accessor as written hands out `count` records, or all it holds when fewer |
| CachedBlocks.Get | collection_scanner/scanner.py:61-112 | the corrected accessor hands out `count` records, or every record it holds when fewer |
| CachedBlocks.Fetched | collection_scanner/scanner.py:86-101 | a refetch keeps only fan-out records whose keys are not past the frontier |
| CachedBlocks.Consume | collection_scanner/scanner.py:107-112 | the records not handed out stay in the cache, in order, behind the ones handed out |
| CachedBlocks.Columns | collection_scanner/scanner.py:65 | random mode reads only the picked partition; otherwise all are read |
| CacheWindow.TrimOk | collection_scanner/scanner.py:72-83 | trimming a consistent cache leaves an ascending run of store records after the cursor, with no store record missing before its last key |
| CacheWindow.FreshSound | collection_scanner/scanner.py:86-101 | the records a refetch keeps are distinct store records after the cursor and below the frontier |
| CacheWindow.FreshComplete | collection_scanner/scanner.py:86-101 | every store record after the cursor and below the frontier is among the records a refetch keeps |
| CacheWindow.GetOk | collection_scanner/scanner.py:61-112 | over a consistent cache, the accessor hands out the beginning of the ascending store records after the cursor, and all of them when it hands out fewer than asked |
| CacheWindow.ConsumeOk | collection_scanner/scanner.py:107-112 | after handing out records and moving the cursor past them, the cache is consistent with the new cursor |
| SkewExample.WrittenRefetchSkips | collection_scanner/scanner.py:86-106 | partitions 1 3 5 7 and 2 8 9, count 2, cache 3 8 after cursor 2: the accessor as written hands out 3 and 8 and never 5 |
| Secondary.SecFetchViaAccessor | collection_scanner/scanner.py:204 | a secondary read through its accessor, as written and corrected alike, with no cursor, returns the first eligible records of the secondary at and after the seek key |
| Secondary.AddSec | collection_scanner/scanner.py:206-210 | adding a secondary record updates that key's fields with the record's and keeps the later timestamp, leaving other keys alone |
| Secondary.LookupLatest | collection_scanner/scanner.py:196-216 | the reference join finds data for a key exactly when some secondary holds it, with the latest timestamp among them |
| Secondary.Lookup | collection_scanner/scanner.py:206-210 | the reference join has data for a key only when some secondary holds a record with that key |
| Secondary.SecLoop | collection_scanner/scanner.py:200-215 | the loop over the secondaries only ever sets depletion flags, never clears one |
| Secondary.SecCall | collection_scanner/scanner.py:196-216 | a call keeps every depletion flag that was set before it |
| Secondary.NewBatch | collection_scanner/scanner.py:235 | a new batch starts with no secondary data and no last secondary key, keeping only the depletion flags |
| Secondary.SecCallDepletion | collection_scanner/scanner.py:213-214 | after a call, a secondary is marked depleted exactly when it already was or it returned fewer records than asked for |
| Secondary.SecCallSkipsDepleted | collection_scanner/scanner.py:200-201 | a depleted secondary is never read again: changing its content does not change the call |
| Secondary.SecCallAt | collection_scanner/scanner.py:196-216 | when no depleted secondary holds the key and each live one covers it, the call's data for the key is the reference join's |
| Secondary.JoinAt | collection_scanner/scanner.py:260-262 | the join step pops the key from the data, keeps depleted flags set, and without a refetch changes nothing else |
| Secondary.JoinAtFresh | collection_scanner/scanner.py:260-262 | the first join of a batch agrees with the reference join when no depleted secondary holds the key |
| JoinExamples.LastOvershoots | collection_scanner/scanner.py:206 | secondaries b d and e read one record each from b: `last` becomes e, so d is never refetched and misses the data S1 holds for it |
| JoinExamples.DepletedDropped | collection_scanner/scanner.py:213-214 | a secondary holding only c is marked depleted by the first batch, so c in the second batch misses its data |
| Scanner.Joined | collection_scanner/scanner.py:172 | the world the scanner runs in reads through the corrected accessor and joins each key with the reference `Lookup` over the secondaries |
| Scanner.Init | collection_scanner/scanner.py:164-178 | a new scanner is enabled, has scanned nothing, starts with an empty cache, and holds the given cursor, count limit and seek key |
| Scanner.Reset | collection_scanner/scanner.py:185-194 | a reset clears the counters, cursor and last key and re-enables the scanner, keeping the accessor and seek key |
| Scanner.SetStartafter | collection_scanner/scanner.py:301-302 | setting the cursor changes the cursor and nothing else |
| Scanner.MaxNext | collection_scanner/scanner.py:285-289 | a page asks for no more than the per-page maximum, the records left in the batch, and the records left under a count limit, and for one of these |
| Scanner.FirstPrefixFirst | collection_scanner/scanner.py:252-256 | the chosen exclude prefix is the first listed one the key starts with, and there is none exactly when no prefix matches |
| Scanner.Merge | collection_scanner/scanner.py:262-267 | a record without secondary data is unchanged; otherwise it is the corrected merge, with the same key and no older timestamp |
| Scanner.Advance | collection_scanner/scanner.py:248-259 | a stop-before key stops the page without counting, moving the cursor or yielding; an excluded key moves the cursor past the prefix; any other key becomes the cursor and last key |
| Scanner.Yield | collection_scanner/scanner.py:269-277 | a record newer than the end timestamp is skipped; any other is yielded merged, counted as scanned and taken off the batch |
| Scanner.ReadPage | collection_scanner/scanner.py:244-283 | after a page the scanner stays enabled exactly when the page counted all it asked for and is under the count limit, or it jumped |
| Scanner.Walk | collection_scanner/scanner.py:247-280 | a page pulls no more records than the accessor handed out and never un-pulls one |
| Scanner.Kept | collection_scanner/scanner.py:262-280 | a page yields no more records than it pulled |
| Scanner.KeptFrom | collection_scanner/scanner.py:262-280 | every record a page yields is the merged form of a pulled record that passes the rules |
| Scanner.BatchLoop | collection_scanner/scanner.py:244-283 | a disabled scanner, or one whose page size is not positive, reads no page and yields nothing |
| Scanner.Batch | collection_scanner/scanner.py:238-244 | a disabled scanner's batch yields nothing, but still uses up the seek key |
| Scanner.ScanBatches | collection_scanner/scanner.py:291-295 | a scan hands out no empty batch, and a disabled scanner hands out none |
| Scanner.Outputs | collection_scanner/scanner.py:272-274 | each handed-out record carries its yielded record's fields |
| Scanner.ScanLoop | collection_scanner/scanner.py:291-295 | a scan hands out no empty batch |
| WalkProps.WalkHalt | collection_scanner/scanner.py:247-258 | a page pulls records until the first stop-before or excluded key, and pulls all of them when there is none |
| WalkProps.WalkStopped | collection_scanner/scanner.py:248-250 | a page stops exactly when its last pulled key starts with the stop-before key |
| WalkProps.WalkJumped | collection_scanner/scanner.py:252-258 | a page jumps exactly when its last pulled key is excluded and does not stop |
| WalkProps.WalkCount | collection_scanner/scanner.py:251 | every pulled record but a stopping one is counted |
| WalkProps.WalkYields | collection_scanner/scanner.py:247-280 | a page yields, in order, the merged form of exactly the pulled records that pass the rules |
| WalkProps.WalkScanned | collection_scanner/scanner.py:276-277 | each yielded record raises the scanned count and lowers the batch count by one |
| WalkProps.WalkJumpCursor | collection_scanner/scanner.py:254 | after a jump the cursor is the first matching exclude prefix followed by `~` |
| WalkProps.WalkEndCursor | collection_scanner/scanner.py:259 | a page that neither stops nor jumps leaves the cursor on the last key it pulled |
| WalkProps.WalkStopCursor | collection_scanner/scanner.py:248-250 | a page that stops leaves the cursor on the key before the stopping one |
| WalkProps.KeptMembers | collection_scanner/scanner.py:262-280 | the records a page keeps are the merged forms of exactly the pulled records that pass |
| WalkProps.KeptAscending | collection_scanner/scanner.py:262-280 | merging keeps keys, so the kept records of an ascending run are ascending |
| PageProps.PageOnWindow | collection_scanner/scanner.py:247 | a ready scanner's accessor call returns the beginning of the merged store after the cursor, and all of it when short |
| PageProps.PageSound | collection_scanner/scanner.py:244-283 | a page yields only merged store records after the old cursor and through the new one that pass the rules, given that every store key an exclude prefix matches sorts at or below the jump cursor of that prefix |
| PageProps.PageCovered | collection_scanner/scanner.py:244-283 | a page yields every merged store record after the old cursor and through the new one that passes the rules |
| PageProps.PageYields | collection_scanner/scanner.py:247-280 | a page yields the kept part of what it pulled from the window, and pulls no more than it asked for |
| PageProps.PageScanned | collection_scanner/scanner.py:276-277 | a page counts each yielded record as scanned and takes it off the batch |
| PageProps.PageAscending | collection_scanner/scanner.py:280 | a page yields in strictly ascending key order |
| PageProps.PageStopDisables | collection_scanner/scanner.py:249 | a page that stops disables the scanner |
| PageProps.PageReady | collection_scanner/scanner.py:281-283 | a page that does not stop leaves the scanner's cache consistent with the new cursor |
| PageProps.PageDrained | collection_scanner/scanner.py:281-282 | a page that got fewer records than it asked for, and neither stopped nor jumped, has read every store record after the cursor |
| PageProps.PageForward | collection_scanner/scanner.py:259 | a page never moves the cursor backwards |
| PageProps.KeyCharsJumpsOk | collection_scanner/scanner.py:252-256 | when the excluded store keys are made of characters below `~`, the jump past each one's prefix lands at or after the key |
| BatchProps.BatchYields | collection_scanner/scanner.py:228-283 | a batch yields, ascending, the merged form of exactly the store records between its start and end cursors that pass the rules, given that every store key an exclude prefix matches sorts at or below the jump cursor of that prefix |
| BatchProps.BatchBound | collection_scanner/scanner.py:238-242 | a batch yields at most `batchsize` records, counts each as scanned, never counts past the count limit, and clears the seek key |
| BatchProps.BatchingOk | collection_scanner/scanner.py:291-293 | every batch the scan loop can call meets the batch guarantee |
| BatchProps.ScanYields | collection_scanner/scanner.py:291-295 | the batches of a scan, joined, are ascending and hold the merged form of exactly the store records between the initial and final cursors that pass the rules, given that every store key an exclude prefix matches sorts at or below the jump cursor of that prefix |
| BatchProps.InitLive | collection_scanner/scanner.py:164-178 | a new scanner over a well-formed store starts in the state the page guarantees need, whatever its cursor |
| BatchProps.ResetLive | collection_scanner/scanner.py:185-194 | after a reset the scanner is again in the state the page guarantees need |
| BatchProps.SetStartafterLive | collection_scanner/scanner.py:301-302 | moving the cursor forward, or moving it anywhere over an empty cache, keeps the scanner in the state the page guarantees need |
| DrainProps.PageEnds | collection_scanner/scanner.py:281-282 | a page without a stop key that switches the scanner off short of the count limit has read every store record after its cursor |
| DrainProps.BatchLoopEnds | collection_scanner/scanner.py:244-283 | a batch loop that switches the scanner off short of the count limit has read every store record after the cursor it started from |
| DrainProps.BatchEnds | collection_scanner/scanner.py:228-283 | a batch without a stop key that switches the scanner off short of the count limit has read every store record after its initial cursor |
| DrainProps.ScanLoopCounts | collection_scanner/scanner.py:276-295 | a scan counts every record it hands out, keeps the count limit, and never counts past it |
| DrainProps.ScanCounts | collection_scanner/scanner.py:285-295 | a scan hands out no more records than its count limit leaves: a new scanner with count n hands out at most n |
| DrainProps.ScanLoopEnds | collection_scanner/scanner.py:291-295 | a scan loop that switches the scanner off short of the count limit has read every store record after the cursor it started from |
| DrainProps.ScanEnds | collection_scanner/scanner.py:228-295 | a scan without a stop key that switches itself off short of its count limit has read past every store record after its initial cursor, and has handed out the merged form of each one that passes the rules |
| LegacyWrapper.Want | collection_scanner/__init__.py:58 | a round asks each open partition for its floor share of the records still wanted, plus ten per open partition |
| LegacyWrapper.Drain | collection_scanner/__init__.py:60-71 | one partition's read in a round returns as many records as are still wanted, or fewer exactly when it ended on an empty read |
| LegacyWrapper.Step | collection_scanner/__init__.py:59-71 | a partition's turn drops it exactly when its read came back short, moves its cursor to the last key read, lowers the running total by what was read, and adds only records it read |
| LegacyWrapper.Round | collection_scanner/__init__.py:59-71 | a round never reopens a partition or raises the total, and a round that starts with an open partition and a positive request closes a partition or lowers the total |
| LegacyWrapper.Collect | collection_scanner/__init__.py:57-71 | the collection loop ends with no open partition or with the total used up |
| LegacyWrapper.DrainIsFetchLoop | collection_scanner/__init__.py:60-71 | draining one partition in a round is the store's read loop for the records still wanted, and the partition is closed exactly when it came up short |
| LegacyWrapper.LegacyGet | collection_scanner/__init__.py:51-77 | the older accessor hands out at most `count` records in strictly ascending key order, and none for a count that is not positive |
| LegacyWrapper.LegacyGetSound | collection_scanner/__init__.py:51-77 | every record the older accessor hands out is a store record after the cursor and not below the seek key |
| LegacyScanner.CountOf | collection_scanner/__init__.py:53 | the count argument is the first element of a non-empty list; an integer raises `TypeError` and an empty list `IndexError` |
| LegacyScanner.WrapperGet | collection_scanner/__init__.py:51-77 | the call fails, before any read, exactly when the count argument is not a non-empty list; otherwise it hands out at most `count` records in ascending key order |
| LegacyScanner.AttachHasMany | collection_scanner/__init__.py:234-240 | has-many items are attached under the property only when there are some and the record does not already hold a truthy value there; nothing else changes |
| LegacyScanner.AttachOnce | collection_scanner/__init__.py:236-240 | once items are attached, attaching again under the same property changes nothing |
| LegacyScanner.AttachCommutes | collection_scanner/__init__.py:234-240 | attachments under two different properties can be made in either order |
| LegacyScanner.ColumnOneRead | collection_scanner/__init__.py:182-191 | for a positive page size, item data is read by a single store call of at most that many records, since the loop always exits after the first; a zero page size makes no call |
| LegacyScanner.ColumnNegativeSpins | collection_scanner/__init__.py:182-192 | a negative page size never leaves the loop |
| LegacyScanner.ColumnLoop | collection_scanner/__init__.py:177-191 | when the item-data loop ends, it has made a store call exactly when the page size is not zero |
| LegacyScanner.AdditionalColumnData | collection_scanner/__init__.py:177-193 | item data with a negative page size is never returned |
| LegacyScanner.AdditionalColumnDataOk | collection_scanner/__init__.py:177-193 | item data for a key is at most a page of records whose keys start with `key_`, stripped of their key |
| LegacyScanner.ScanPrefixesRaises | collection_scanner/__init__.py:284 | as written, listing prefixes raises `TypeError` at the first accessor call |
| LegacyScanner.ScanPrefixesAsWritten | collection_scanner/__init__.py:276-288 | prefix listing as written never yields a code |
| LegacyScanner.PrefixLoop | collection_scanner/__init__.py:276-288 | every code the prefix loop yields has at most `codelen` characters |
| LegacyScanner.ScanPrefixes | collection_scanner/__init__.py:276-288 | with the count passed as a list, every listed code has at most `codelen` characters |
| LegacyScanner.ScanPrefixesCodes | collection_scanner/__init__.py:276-288 | with the count passed as a list, prefix listing is the prefix-code walk over the accessor's first key after each cursor |
| LegacyScanner.ScanPrefixesSound | collection_scanner/__init__.py:276-288 | with the count passed as a list, every listed code is the `codelen` prefix of a store key after the cursor, in strictly ascending order |
| Prefixes.CodesSound | collection_scanner/utils.py:41-47 | each code is the `codelen` prefix of a key after the initial cursor, and the codes are strictly ascending, hence distinct |
| Prefixes.CodesComplete | collection_scanner/utils.py:41-47 | when the walk ends, every key after the initial cursor starts with one of the codes |
| Prefixes.CodesEnd | collection_scanner/utils.py:41-47 | the walk ends when given more steps than there are keys after the initial cursor |
| Prefixes.Codes | collection_scanner/utils.py:41-47 | the prefix walk yields at most one code per read, each of at most `codelen` characters |
| Discovery.RetryOn | collection_scanner/utils.py:8-10 | a store call is retried on every exception but a keyboard interrupt |
| Discovery.StoreFirstLeast | collection_scanner/utils.py:43 | a count-1 store call returns the least key after the cursor, when there is one |
| Discovery.GeneratePrefixesOk | collection_scanner/utils.py:37-47 | prefix generation over a partition lists distinct prefixes of its keys after the cursor in ascending order, ends given enough steps, and then covers every such key |
| Discovery.GeneratePrefixes | collection_scanner/utils.py:37-47 | prefix generation yields at most one code per read, each of at most `codelen` characters |
| Discovery.FilterExisting | collection_scanner/utils.py:27-35 | the filter keeps, in listing order, exactly the listed names that are candidates, each as often as it is listed |
| Discovery.FilterIdempotent | collection_scanner/utils.py:27-35 | filtering twice is filtering once |
| Discovery.FilterAllCandidates | collection_scanner/utils.py:27-35 | a listing made only of candidates passes unchanged |
| Partitions.DecimalRoundTrip | collection_scanner/utils.py:22 | `int` of `str(n)` is n |
| Partitions.PartitionIndex | collection_scanner/utils.py:18-22 | a name matches only when it starts with the collection name, an underscore and a digit |
| Partitions.PartitionNameIndex | collection_scanner/scanner.py:58-59 | the partition name built for index j matches with index j |
| Partitions.Matches | collection_scanner/utils.py:18-22 | each listed name contributes at most one partition index |
| Partitions.NumPartitions | collection_scanner/utils.py:13-25 | a corrected count n is positive, and every index 0 to n-1 is matched by some listed name |
| Partitions.NumPartitionsAsWritten | collection_scanner/utils.py:13-25 | the count as written is positive when given |
| Partitions.NumPartitionsExact | collection_scanner/utils.py:13-25 | the corrected count is n exactly when the matched indices are exactly 0 to n-1 |
| Partitions.AsWrittenAgrees | collection_scanner/utils.py:23-25 | when no index is matched twice, the count as written and the corrected one agree |
| Partitions.NamesRoundTrip | collection_scanner/utils.py:13-25 | a listing of the names of n partitions counts n partitions, as written and corrected |
| Partitions.RepeatedIndexCounted | collection_scanner/utils.py:23-25 | c_1 and c_1_old count as two partitions as written, although there is no partition 0; the corrected count gives none |
| Partitions.RepeatedIndexRejects | collection_scanner/utils.py:23-25 | c_0, c_1 and c_1_old give no count as written, although partitions 0 and 1 exist; the corrected count gives two |

## Left out

- Client construction, credentials, endpoints, logging and `close` are left out: they are I/O with no logic to state.
- The retry decorator's waiting and attempt limit are left out, because they are timing. Only the predicate that decides whether to retry is modelled (`Discovery.RetryOn`).
- Timestamp parsing (`convert_ts`, `str_to_msecs`) is left out, because it is date arithmetic over the clock. The end timestamp is an `Option<int>` in milliseconds.
- Server-side keyword arguments (`startts`, `endts`, `nodata`, `prefix` other than the item prefix, extra `meta`) are left out, because their meaning lies on the server. The `start` seek key is modelled as "keys not below `start`". The server's dropping of `startafter` when `start` is given is not modelled: the model's store applies both the cursor and the seek key. The scanner clears `start` only for later batches (scanner.py lines 240-242); within the batch it passes `start` on every page (line 247) and on every per-partition read (line 95), which the model keeps.
- Python generators are modelled as the sequence they would produce. Loops that run until the store is exhausted take a `fuel` bound: a page walk is bounded by the window, batches and scans by `fuel`, the prefix walks by `fuel` steps. `Prefixes.CodesEnd` says how much fuel is enough.
- The random partition pick is an argument (`Option<nat>`) of the accessor, not a random draw. The scanner always reads every partition: `get_new_batch(random_mode=True)` is not modelled.
- Store.StoreGet: ignores timestamps. The scanner also passes `endts` to the store on every primary read (scanner.py lines 180-181, 232 and 247), and the model applies only the scanner's own test at line 269. With a store that honours `endts`, a record newer than `endts` never reaches the page walk. In the model it does: it can stop the scan at the stop-before key, trigger an exclude jump, and count toward the page being full. Example: records a at ts 100, s at ts 500 and t at ts 100, stop-before key `s`, `endts` 280. A store that honours `endts` never returns s, so the scanner hands out a and t. The model reads s, switches the scanner off, and hands out only a.
- The class-level list of default secondary collections, shared between instances, is left out. The scanner's secondaries are a parameter.
- The monkey-patch of `_allows_mpack` in `generate_prefixes` is left out, because it is a transport setting.
- Scanner.Joined: the scanner runs with the reference join (`Secondary.Lookup`) and the corrected accessor (`CachedBlocks.Get`), not with the join and accessor as written. The as-written forms are modelled on their own, and the rows under Findings show where they differ.
- Scanner.Reset: the secondary depletion flags it also clears live in the as-written join (`Secondary.SecCall`), not in the scanner state, because the scanner runs with the reference join.
- A secondary call with a count of zero would fail the accessor's `assert`, and records missing `_key` or `_ts` raise `KeyError`, which is swallowed. Neither is modelled: inside a page the count is positive, and every record has a key and timestamp.
- BatchProps.BatchYields: the seek-key case assumes a server that applies both `start` and `startafter`. The scanner's comment at scanner.py line 240 says the server drops `startafter` when `start` is given, and the scanner passes `start` on every page of the batch (line 247). Against such a server, later pages and repeated per-partition reads restart at `start`. Example: store keys a b c d, seek key `a`, `max_next_records` 2, batch size 4. The code as written then hands out a b a b, while `BatchProps.BatchYields` states a b c d.
- BatchProps.ScanYields: stated for a scan with no pending seek key (`start == ""`). With a seek key, the first batch is covered by `BatchProps.BatchYields`.
- DrainProps.ScanEnds: stated for a scanner without a stop key, and for a scan that did not reach its count limit; a stop key or the count limit ends a scan before the store is drained, as intended.
- PageProps.PageSound, `BatchProps.BatchYields`, `BatchProps.ScanYields` and `DrainProps.ScanEnds` assume `PageProps.JumpsOk`: every store key an exclude prefix matches sorts at or below `prefix + '~'` for its first matching prefix. Nothing is assumed without excludes, and keys made of characters below `~` always meet it (`PageProps.KeyCharsJumpsOk`). On a key that fails it, such as `p~x` under the exclude prefix `p`, the code as written loops forever when no later record comes back in the same fetch. For example, when `p~x` is the last store key, the jump sets the cursor to `p~`, which sorts below the key, so the same key is read again, and `or jump_prefix` keeps the loop going (scanner.py lines 254 and 281-282). Otherwise the code gets past such a key: with a single partition holding `p~x` and `q`, the first page fetches both, jumps to `p~` on `p~x` and leaves `q` cached. The next page keeps `q`, because `q` sorts after `p~` (lines 72-83), hands it out and ends the scan. The theorems do not cover that case.
- Scanner.Merge: the model takes the later of the two timestamps, the corrected merge. As written, the merged `_ts` is the secondary's, and the end-timestamp test at scanner.py line 269 runs after the merge. So a primary record at 300 with a secondary record at 250, under end timestamp 280, is handed out by the code as written and dropped by the model.
- Scanner.SetStartafter: the scanner's guarantees carry over a cursor change only when the cursor moves forward or the cache is empty (`BatchProps.SetStartafterLive`). Moving the cursor back over a filled cache loses records, because the refetch starts after the last cached key. Example: partitions a c e and b d f, batch size and page size 2. The first batch hands out a and b and leaves c and d cached. After the cursor is set back to a, the cache keeps c and d, the next refetch starts after d, and b is never handed out again.
- LegacyWrapper.LegacyGet: sound but not complete. It asks every partition for its share plus ten and returns the first `count` keys of everything read, and the caller's next cursor is the last key returned. Example: two partitions, count 100, every key of the first below every key of the second. Each partition is asked for 70; the call returns the first partition's 70 records and the second's first 30; the next call starts after the second's 30th, so the first partition's records 71 to 100 are never handed out (`__init__.py` lines 57-77).
- LegacyScanner.ScanPrefixesSound: states soundness and order only. Completeness is proved for the underlying walk (`Prefixes.CodesComplete`), but is not carried through the older accessor.
- The older scanner's `get_new_batch`, `get_secondary_data` and `_get_max_next_records` are not modelled separately. They repeat the newer ones, with these differences:
  - the has-many attachment, modelled by `LegacyScanner.AttachHasMany`;
  - a secondary count taken from the per-page maximum, not the batch size;
  - a membership test in place of a pop;
  - its pages come through the older accessor (`LegacyWrapper.LegacyGet`), which can skip records, not through the read-ahead cache;
  - it has no random mode;
  - has-many items are attached before the secondary fields are merged in (`__init__.py` lines 234-243), so a secondary field of the same name overwrites them.
- LegacyScanner.AdditionalColumnData: reads a single page, as written, because the exit test at `__init__.py` line 190 holds after every page. A multi-page reading is not modelled.
- A has-many property named `_key` or `_ts` is not modelled, because those are kept as separate record fields.
- The cursor `[0]` that the older scanner passes for item data is treated as "no cursor", because every key is a string and sorts after the integer 0 in Python 2.
- Partition names are matched literally. `re.match` treats the collection name as a regular expression, but names with regular-expression metacharacters are not modelled.
- A negative `codelen` is not modelled, because lengths are `nat`.
- A negative `batchsize`, `max_next_records` or `count` is not modelled, because `Config.batchsize`, `Config.maxNext` and `State.total` are `nat`. As written, a negative `batchsize` or `max_next_records` loops forever. The page size is truthy at line 244 and passes the `assert` at line 67. The refetch test at line 85 fails, so nothing is handed out, and `count >= max_next_records` keeps the scanner on (line 281). A negative `count` makes the first page yield nothing and switches the scanner off. The batch loop's guard `mnr <= 0` (`Scanner.BatchLoop`) stands for the source's truthiness test `while max_next_records`. The two differ only on a negative page size. From these `nat` fields, that arises only when the scanned count exceeds a non-zero count limit. `DrainProps.ScanCounts` shows a scan never gets there from a state within its limit.
- Integers are unbounded, as in Python.

## Findings

| source | as written | input that shows it | evidently intended | confidence | as-written member | corrected member |
|---|---|---|---|---|---|---|
| collection_scanner/scanner.py:262-267 | `r.update(srecord)` copies the secondary's `_ts` over the primary's, so the following `ts > r['_ts']` test compares the secondary timestamp with itself and never fires | primary record at ts 300, secondary record at ts 250: the merged record carries 250 | the merged record carries the later of the two timestamps | not executed | Records.MergeAsWrittenLosesNewerPrimary | Records.MergeSecondary |
| collection_scanner/scanner.py:72-83 | when no cached key is after the cursor, the cache is not cut, and the second loop drops only keys below the cursor, so a record whose key equals the cursor stays | cache a, b with cursor b: b stays and would be handed out again | drop every cached record at or before the cursor | not executed | CachedBlocks.TrimAsWrittenKeepsCursorKey | CacheWindow.TrimOk |
| collection_scanner/scanner.py:86-106 | the refetch starts after the newest cached key, not after the cursor, and the fetched records are appended behind the cache | partitions 1 3 5 7 and 2 8 9, count 2: the second call hands out 3 and 8 and 5 is never handed out | hand out the store's records after the cursor in key order, none missing | not executed | SkewExample.WrittenRefetchSkips | CacheWindow.GetOk |
| collection_scanner/__init__.py:284 | `scan_prefixes` passes `count=1`, and the accessor subscripts `count` at line 53 | any call that lists prefixes: `TypeError` at the first store read | pass `count=[1]` and list the prefixes | not executed | LegacyScanner.ScanPrefixesRaises | LegacyScanner.ScanPrefixesSound |
| collection_scanner/scanner.py:206 | `last` is the last key of the last secondary read, which may lie past where an earlier secondary's read was cut off | secondaries b d and e, one record per call, primary b then d: d gets no secondary data although the first secondary holds d | each primary record gets the secondary data for its key | not executed | JoinExamples.LastOvershoots | Secondary.LookupLatest |
| collection_scanner/scanner.py:213-214 | a secondary marked depleted is never read again, although the next batch starts with empty secondary data | secondary holding only c, two records per call, primary a b c in batches of two: c gets no secondary data | a depleted secondary's records still reach the primary records they belong to | not executed | JoinExamples.DepletedDropped | Secondary.LookupLatest |
| collection_scanner/utils.py:23-25 | the count of matched names is compared with the largest index plus one, so a repeated index can make up for a missing one | names c_1 and c_1_old give 2 partitions, with no partition c_0; names c_0, c_1 and c_1_old give none | the partitions are exactly those with indices 0 to n-1 | not executed | Partitions.RepeatedIndexCounted | Partitions.NumPartitionsExact |

=== FILE: batch_props.dfy ===
/**
 The batch loop and the scan as a whole. Pages chain: each one starts at the
 cursor the previous one left, so what a run of pages yields is, in ascending
 key order, the merged form of exactly the store records between the first
 and the last cursor that pass the scanner's rules. A batch yields at most
 `batchsize` records and a scan with a count limit never counts past it.
 */
module BatchProps {
  import opened Keys
  import opened Records
  import opened Wrappers
  import opened Store
  import opened CachedBlocks
  import opened CacheWindow
  import opened Scanner
  import opened PageProps

  /** The loop invariant: an enabled scanner is ready for its next page. */
  ghost predicate Live(w: World, st: State, start: Key) {
    st.enabled ==> Ready(w, st, start)
  }

  // ------------------------------------------------------------ entering the loop

  /** A new scanner is live: it starts with an empty cache, so whatever its
      cursor, the first page reads the store afresh. */
  lemma InitLive(w: World, total: nat, sa: Option<Key>, start: Key)
    requires WellFormed(w.parts) && w.limit > 0 && Accessing(w)
    ensures Live(w, Init(w.parts, total, sa, start), start)
  {
  }

  /** A reset scanner is live whatever its accessor still caches: with no
      cursor the next call drops the cache, so a full rescan is possible. */
  lemma ResetLive(w: World, st: State, start: Key)
    requires WellFormed(w.parts) && w.limit > 0 && Accessing(w) && st.acc.partitions == w.parts
    ensures Live(w, Reset(st), start)
  {
  }

  /** Resuming stays live when the cursor moves forward, is cleared, or the
      cache is empty. Moving it backwards over a filled cache does not: the
      cache still lacks what lies between the two cursors. */
  lemma SetStartafterLive(w: World, st: State, sa: Option<Key>, start: Key)
    requires Live(w, st, start)
    requires (st.startafter.Some? && AtOrAfter(sa, st.startafter)) || sa.None? || st.acc.cache == []
    ensures Live(w, SetStartafter(st, sa), start)
  {
    var c := st.acc.cache;
    if st.enabled && sa.Some? && |c| > 0 && st.startafter.Some? {
      forall x | InStore(w.parts, x) && Above(x, sa, start) && LessEq(x.key, c[|c| - 1].key)
        ensures x in c
      {
        AboveMonotone(x, st.startafter, sa, start);
      }
    }
  }

  // ------------------------------------------------------------ chaining cursors

  lemma ThroughMonotone(x: Rec, a: Option<Key>, b: Option<Key>)
    requires AtOrAfter(b, a) && Through(x, a)
    ensures Through(x, b)
  {
    LessEqTransitive(x.key, a.value, b.value);
  }

  lemma ForwardTransitive(a: Option<Key>, b: Option<Key>, c: Option<Key>)
    requires AtOrAfter(b, a) && AtOrAfter(c, b)
    ensures AtOrAfter(c, a)
  {
    if a.Some? {
      LessEqTransitive(a.value, b.value, c.value);
    }
  }

  /** A record after `lo` and not through `mid` is after `mid`. */
  lemma PastThrough(x: Rec, lo: Option<Key>, mid: Option<Key>, start: Key)
    requires Above(x, lo, start) && !Through(x, mid)
    ensures Above(x, mid, start)
  {
    if mid.Some? {
      LessTotal(x.key, mid.value);
    }
  }

  lemma SoundJoin(w: World, cfg: Config, lo: Option<Key>, mid: Option<Key>, hi: Option<Key>, start: Key,
                  a: seq<Rec>, b: seq<Rec>)
    requires AtOrAfter(mid, lo) && AtOrAfter(hi, mid)
    requires Sound(w, cfg, lo, mid, start, a) && Sound(w, cfg, mid, hi, start, b)
    ensures Sound(w, cfg, lo, hi, start, a + b)
  {
    forall y | y in a + b
      ensures exists x :: InStore(w.parts, x) && Above(x, lo, start) && Through(x, hi)
                          && Passes(cfg, w.join, x) && y == Merge(w.join, x)
    {
      if y in a {
        var x :| InStore(w.parts, x) && Above(x, lo, start) && Through(x, mid) && Passes(cfg, w.join, x) && y == Merge(w.join, x);
        ThroughMonotone(x, mid, hi);
      } else {
        var x :| InStore(w.parts, x) && Above(x, mid, start) && Through(x, hi) && Passes(cfg, w.join, x) && y == Merge(w.join, x);
        AboveMonotone(x, lo, mid, start);
      }
    }
  }

  lemma CoveredJoin(w: World, cfg: Config, lo: Option<Key>, mid: Option<Key>, hi: Option<Key>, start: Key,
                    a: seq<Rec>, b: seq<Rec>)
    requires Covered(w, cfg, lo, mid, start, a) && Covered(w, cfg, mid, hi, start, b)
    ensures Covered(w, cfg, lo, hi, start, a + b)
  {
    forall x | InStore(w.parts, x) && Above(x, lo, start) && Through(x, hi) && Passes(cfg, w.join, x)
      ensures Merge(w.join, x) in a + b
    {
      if !Through(x, mid) {
        PastThrough(x, lo, mid, start);
      }
    }
  }

  /** Every key of `ys` is after the cursor `lo`. */
  predicate KeysAfter(ys: seq<Rec>, lo: Option<Key>) {
    forall y :: y in ys ==> lo.None? || Less(lo.value, y.key)
  }

  /** Every key of `ys` is through the cursor `hi`. */
  predicate KeysThrough(ys: seq<Rec>, hi: Option<Key>) {
    forall y :: y in ys ==> Through(y, hi)
  }

  /** Merging keeps keys, so sound records lie between the cursors. */
  lemma SoundKeys(w: World, cfg: Config, lo: Option<Key>, hi: Option<Key>, start: Key, ys: seq<Rec>)
    requires Sound(w, cfg, lo, hi, start, ys)
    ensures KeysAfter(ys, lo) && KeysThrough(ys, hi)
  {
    forall y | y in ys
      ensures (lo.None? || Less(lo.value, y.key)) && Through(y, hi)
    {
      var x :| InStore(w.parts, x) && Above(x, lo, start) && Through(x, hi) && Passes(cfg, w.join, x) && y == Merge(w.join, x);
    }
  }

  /** Records through `mid` come before records after it. */
  lemma AscendingJoin(a: seq<Rec>, b: seq<Rec>, mid: Option<Key>)
    requires Ascending(a) && Ascending(b) && KeysThrough(a, mid) && KeysAfter(b, mid)
    ensures Ascending(a + b)
  {
    forall y1, y2 | y1 in a && y2 in b
      ensures Less(y1.key, y2.key)
    {
      LessEqLess(y1.key, mid.value, y2.key);
    }
    AscendingAppend(a, b);
  }

  /** Nothing lies between a cursor and itself. */
  lemma CoveredEmpty(w: World, cfg: Config, lo: Option<Key>, start: Key)
    ensures Covered(w, cfg, lo, lo, start, [])
  {
    forall x | InStore(w.parts, x) && Above(x, lo, start)
      ensures !Through(x, lo)
    {
      AboveNotThrough(x, lo, start);
    }
  }

  // ------------------------------------------------------------ the page step

  /** What a page does from a ready state, as far as the batch loop is concerned. */
  ghost predicate StepOk(w: World, cfg: Config, st: State, start: Key, r: (Page, State)) {
    && Live(w, r.1, start)
    && AtOrAfter(r.1.startafter, st.startafter)
    && Sound(w, cfg, st.startafter, r.1.startafter, start, r.0.yielded)
    && Covered(w, cfg, st.startafter, r.1.startafter, start, r.0.yielded)
    && Ascending(r.0.yielded) && KeysThrough(r.0.yielded, r.1.startafter)
  }

  /** Every page from a ready state behaves. */
  ghost predicate Steps(w: World, cfg: Config, step: PageStep, start: Key) {
    forall st: State, mnr: nat, batchcount: int {:trigger step(st, mnr, batchcount)} ::
      Ready(w, st, start) && mnr > 0 ==> StepOk(w, cfg, st, start, step(st, mnr, batchcount))
  }

  /** Every page yields at most its page size, counts what it yields as
      scanned and takes it off the batch, and keeps the count limit. */
  ghost predicate Counts(step: PageStep) {
    forall st: State, mnr: nat, batchcount: int {:trigger step(st, mnr, batchcount)} ::
      mnr > 0 ==>
        var r := step(st, mnr, batchcount);
        && |r.0.yielded| <= mnr
        && r.0.batchcount == batchcount - |r.0.yielded|
        && r.1.scanned == st.scanned + |r.0.yielded|
        && r.1.total == st.total && r.1.start == st.start
  }

  /** A page keeps the invariant: a page that stops switches the scanner off,
      any other leaves it ready. */
  lemma PageLive(w: World, cfg: Config, st: State, start: Key, mnr: nat, batchcount: int)
    requires Ready(w, st, start) && mnr > 0 && JumpsOk(cfg, w.parts)
    ensures Live(w, ReadPage(w, cfg, st, start, mnr, batchcount).1, start)
  {
    PageStopDisables(w, cfg, st, start, mnr, batchcount);
    if !ReadPage(w, cfg, st, start, mnr, batchcount).0.stopped {
      PageReady(w, cfg, st, start, mnr, batchcount);
    }
  }

  /** One page of the scanner behaves. */
  lemma PageOk(w: World, cfg: Config, st: State, start: Key, mnr: nat, batchcount: int)
    requires Ready(w, st, start) && mnr > 0 && JumpsOk(cfg, w.parts)
    ensures StepOk(w, cfg, st, start, ReadPage(w, cfg, st, start, mnr, batchcount))
  {
    var r := ReadPage(w, cfg, st, start, mnr, batchcount);
    PageLive(w, cfg, st, start, mnr, batchcount);
    PageForward(w, cfg, st, start, mnr, batchcount);
    PageSound(w, cfg, st, start, mnr, batchcount);
    PageCovered(w, cfg, st, start, mnr, batchcount);
    PageAscending(w, cfg, st, start, mnr, batchcount);
    SoundKeys(w, cfg, st.startafter, r.1.startafter, start, r.0.yielded);
  }

  lemma PagingSteps(w: World, cfg: Config, start: Key)
    requires JumpsOk(cfg, w.parts)
    ensures Steps(w, cfg, Paging(w, cfg, start), start)
  {
    forall st: State, mnr: nat, batchcount: int | Ready(w, st, start) && mnr > 0
      ensures StepOk(w, cfg, st, start, Paging(w, cfg, start)(st, mnr, batchcount))
    {
      PageOk(w, cfg, st, start, mnr, batchcount);
    }
  }

  /** The page counters of the scanner. */
  lemma PageCounts(w: World, cfg: Config, st: State, start: Key, mnr: nat, batchcount: int)
    requires Accessing(w) && mnr > 0
    ensures var r := ReadPage(w, cfg, st, start, mnr, batchcount);
            && |r.0.yielded| <= mnr
            && r.0.batchcount == batchcount - |r.0.yielded|
            && r.1.scanned == st.scanned + |r.0.yielded|
  {
    PageYields(w, cfg, st, start, mnr, batchcount);
    PageScanned(w, cfg, st, start, mnr, batchcount);
  }

  lemma PagingCounts(w: World, cfg: Config, start: Key)
    requires Accessing(w)
    ensures Counts(Paging(w, cfg, start))
  {
    forall st: State, mnr: nat, batchcount: int | mnr > 0
      ensures var r := Paging(w, cfg, start)(st, mnr, batchcount);
              && |r.0.yielded| <= mnr
              && r.0.batchcount == batchcount - |r.0.yielded|
              && r.1.scanned == st.scanned + |r.0.yielded|
              && r.1.total == st.total && r.1.start == st.start
    {
      PageCounts(w, cfg, st, start, mnr, batchcount);
    }
  }

  // ------------------------------------------------------------ the batch loop

  lemma {:induction false} BatchLive(w: World, cfg: Config, step: PageStep, st: State, start: Key, batchcount: int, fuel: nat)
    requires Steps(w, cfg, step, start) && Live(w, st, start)
    ensures Live(w, BatchLoop(step, cfg, st, batchcount, fuel).1, start)
    decreases fuel
  {
    var mnr := MaxNext(cfg, st, batchcount);
    if fuel > 0 && mnr > 0 && st.enabled {
      var r := step(st, mnr, batchcount);
      BatchLive(w, cfg, step, r.1, start, r.0.batchcount, fuel - 1);
    }
  }

  /** The batch loop never moves the cursor backwards. */
  lemma {:induction false} BatchForward(w: World, cfg: Config, step: PageStep, st: State, start: Key, batchcount: int, fuel: nat)
    requires Steps(w, cfg, step, start) && Live(w, st, start)
    ensures AtOrAfter(BatchLoop(step, cfg, st, batchcount, fuel).1.startafter, st.startafter)
    decreases fuel
  {
    var mnr := MaxNext(cfg, st, batchcount);
    if fuel > 0 && mnr > 0 && st.enabled {
      var r := step(st, mnr, batchcount);
      BatchForward(w, cfg, step, r.1, start, r.0.batchcount, fuel - 1);
      ForwardTransitive(st.startafter, r.1.startafter, BatchLoop(step, cfg, r.1, r.0.batchcount, fuel - 1).1.startafter);
    }
  }

  /** What the batch loop yields is sound between the cursor it starts from
      and the cursor it leaves. */
  lemma {:induction false} BatchSound(w: World, cfg: Config, step: PageStep, st: State, start: Key, batchcount: int, fuel: nat)
    requires Steps(w, cfg, step, start) && Live(w, st, start)
    ensures var r := BatchLoop(step, cfg, st, batchcount, fuel);
            Sound(w, cfg, st.startafter, r.1.startafter, start, r.0)
    decreases fuel
  {
    var mnr := MaxNext(cfg, st, batchcount);
    if fuel > 0 && mnr > 0 && st.enabled {
      var r := step(st, mnr, batchcount);
      BatchSound(w, cfg, step, r.1, start, r.0.batchcount, fuel - 1);
      BatchForward(w, cfg, step, r.1, start, r.0.batchcount, fuel - 1);
      var rest := BatchLoop(step, cfg, r.1, r.0.batchcount, fuel - 1);
      SoundJoin(w, cfg, st.startafter, r.1.startafter, rest.1.startafter, start, r.0.yielded, rest.0);
    }
  }

  /** The batch loop yields every store record that passes the rules between
      the cursor it starts from and the cursor it leaves. */
  lemma {:induction false} BatchCovered(w: World, cfg: Config, step: PageStep, st: State, start: Key, batchcount: int, fuel: nat)
    requires Steps(w, cfg, step, start) && Live(w, st, start)
    ensures var r := BatchLoop(step, cfg, st, batchcount, fuel);
            Covered(w, cfg, st.startafter, r.1.startafter, start, r.0)
    decreases fuel
  {
    var mnr := MaxNext(cfg, st, batchcount);
    if fuel > 0 && mnr > 0 && st.enabled {
      var r := step(st, mnr, batchcount);
      BatchCovered(w, cfg, step, r.1, start, r.0.batchcount, fuel - 1);
      var rest := BatchLoop(step, cfg, r.1, r.0.batchcount, fuel - 1);
      CoveredJoin(w, cfg, st.startafter, r.1.startafter, rest.1.startafter, start, r.0.yielded, rest.0);
    } else {
      CoveredEmpty(w, cfg, st.startafter, start);
    }
  }

  /** Everything the batch loop yields lies after the cursor it starts from. */
  lemma BatchAfter(w: World, cfg: Config, step: PageStep, st: State, start: Key, batchcount: int, fuel: nat)
    requires Steps(w, cfg, step, start) && Live(w, st, start)
    ensures KeysAfter(BatchLoop(step, cfg, st, batchcount, fuel).0, st.startafter)
  {
    BatchSound(w, cfg, step, st, start, batchcount, fuel);
    var r := BatchLoop(step, cfg, st, batchcount, fuel);
    SoundKeys(w, cfg, st.startafter, r.1.startafter, start, r.0);
  }

  /** The batch loop yields in strictly ascending key order. */
  lemma {:induction false} BatchAscending(w: World, cfg: Config, step: PageStep, st: State, start: Key, batchcount: int, fuel: nat)
    requires Steps(w, cfg, step, start) && Live(w, st, start)
    ensures Ascending(BatchLoop(step, cfg, st, batchcount, fuel).0)
    decreases fuel
  {
    var mnr := MaxNext(cfg, st, batchcount);
    if fuel > 0 && mnr > 0 && st.enabled {
      var r := step(st, mnr, batchcount);
      BatchAscending(w, cfg, step, r.1, start, r.0.batchcount, fuel - 1);
      BatchAfter(w, cfg, step, r.1, start, r.0.batchcount, fuel - 1);
      AscendingJoin(r.0.yielded, BatchLoop(step, cfg, r.1, r.0.batchcount, fuel - 1).0, r.1.startafter);
    }
  }

  /** A batch yields no more records than it still wants, counts each as
      scanned, and keeps the count limit. */
  lemma {:induction false} BatchCounts(cfg: Config, step: PageStep, st: State, batchcount: int, fuel: nat)
    requires Counts(step)
    ensures var r := BatchLoop(step, cfg, st, batchcount, fuel);
            && (batchcount >= 0 ==> |r.0| <= batchcount)
            && r.1.scanned == st.scanned + |r.0|
            && r.1.total == st.total && r.1.start == st.start
            && (st.total != 0 && st.scanned <= st.total ==> r.1.scanned <= st.total)
    decreases fuel
  {
    var mnr := MaxNext(cfg, st, batchcount);
    if fuel > 0 && mnr > 0 && st.enabled {
      var r := step(st, mnr, batchcount);
      BatchCounts(cfg, step, r.1, r.0.batchcount, fuel - 1);
    }
  }

  // ------------------------------------------------------------ one batch, the scan

  /** A batch of a live scanner yields, in strictly ascending key order, the
      merged form of exactly the store records between the cursor it starts
      from and the cursor it leaves that pass the rules, and leaves the
      scanner live. */
  lemma BatchYields(w: World, cfg: Config, st: State, fuel: nat)
    requires Live(w, st, st.start) && JumpsOk(cfg, w.parts)
    ensures var r := Batch(w, cfg, st, fuel);
            && Sound(w, cfg, st.startafter, r.1.startafter, st.start, r.0)
            && Covered(w, cfg, st.startafter, r.1.startafter, st.start, r.0)
            && Ascending(r.0)
            && Live(w, r.1, st.start)
            && AtOrAfter(r.1.startafter, st.startafter)
  {
    var step := Paging(w, cfg, st.start);
    var st0 := st.(start := "");
    PagingSteps(w, cfg, st.start);
    BatchSound(w, cfg, step, st0, st.start, cfg.batchsize, fuel);
    BatchCovered(w, cfg, step, st0, st.start, cfg.batchsize, fuel);
    BatchAscending(w, cfg, step, st0, st.start, cfg.batchsize, fuel);
    BatchLive(w, cfg, step, st0, st.start, cfg.batchsize, fuel);
    BatchForward(w, cfg, step, st0, st.start, cfg.batchsize, fuel);
  }

  /** A batch yields at most `batchsize` records, counts each as scanned, and
      never counts past a count limit; the seek key is cleared. */
  lemma BatchBound(w: World, cfg: Config, st: State, fuel: nat)
    requires Accessing(w)
    ensures var r := Batch(w, cfg, st, fuel);
            && |r.0| <= cfg.batchsize
            && r.1.scanned == st.scanned + |r.0|
            && r.1.total == st.total && r.1.start == ""
            && (st.total != 0 && st.scanned <= st.total ==> r.1.scanned <= st.total)
  {
    PagingCounts(w, cfg, st.start);
    BatchCounts(cfg, Paging(w, cfg, st.start), st.(start := ""), cfg.batchsize, fuel);
  }

  /** What a batch from a live scanner without a seek key does, as far as
      the scan loop is concerned. */
  ghost predicate BatchOk(w: World, cfg: Config, st: State, r: (seq<Rec>, State)) {
    && Sound(w, cfg, st.startafter, r.1.startafter, "", r.0)
    && Covered(w, cfg, st.startafter, r.1.startafter, "", r.0)
    && Ascending(r.0)
    && Live(w, r.1, "") && r.1.start == ""
    && AtOrAfter(r.1.startafter, st.startafter)
  }

  /** Every batch from a live scanner without a seek key behaves. */
  ghost predicate Batches(w: World, cfg: Config, batch: BatchStep) {
    forall st: State, fuel: nat {:trigger batch(st, fuel)} ::
      Live(w, st, "") && st.start == "" ==> BatchOk(w, cfg, st, batch(st, fuel))
  }

  lemma BatchingOk(w: World, cfg: Config)
    requires Accessing(w) && JumpsOk(cfg, w.parts)
    ensures Batches(w, cfg, Batching(w, cfg))
  {
    forall st: State, fuel: nat | Live(w, st, "") && st.start == ""
      ensures BatchOk(w, cfg, st, Batching(w, cfg)(st, fuel))
    {
      BatchYields(w, cfg, st, fuel);
      BatchBound(w, cfg, st, fuel);
    }
  }

  /** The batches of a scan loop without a seek key, joined, are the merged
      form of exactly the store records between the cursor the scan starts
      from and the cursor it leaves that pass the rules, in strictly
      ascending key order. */
  lemma {:induction false} ScanLoopYields(w: World, cfg: Config, batch: BatchStep, st: State, fuel: nat)
    requires Batches(w, cfg, batch) && Live(w, st, "") && st.start == ""
    ensures var r := ScanLoop(batch, st, fuel);
            && Sound(w, cfg, st.startafter, r.1.startafter, "", Concat(r.0))
            && Covered(w, cfg, st.startafter, r.1.startafter, "", Concat(r.0))
            && Ascending(Concat(r.0))
            && AtOrAfter(r.1.startafter, st.startafter)
    decreases fuel
  {
    if fuel > 0 && st.enabled {
      var b := batch(st, fuel);
      ScanLoopYields(w, cfg, batch, b.1, fuel - 1);
      var rest := ScanLoop(batch, b.1, fuel - 1);
      ScanStep(w, cfg, st.startafter, b.1.startafter, rest.1.startafter, b.0, rest.0);
      ForwardTransitive(st.startafter, b.1.startafter, rest.1.startafter);
    } else {
      CoveredEmpty(w, cfg, st.startafter, "");
    }
  }

  /** A whole scan without a seek key yields, in strictly ascending key
      order, the merged form of exactly the store records between the cursor
      it starts from and the cursor it leaves that pass the rules. */
  lemma ScanYields(w: World, cfg: Config, st: State, fuel: nat)
    requires Accessing(w) && JumpsOk(cfg, w.parts) && Live(w, st, "") && st.start == ""
    ensures var r := ScanBatches(w, cfg, st, fuel);
            && Sound(w, cfg, st.startafter, r.1.startafter, "", Concat(r.0))
            && Covered(w, cfg, st.startafter, r.1.startafter, "", Concat(r.0))
            && Ascending(Concat(r.0))
  {
    BatchingOk(w, cfg);
    ScanLoopYields(w, cfg, Batching(w, cfg), st, fuel);
  }

  /** One batch followed by the rest of the scan. */
  lemma ScanStep(w: World, cfg: Config, lo: Option<Key>, mid: Option<Key>, hi: Option<Key>, b: seq<Rec>, bs: seq<seq<Rec>>)
    requires Sound(w, cfg, lo, mid, "", b) && Covered(w, cfg, lo, mid, "", b) && Ascending(b) && AtOrAfter(mid, lo)
    requires Sound(w, cfg, mid, hi, "", Concat(bs)) && Covered(w, cfg, mid, hi, "", Concat(bs)) && Ascending(Concat(bs))
    requires AtOrAfter(hi, mid)
    ensures var all := Concat(if |b| > 0 then [b] + bs else bs);
            Sound(w, cfg, lo, hi, "", all) && Covered(w, cfg, lo, hi, "", all) && Ascending(all)
  {
    var all := if |b| > 0 then [b] + bs else bs;
    assert Concat(all) == b + Concat(bs) by {
      if |b| > 0 {
        assert all[0] == b && all[1..] == bs;
      }
    }
    SoundJoin(w, cfg, lo, mid, hi, "", b, Concat(bs));
    CoveredJoin(w, cfg, lo, mid, hi, "", b, Concat(bs));
    SoundKeys(w, cfg, lo, mid, "", b);
    SoundKeys(w, cfg, mid, hi, "", Concat(bs));
    AscendingJoin(b, Concat(bs), mid);
  }
}

=== FILE: cache.dfy ===
/**
 The partition-aware accessor with its cache window (`_CachedBlocksCollection`,
 scanner.py lines 45-116). A call trims the persistent cache against the
 requested `startafter`, fetches from every partition when the cache is short,
 sorts the fresh records by key, appends them to the cache and hands out up to
 `count` records from its front.

 Both the code as written and a corrected accessor are modelled: the written
 trim can keep an entry equal to `startafter`, and the written refetch starts
 after the newest cached key, which skips records of a partition whose block
 ended earlier than another partition's.
 */
module CachedBlocks {
  import opened Keys
  import opened Records
  import opened Wrappers
  import opened Store
  import opened Sorting

  /** The accessor: its partitions (one when the collection is not split) and
      the records already fetched but not handed out yet. */
  datatype Accessor = Accessor(partitions: seq<Partition>, cache: seq<Rec>)

  /** The records handed out by a call are `window[..n]`; the caller pops them
      one at a time, so after it has pulled `m <= n` records the accessor's
      cache is `window[m..]` (a consumer that stops early leaves the rest). */
  datatype Window = Window(window: seq<Rec>, n: nat)

  // ---------------------------------------------------------------- trimming

  /** Index of the first entry at or after `i` whose key is above `s`, or `|c|`. */
  function FirstAbove(c: seq<Rec>, s: Key, i: nat): (k: nat)
    requires i <= |c|
    ensures i <= k <= |c|
    ensures k < |c| ==> Less(s, c[k].key)
    decreases |c| - i
  {
    if i == |c| then |c|
    else if Less(s, c[i].key) then i
    else FirstAbove(c, s, i + 1)
  }

  /** `while cache and cache[0][0] < startafter: cache.pop(0)` */
  function DropBelow(c: seq<Rec>, s: Key): (r: seq<Rec>)
    ensures |r| <= |c| && r == c[|c| - |r|..]
    ensures forall i :: 0 <= i < |c| - |r| ==> Less(c[i].key, s)
    ensures |r| > 0 ==> !Less(r[0].key, s)
  {
    if |c| > 0 && Less(c[0].key, s) then DropBelow(c[1..], s) else c
  }

  /** The trim exactly as written (scanner.py lines 72-83): cut at the first
      key above `startafter` if there is one, otherwise keep the cache whole,
      then drop leading keys below `startafter`. */
  function TrimAsWritten(c: seq<Rec>, sa: Option<Key>): (r: seq<Rec>)
    ensures |r| <= |c| && r == c[|c| - |r|..]
    ensures sa.None? ==> r == []
    ensures sa.Some? && |r| > 0 ==> !Less(r[0].key, sa.value)
  {
    match sa
    case None => []
    case Some(s) =>
      var k := FirstAbove(c, s, 0);
      var d := if k < |c| then c[k..] else c;
      var r := DropBelow(d, s);
      SuffixOfSuffix(c, d, r);
      r
  }

  /** A suffix of a suffix is a suffix. */
  lemma SuffixOfSuffix(c: seq<Rec>, d: seq<Rec>, r: seq<Rec>)
    requires |d| <= |c| && d == c[|c| - |d|..]
    requires |r| <= |d| && r == d[|d| - |r|..]
    ensures r == c[|c| - |r|..]
  {
  }

  /** The intended trim: drop every leading entry whose key is not after
      `startafter`, so that nothing handed out repeats the cursor's key. */
  function Trim(c: seq<Rec>, sa: Option<Key>): (r: seq<Rec>)
    ensures |r| <= |c| && r == c[|c| - |r|..]
    ensures sa.None? ==> r == []
    ensures sa.Some? ==> forall i :: 0 <= i < |c| - |r| ==> LessEq(c[i].key, sa.value)
    ensures sa.Some? && |r| > 0 ==> Less(sa.value, r[0].key)
  {
    match sa
    case None => []
    case Some(s) => DropThrough(c, s)
  }

  function DropThrough(c: seq<Rec>, s: Key): (r: seq<Rec>)
    ensures |r| <= |c| && r == c[|c| - |r|..]
    ensures forall i :: 0 <= i < |c| - |r| ==> LessEq(c[i].key, s)
    ensures |r| > 0 ==> Less(s, r[0].key)
  {
    if |c| == 0 then c
    else if LessEq(c[0].key, s) then DropThrough(c[1..], s)
    else LessTotal(c[0].key, s); c
  }

  /** The written trim keeps an entry equal to `startafter` when no cached key
      is above it: cache `a, b` trimmed against `b` still holds `b`, which the
      next call hands out although the store contract says keys after `b`. */
  lemma TrimAsWrittenKeepsCursorKey()
    ensures var c := [Rec("a", 0, map[]), Rec("b", 0, map[])];
            TrimAsWritten(c, Some("b")) == [c[1]] && Trim(c, Some("b")) == []
  {
    var c := [Rec("a", 0, map[]), Rec("b", 0, map[])];
    assert Less("a", "b");
    LessIrreflexive("b");
    LessAsymmetric("a", "b");
    assert FirstAbove(c, "b", 0) == 2;
    assert DropBelow(c[1..], "b") == c[1..];
  }

  /** On an ascending cache the corrected trim leaves only keys after the cursor. */
  lemma TrimAbove(c: seq<Rec>, s: Key)
    requires Ascending(c)
    ensures forall x :: x in Trim(c, Some(s)) ==> Less(s, x.key)
  {
    var r := Trim(c, Some(s));
    forall x | x in r
      ensures Less(s, x.key)
    {
      var i :| 0 <= i < |r| && r[i] == x;
      if i > 0 {
        assert r[0] == c[|c| - |r|] && r[i] == c[|c| - |r| + i];
        LessTransitive(s, r[0].key, x.key);
      }
    }
  }

  // ----------------------------------------------------------- fetching

  /** The partitions one call reads: all of them, or in random mode the one
      chosen (the random choice itself is a parameter of the model). */
  function Columns(parts: seq<Partition>, pick: Option<nat>): (cols: seq<Partition>)
    requires pick.Some? ==> pick.value < |parts|
    ensures pick.None? ==> cols == parts
    ensures pick.Some? ==> cols == [parts[pick.value]]
  {
    match pick
    case None => parts
    case Some(i) => [parts[i]]
  }

  /** The block each partition's read loop returns, partition by partition. */
  function Blocks(cols: seq<Partition>, count: nat, after: Option<Key>, start: Key, limit: nat): seq<seq<Rec>> {
    seq(|cols|, j requires 0 <= j < |cols| => FetchLoop(cols[j], count, after, start, limit))
  }

  /** The blocks joined in order. */
  function Concat(bs: seq<seq<Rec>>): seq<Rec> {
    if |bs| == 0 then [] else bs[0] + Concat(bs[1..])
  }

  /** The fan-out: each partition's read loop in turn, records appended in
      arrival order. */
  function FanOut(cols: seq<Partition>, count: nat, after: Option<Key>, start: Key, limit: nat): seq<Rec> {
    Concat(Blocks(cols, count, after, start, limit))
  }

  /** Where a refetch starts: after the newest cached key when the cache is not
      empty (Python 2 orders `None` below every string, so `max` then picks the
      cached key), after the requested cursor otherwise. */
  function FetchStart(c: seq<Rec>, sa: Option<Key>): (f: Option<Key>)
    ensures |c| == 0 ==> f == sa
    ensures |c| > 0 ==> f.Some? && LessEq(c[|c| - 1].key, f.value)
    ensures |c| > 0 && sa.Some? ==> LessEq(sa.value, f.value)
  {
    if |c| == 0 then sa
    else match sa
      case None => Some(c[|c| - 1].key)
      case Some(s) => Some(Max(s, c[|c| - 1].key))
  }

  /** The call exactly as written (scanner.py lines 61-112), up to the point
      where records start being handed out. */
  function GetAsWritten(acc: Accessor, pick: Option<nat>, count: nat, sa: Option<Key>, start: Key, limit: nat): (w: Window)
    requires count > 0
    requires pick.Some? ==> pick.value < |acc.partitions|
    ensures w.n <= count && w.n <= |w.window| && (w.n == count || w.n == |w.window|)
  {
    var cols := Columns(acc.partitions, pick);
    var c := TrimAsWritten(acc.cache, sa);
    var fetched := if |c| < count * |cols| then FanOut(cols, count, FetchStart(c, sa), start, limit) else [];
    var window := c + Sort(fetched);
    Window(window, Min(count, |window|))
  }

  /** The smaller of two optional bounds, `None` standing for "no bound". */
  function MinBound(a: Option<Key>, b: Option<Key>): (r: Option<Key>)
    ensures r.None? <==> a.None? && b.None?
    ensures a.Some? ==> r.Some? && LessEq(r.value, a.value)
    ensures b.Some? ==> r.Some? && LessEq(r.value, b.value)
    ensures r == a || r == b
  {
    match (a, b)
    case (None, _) => b
    case (_, None) => a
    case (Some(x), Some(y)) =>
      LessTotal(x, y);
      if Less(y, x) then b else a
  }

  /** The completeness frontier of a fan-out: the smallest last key among the
      blocks that came back full. Up to it every partition's records have all
      arrived; above it a full partition may hold more. */
  function Frontier(bs: seq<seq<Rec>>, count: nat): (f: Option<Key>) {
    if |bs| == 0 then None
    else
      var rest := Frontier(bs[1..], count);
      if count == 0 || |bs[0]| != count then rest else MinBound(Some(bs[0][count - 1].key), rest)
  }

  /** The records whose key is not above the bound `f` (all of them when `f` is `None`). */
  function UpTo(s: seq<Rec>, f: Option<Key>): (r: seq<Rec>)
    ensures |r| <= |s|
    ensures forall x :: x in r ==> x in s && (f.None? || LessEq(x.key, f.value))
  {
    if |s| == 0 then []
    else (if f.None? || LessEq(s[0].key, f.value) then [s[0]] else []) + UpTo(s[1..], f)
  }

  /** The fresh records the corrected call keeps: fan-out records up to the frontier. */
  function Fetched(cols: seq<Partition>, count: nat, after: Option<Key>, start: Key, limit: nat): (r: seq<Rec>)
    ensures var f := Frontier(Blocks(cols, count, after, start, limit), count);
            forall x :: x in r ==> x in Concat(Blocks(cols, count, after, start, limit)) && (f.None? || LessEq(x.key, f.value))
  {
    var bs := Blocks(cols, count, after, start, limit);
    UpTo(Concat(bs), Frontier(bs, count))
  }

  /** The corrected call: the intended trim, and of the fresh records only
      those up to the frontier join the window, so the window is always a
      gap-free run of the merged store (the rest is fetched again later). */
  function Get(acc: Accessor, pick: Option<nat>, count: nat, sa: Option<Key>, start: Key, limit: nat): (w: Window)
    requires count > 0
    requires pick.Some? ==> pick.value < |acc.partitions|
    ensures w.n <= count && w.n <= |w.window| && (w.n == count || w.n == |w.window|)
  {
    var cols := Columns(acc.partitions, pick);
    var c := Trim(acc.cache, sa);
    var fetched :=
      if |c| < count * |cols| then Fetched(cols, count, FetchStart(c, sa), start, limit) else [];
    var window := c + Sort(fetched);
    Window(window, Min(count, |window|))
  }

  /** The accessor after its consumer has pulled `m` of the handed-out records. */
  function Consume(acc: Accessor, w: Window, m: nat): (a: Accessor)
    requires m <= w.n <= |w.window|
    ensures a.partitions == acc.partitions
    ensures w.window == w.window[..m] + a.cache
  {
    Accessor(acc.partitions, w.window[m..])
  }
}

=== FILE: cache_window.dfy ===
/**
 What the corrected accessor guarantees: every call hands out exactly the
 next `count` records of the merged, key-ordered store after the requested
 cursor (fewer only when the store has no more), with no gaps, no duplicates
 and in strictly ascending key order, for any number of partitions. The
 guarantee rests on an invariant of the persistent cache, which a call
 re-establishes for the cursor its consumer moves on to.
 */
module CacheWindow {
  import opened Keys
  import opened Records
  import opened Wrappers
  import opened Store
  import opened Sorting
  import opened CachedBlocks

  /** Every record of `s` is a store record passing the filter. */
  predicate FromStore(parts: seq<Partition>, s: seq<Rec>, sa: Option<Key>, start: Key) {
    forall x :: x in s ==> InStore(parts, x) && Above(x, sa, start)
  }

  /** No store record passing the filter is missing below the last key of `s`. */
  ghost predicate GapFree(parts: seq<Partition>, s: seq<Rec>, sa: Option<Key>, start: Key) {
    |s| > 0 ==>
      forall x :: InStore(parts, x) && Above(x, sa, start) && LessEq(x.key, s[|s| - 1].key) ==> x in s
  }

  /** Every store record passing the filter is in `s`. */
  ghost predicate Exhausts(parts: seq<Partition>, s: seq<Rec>, sa: Option<Key>, start: Key) {
    forall x :: InStore(parts, x) && Above(x, sa, start) ==> x in s
  }

  /** `s` is the beginning of the merged store after `sa`. */
  ghost predicate WindowOk(parts: seq<Partition>, s: seq<Rec>, sa: Option<Key>, start: Key) {
    Ascending(s) && FromStore(parts, s, sa, start) && GapFree(parts, s, sa, start)
  }

  /** The cache invariant relative to the cursor the next call will ask for:
      an ascending run of store records with no store record missing between
      the cursor and its last key (records at or before the cursor may linger;
      the trim removes them). A `None` cursor empties the cache, so anything goes. */
  ghost predicate CacheOk(parts: seq<Partition>, c: seq<Rec>, sa: Option<Key>, start: Key) {
    sa.Some? ==>
      && Ascending(c)
      && (forall x :: x in c ==> InStore(parts, x) && LessEq(start, x.key))
      && GapFree(parts, c, sa, start)
  }

  /** Cursor `b` is at or after cursor `a` (`None` is before everything). */
  predicate AtOrAfter(b: Option<Key>, a: Option<Key>) {
    a.None? || (b.Some? && LessEq(a.value, b.value))
  }

  // ------------------------------------------------------------ helpers

  lemma AboveMonotone(x: Rec, a: Option<Key>, b: Option<Key>, start: Key)
    requires AtOrAfter(b, a) && Above(x, b, start)
    ensures Above(x, a, start)
  {
    if a.Some? {
      LessEqLess(a.value, b.value, x.key);
    }
  }

  lemma AscendingSuffix(s: seq<Rec>, k: nat)
    requires Ascending(s) && k <= |s|
    ensures Ascending(s[k..])
  {
    assert forall i :: 0 <= i < |s| - k ==> s[k..][i] == s[k + i];
  }

  lemma AscendingPrefix(s: seq<Rec>, k: nat)
    requires Ascending(s) && k <= |s|
    ensures Ascending(s[..k])
  {
  }

  /** Two ascending runs, the second entirely above the first, join into one. */
  lemma AscendingAppend(a: seq<Rec>, b: seq<Rec>)
    requires Ascending(a) && Ascending(b)
    requires forall x, y :: x in a && y in b ==> Less(x.key, y.key)
    ensures Ascending(a + b)
  {
    forall i, j | 0 <= i < j < |a + b|
      ensures Less((a + b)[i].key, (a + b)[j].key)
    {
      if j < |a| {
        assert (a + b)[i] == a[i] && (a + b)[j] == a[j];
      } else if i >= |a| {
        assert (a + b)[i] == b[i - |a|] && (a + b)[j] == b[j - |a|];
      } else {
        assert (a + b)[i] == a[i] && (a + b)[j] == b[j - |a|];
        assert a[i] in a && b[j - |a|] in b;
      }
    }
  }

  lemma AscendingDistinct(s: seq<Rec>)
    requires Ascending(s)
    ensures DistinctKeys(s)
  {
    forall i, j | 0 <= i < j < |s|
      ensures s[i].key != s[j].key
    {
      LessIrreflexive(s[i].key);
    }
  }

  lemma DistinctAppend(a: seq<Rec>, b: seq<Rec>)
    requires DistinctKeys(a) && DistinctKeys(b)
    requires forall x, y :: x in a && y in b ==> x.key != y.key
    ensures DistinctKeys(a + b)
  {
    forall i, j | 0 <= i < j < |a + b|
      ensures (a + b)[i].key != (a + b)[j].key
    {
      if j < |a| {
        assert (a + b)[i] == a[i] && (a + b)[j] == a[j];
      } else if i >= |a| {
        assert (a + b)[i] == b[i - |a|] && (a + b)[j] == b[j - |a|];
      } else {
        assert (a + b)[i] == a[i] && (a + b)[j] == b[j - |a|];
        assert a[i] in a && b[j - |a|] in b;
      }
    }
  }

  // -------------------------------------------------------------- UpTo

  lemma {:induction false} UpToMembers(s: seq<Rec>, f: Option<Key>)
    ensures forall x :: x in UpTo(s, f) <==> x in s && (f.None? || LessEq(x.key, f.value))
    decreases |s|
  {
    if |s| > 0 {
      UpToMembers(s[1..], f);
      assert forall x :: x in s <==> x == s[0] || x in s[1..];
    }
  }

  lemma {:induction false} UpToAppend(a: seq<Rec>, b: seq<Rec>, f: Option<Key>)
    ensures UpTo(a + b, f) == UpTo(a, f) + UpTo(b, f)
    decreases |a|
  {
    if |a| > 0 {
      assert (a + b)[1..] == a[1..] + b;
      UpToAppend(a[1..], b, f);
    } else {
      assert a + b == b;
    }
  }

  lemma {:induction false} UpToAll(s: seq<Rec>, f: Option<Key>)
    requires forall x :: x in s ==> f.None? || LessEq(x.key, f.value)
    ensures UpTo(s, f) == s
    decreases |s|
  {
    if |s| > 0 {
      assert forall x :: x in s[1..] ==> x in s;
      UpToAll(s[1..], f);
      assert s == [s[0]] + s[1..];
    }
  }

  lemma {:induction false} UpToDistinct(s: seq<Rec>, f: Option<Key>)
    requires DistinctKeys(s)
    ensures DistinctKeys(UpTo(s, f))
    decreases |s|
  {
    if |s| > 0 {
      assert DistinctKeys(s[1..]) by {
        forall i, j | 0 <= i < j < |s[1..]|
          ensures s[1..][i].key != s[1..][j].key
        {
          assert s[1..][i] == s[i + 1] && s[1..][j] == s[j + 1];
        }
      }
      UpToDistinct(s[1..], f);
      UpToMembers(s[1..], f);
      var head := if f.None? || LessEq(s[0].key, f.value) then [s[0]] else [];
      forall x, y | x in head && y in UpTo(s[1..], f)
        ensures x.key != y.key
      {
        var k :| 0 <= k < |s[1..]| && s[1..][k] == y;
        assert s[k + 1] == y;
      }
      DistinctAppend(head, UpTo(s[1..], f));
    }
  }

  // ------------------------------------------------------------- blocks

  /** A record is in the joined blocks exactly when some block holds it. */
  lemma {:induction false} ConcatMembers(bs: seq<seq<Rec>>)
    ensures forall x :: x in Concat(bs) <==> exists j :: 0 <= j < |bs| && x in bs[j]
    decreases |bs|
  {
    if |bs| > 0 {
      ConcatMembers(bs[1..]);
      forall x | x in Concat(bs[1..])
        ensures exists j :: 0 <= j < |bs| && x in bs[j]
      {
        var j :| 0 <= j < |bs[1..]| && x in bs[1..][j];
        assert bs[1..][j] == bs[j + 1];
      }
      forall x, j | 0 <= j < |bs| && x in bs[j]
        ensures x in Concat(bs)
      {
        if j > 0 {
          assert bs[1..][j - 1] == bs[j];
        }
      }
    }
  }

  /** Blocks that are each ascending and share no key with one another. */
  ghost predicate Separate(bs: seq<seq<Rec>>) {
    && (forall j :: 0 <= j < |bs| ==> Ascending(bs[j]))
    && (forall i, j, x: Rec, y: Rec :: 0 <= i < j < |bs| && x in bs[i] && y in bs[j] ==> x.key != y.key)
  }

  lemma SeparateTail(bs: seq<seq<Rec>>)
    requires Separate(bs) && |bs| > 0
    ensures Separate(bs[1..])
  {
    var t := bs[1..];
    forall j | 0 <= j < |t|
      ensures Ascending(t[j])
    {
      assert t[j] == bs[j + 1];
    }
    forall i, j, x: Rec, y: Rec | 0 <= i < j < |t| && x in t[i] && y in t[j]
      ensures x.key != y.key
    {
      assert t[i] == bs[i + 1] && t[j] == bs[j + 1];
    }
  }

  /** Separate blocks join into a sequence that carries no key twice. */
  lemma {:induction false} ConcatDistinct(bs: seq<seq<Rec>>)
    requires Separate(bs)
    ensures DistinctKeys(Concat(bs))
    decreases |bs|
  {
    if |bs| > 0 {
      var rest := Concat(bs[1..]);
      AscendingDistinct(bs[0]);
      SeparateTail(bs);
      ConcatDistinct(bs[1..]);
      ConcatMembers(bs[1..]);
      forall x, y | x in bs[0] && y in rest
        ensures x.key != y.key
      {
        var j :| 0 <= j < |bs[1..]| && y in bs[1..][j];
        assert bs[1..][j] == bs[j + 1];
      }
      DistinctAppend(bs[0], rest);
    }
  }

  /** Bounding the joined blocks keeps at least as much as bounding any one of them. */
  lemma {:induction false} ConcatUpToLength(bs: seq<seq<Rec>>, f: Option<Key>, j: nat)
    requires j < |bs|
    ensures |UpTo(Concat(bs), f)| >= |UpTo(bs[j], f)|
    decreases |bs|
  {
    UpToAppend(bs[0], Concat(bs[1..]), f);
    if j > 0 {
      var i: nat := j - 1;
      assert bs[1..][i] == bs[j];
      ConcatUpToLength(bs[1..], f, i);
    }
  }

  /** What one partition's block is: the first `count` records of the partition
      passing the filter, so all of them when it comes back short. */
  lemma BlockFacts(p: Partition, count: nat, after: Option<Key>, start: Key, limit: nat)
    requires Ascending(p) && limit > 0
    ensures var b := FetchLoop(p, count, after, start, limit);
            && Ascending(b)
            && (forall x :: x in b ==> x in p && Above(x, after, start))
            && (|b| < count ==> b == Eligible(p, after, start))
            && |b| <= |Eligible(p, after, start)|
            && (forall i :: 0 <= i < |b| ==> b[i] == Eligible(p, after, start)[i])
  {
    var e := Eligible(p, after, start);
    FetchLoopExact(p, count, after, start, limit);
    EligibleAscending(p, after, start);
    EligibleMembers(p, after, start);
    var b := FetchLoop(p, count, after, start, limit);
    assert b == Take(e, count);
    if count <= |e| {
      AscendingPrefix(e, count);
    }
  }

  /** A record of an ascending run that is not above the last record of a
      prefix of the run lies in that prefix. */
  lemma InPrefixBelowLast(e: seq<Rec>, b: seq<Rec>, x: Rec)
    requires Ascending(e) && |b| <= |e| && forall i :: 0 <= i < |b| ==> b[i] == e[i]
    requires x in e && |b| > 0 && LessEq(x.key, b[|b| - 1].key)
    ensures x in b
  {
    var k :| 0 <= k < |e| && e[k] == x;
    if k >= |b| {
      if k > |b| - 1 {
        LessAsymmetric(e[|b| - 1].key, x.key);
        LessIrreflexive(x.key);
      }
    } else {
      assert b[k] == x;
    }
  }

  lemma AscendingBelowLast(b: seq<Rec>)
    requires Ascending(b) && |b| > 0
    ensures forall x :: x in b ==> LessEq(x.key, b[|b| - 1].key)
  {
  }

  // ----------------------------------------------------------- frontier

  /** A block is full when it holds all `count` records asked for. */
  predicate Full(b: seq<Rec>, count: nat) {
    count > 0 && |b| == count
  }

  /** With no frontier every block came back short. */
  lemma {:induction false} FrontierNone(bs: seq<seq<Rec>>, count: nat)
    requires Frontier(bs, count).None?
    ensures forall j :: 0 <= j < |bs| ==> !Full(bs[j], count)
    decreases |bs|
  {
    if |bs| > 0 {
      if Full(bs[0], count) {
        assert false;
      }
      FrontierNone(bs[1..], count);
      forall j | 1 <= j < |bs|
        ensures !Full(bs[j], count)
      {
        assert bs[1..][j - 1] == bs[j];
      }
    }
  }

  /** A frontier is the last key of some full block. */
  lemma {:induction false} FrontierAttained(bs: seq<seq<Rec>>, count: nat)
    requires Frontier(bs, count).Some?
    ensures exists j :: 0 <= j < |bs| && Full(bs[j], count) && bs[j][count - 1].key == Frontier(bs, count).value
    decreases |bs|
  {
    var rest := Frontier(bs[1..], count);
    var f := Frontier(bs, count);
    if !Full(bs[0], count) || f.value != bs[0][count - 1].key {
      assert f == rest;
      FrontierAttained(bs[1..], count);
      var j :| 0 <= j < |bs[1..]| && Full(bs[1..][j], count) && bs[1..][j][count - 1].key == rest.value;
      assert bs[1..][j] == bs[j + 1];
    }
  }

  /** A frontier lies at or below the last key of every full block. */
  lemma {:induction false} FrontierBelow(bs: seq<seq<Rec>>, count: nat, j: nat)
    requires j < |bs| && Full(bs[j], count)
    ensures Frontier(bs, count).Some? && LessEq(Frontier(bs, count).value, bs[j][count - 1].key)
    decreases |bs|
  {
    var rest := Frontier(bs[1..], count);
    var f := Frontier(bs, count);
    if j > 0 {
      var i: nat := j - 1;
      assert bs[1..][i] == bs[j];
      FrontierBelow(bs[1..], count, i);
      if Full(bs[0], count) {
        LessEqTransitive(f.value, rest.value, bs[j][count - 1].key);
      }
    }
  }

  // ---------------------------------------------------- the fresh records

  /** Below the frontier (or with none), nothing is cut. */
  predicate UnderFrontier(x: Rec, f: Option<Key>) {
    f.None? || LessEq(x.key, f.value)
  }

  /** What one partition's block `b` guarantees: ascending, only records of the
      partition that pass the filter, at most `count` of them, none of the
      partition's passing records missing below its last key, and all of them
      when it came back short. */
  ghost predicate BlockOk(b: seq<Rec>, p: Partition, after: Option<Key>, start: Key, count: nat) {
    && Ascending(b) && |b| <= count
    && (forall x :: x in b ==> x in p && Above(x, after, start))
    && (forall x :: x in p && Above(x, after, start) && (|b| < count || (|b| > 0 && LessEq(x.key, b[|b| - 1].key))) ==> x in b)
  }

  /** The blocks of one fan-out over `parts`, as the fresh-record lemmas need them. */
  ghost predicate BlocksOf(bs: seq<seq<Rec>>, parts: seq<Partition>, after: Option<Key>, start: Key, count: nat) {
    && |bs| == |parts| && Separate(bs)
    && forall j :: 0 <= j < |bs| ==> BlockOk(bs[j], parts[j], after, start, count)
  }

  lemma ReadLoopBlockOk(p: Partition, count: nat, after: Option<Key>, start: Key, limit: nat)
    requires Ascending(p) && limit > 0
    ensures BlockOk(FetchLoop(p, count, after, start, limit), p, after, start, count)
  {
    var b := FetchLoop(p, count, after, start, limit);
    var e := Eligible(p, after, start);
    BlockFacts(p, count, after, start, limit);
    EligibleMembers(p, after, start);
    EligibleAscending(p, after, start);
    forall x | x in p && Above(x, after, start) && (|b| < count || (|b| > 0 && LessEq(x.key, b[|b| - 1].key)))
      ensures x in b
    {
      if |b| >= count && |b| > 0 {
        InPrefixBelowLast(e, b, x);
      }
    }
  }

  lemma BlocksOk(parts: seq<Partition>, count: nat, after: Option<Key>, start: Key, limit: nat)
    requires WellFormed(parts) && limit > 0
    ensures BlocksOf(Blocks(parts, count, after, start, limit), parts, after, start, count)
  {
    var bs := Blocks(parts, count, after, start, limit);
    forall j | 0 <= j < |bs|
      ensures BlockOk(bs[j], parts[j], after, start, count)
    {
      ReadLoopBlockOk(parts[j], count, after, start, limit);
    }
  }

  /** The kept records are distinct store records past the refetch start, below the frontier. */
  lemma FreshSound(bs: seq<seq<Rec>>, parts: seq<Partition>, after: Option<Key>, start: Key, count: nat)
    requires BlocksOf(bs, parts, after, start, count)
    ensures var s := UpTo(Concat(bs), Frontier(bs, count));
            && DistinctKeys(s)
            && forall x :: x in s ==> InStore(parts, x) && Above(x, after, start) && UnderFrontier(x, Frontier(bs, count))
  {
    var f := Frontier(bs, count);
    ConcatDistinct(bs);
    UpToDistinct(Concat(bs), f);
    UpToMembers(Concat(bs), f);
    ConcatMembers(bs);
    forall x | x in Concat(bs)
      ensures InStore(parts, x) && Above(x, after, start)
    {
      var j :| 0 <= j < |bs| && x in bs[j];
      assert BlockOk(bs[j], parts[j], after, start, count);
    }
  }

  /** Up to the frontier nothing the store holds past the refetch start is missing. */
  lemma FreshComplete(bs: seq<seq<Rec>>, parts: seq<Partition>, after: Option<Key>, start: Key, count: nat, x: Rec)
    requires BlocksOf(bs, parts, after, start, count) && count > 0
    requires InStore(parts, x) && Above(x, after, start) && UnderFrontier(x, Frontier(bs, count))
    ensures x in UpTo(Concat(bs), Frontier(bs, count))
  {
    var f := Frontier(bs, count);
    var j :| 0 <= j < |parts| && x in parts[j];
    var b := bs[j];
    assert BlockOk(b, parts[j], after, start, count);
    if |b| >= count {
      FrontierBelow(bs, count, j);
      LessEqTransitive(x.key, f.value, b[|b| - 1].key);
    }
    assert x in b;
    ConcatMembers(bs);
    UpToMembers(Concat(bs), f);
  }

  /** A frontier means some block was full and all of it is kept, so at least
      `count` records are kept. */
  lemma FreshFull(bs: seq<seq<Rec>>, count: nat, f: Key)
    requires Separate(bs) && Frontier(bs, count) == Some(f)
    ensures |UpTo(Concat(bs), Frontier(bs, count))| >= count
  {
    FrontierAttained(bs, count);
    var j :| 0 <= j < |bs| && Full(bs[j], count) && bs[j][count - 1].key == f;
    AscendingBelowLast(bs[j]);
    UpToAll(bs[j], Some(f));
    ConcatUpToLength(bs, Some(f), j);
  }

  // ---------------------------------------------------------------- trim

  /** Trimming a cache that keeps the invariant leaves a valid window after the cursor. */
  lemma TrimOk(parts: seq<Partition>, c0: seq<Rec>, sa: Option<Key>, start: Key)
    requires sa.Some? && CacheOk(parts, c0, sa, start)
    ensures WindowOk(parts, Trim(c0, sa), sa, start)
  {
    TrimFromStore(parts, c0, sa, start);
    TrimGapFree(parts, c0, sa, start);
  }

  lemma TrimFromStore(parts: seq<Partition>, c0: seq<Rec>, sa: Option<Key>, start: Key)
    requires sa.Some? && CacheOk(parts, c0, sa, start)
    ensures Ascending(Trim(c0, sa)) && FromStore(parts, Trim(c0, sa), sa, start)
  {
    var c := Trim(c0, sa);
    AscendingSuffix(c0, |c0| - |c|);
    TrimAbove(c0, sa.value);
    TrimMembers(c0, sa);
  }

  lemma TrimMembers(c0: seq<Rec>, sa: Option<Key>)
    ensures forall x :: x in Trim(c0, sa) ==> x in c0
  {
    var c := Trim(c0, sa);
    var d := |c0| - |c|;
    forall x | x in c
      ensures x in c0
    {
      var i :| 0 <= i < |c| && c[i] == x;
      assert c0[d + i] == x;
    }
  }

  lemma TrimGapFree(parts: seq<Partition>, c0: seq<Rec>, sa: Option<Key>, start: Key)
    requires sa.Some? && CacheOk(parts, c0, sa, start)
    ensures GapFree(parts, Trim(c0, sa), sa, start)
  {
    var c := Trim(c0, sa);
    var d := |c0| - |c|;
    if |c| > 0 {
      assert c[|c| - 1] == c0[|c0| - 1];
      forall x | InStore(parts, x) && Above(x, sa, start) && LessEq(x.key, c[|c| - 1].key)
        ensures x in c
      {
        assert x in c0;
        var i :| 0 <= i < |c0| && c0[i] == x;
        if i < d {
          assert LessEq(c0[i].key, sa.value);
          LessAsymmetric(sa.value, x.key);
          LessIrreflexive(x.key);
        }
        assert c[i - d] == x;
      }
    }
  }

  // ---------------------------------------------------------------- join

  /** A key past both the cursor and the newest cached key is past where the refetch starts. */
  lemma PastFetchStart(c: seq<Rec>, sa: Option<Key>, k: Key)
    requires sa.None? || Less(sa.value, k)
    requires |c| == 0 || Less(c[|c| - 1].key, k)
    ensures FetchStart(c, sa).None? || Less(FetchStart(c, sa).value, k)
  {
  }

  /** A key past the cursor but not past the refetch start lies within the cache. */
  lemma BeforeFetchStart(c: seq<Rec>, sa: Option<Key>, k: Key)
    requires sa.None? || Less(sa.value, k)
    requires !(FetchStart(c, sa).None? || Less(FetchStart(c, sa).value, k))
    ensures |c| > 0 && LessEq(k, c[|c| - 1].key)
  {
    if |c| > 0 {
      LessTotal(k, c[|c| - 1].key);
      if Less(c[|c| - 1].key, k) {
        PastFetchStart(c, sa, k);
      }
    }
  }

  lemma SortMembers(s: seq<Rec>)
    ensures forall x :: x in Sort(s) <==> x in s
  {
    assert multiset(Sort(s)) == multiset(s);
    forall x
      ensures x in Sort(s) <==> x in s
    {
      assert x in Sort(s) <==> x in multiset(Sort(s));
    }
  }

  /** The fresh records a call keeps, relative to where the refetch starts and
      the frontier: free of duplicate keys, all from the store past the refetch
      start and not past the frontier, and every such store record among them. */
  ghost predicate FreshOk(parts: seq<Partition>, s: seq<Rec>, after: Option<Key>, start: Key, f: Option<Key>) {
    && DistinctKeys(s)
    && (forall x :: x in s ==> InStore(parts, x) && Above(x, after, start) && UnderFrontier(x, f))
    && (forall x :: InStore(parts, x) && Above(x, after, start) && UnderFrontier(x, f) ==> x in s)
  }

  lemma FreshOkOf(bs: seq<seq<Rec>>, parts: seq<Partition>, after: Option<Key>, start: Key, count: nat)
    requires BlocksOf(bs, parts, after, start, count) && count > 0
    ensures FreshOk(parts, UpTo(Concat(bs), Frontier(bs, count)), after, start, Frontier(bs, count))
  {
    FreshSound(bs, parts, after, start, count);
    forall x | InStore(parts, x) && Above(x, after, start) && UnderFrontier(x, Frontier(bs, count))
      ensures x in UpTo(Concat(bs), Frontier(bs, count))
    {
      FreshComplete(bs, parts, after, start, count, x);
    }
  }

  lemma JoinAscending(c: seq<Rec>, s: seq<Rec>, sa: Option<Key>)
    requires Ascending(c) && DistinctKeys(s)
    requires forall x :: x in s ==> FetchStart(c, sa).None? || Less(FetchStart(c, sa).value, x.key)
    ensures Ascending(c + Sort(s))
  {
    SortAscending(s);
    SortMembers(s);
    if |c| > 0 {
      var after := FetchStart(c, sa);
      AscendingBelowLast(c);
      forall x, y | x in c && y in Sort(s)
        ensures Less(x.key, y.key)
      {
        LessEqTransitive(x.key, c[|c| - 1].key, after.value);
        LessEqLess(x.key, after.value, y.key);
      }
    }
    AscendingAppend(c, Sort(s));
  }

  lemma JoinFromStore(parts: seq<Partition>, c: seq<Rec>, s: seq<Rec>, sa: Option<Key>, start: Key)
    requires FromStore(parts, c, sa, start)
    requires forall x :: x in s ==> InStore(parts, x) && Above(x, FetchStart(c, sa), start)
    ensures FromStore(parts, c + Sort(s), sa, start)
  {
    SortMembers(s);
    forall x | x in s
      ensures Above(x, sa, start)
    {
      AboveMonotone(x, sa, FetchStart(c, sa), start);
    }
  }

  lemma JoinGapFree(parts: seq<Partition>, c: seq<Rec>, s: seq<Rec>, sa: Option<Key>, start: Key, f: Option<Key>)
    requires GapFree(parts, c, sa, start)
    requires FreshOk(parts, s, FetchStart(c, sa), start, f)
    ensures GapFree(parts, c + Sort(s), sa, start)
  {
    var t := Sort(s);
    var w := c + t;
    SortMembers(s);
    if |t| > 0 {
      var last := w[|w| - 1];
      assert last == t[|t| - 1] && last in t;
      forall x | InStore(parts, x) && Above(x, sa, start) && LessEq(x.key, last.key)
        ensures x in w
      {
        JoinGapFreeAt(parts, c, s, sa, start, f, x, last);
      }
    } else {
      assert w == c;
    }
  }

  /** One store record below the window's last key: the cache or the fresh records hold it. */
  lemma JoinGapFreeAt(parts: seq<Partition>, c: seq<Rec>, s: seq<Rec>, sa: Option<Key>, start: Key, f: Option<Key>,
                      x: Rec, last: Rec)
    requires GapFree(parts, c, sa, start)
    requires FreshOk(parts, s, FetchStart(c, sa), start, f)
    requires last in s && InStore(parts, x) && Above(x, sa, start) && LessEq(x.key, last.key)
    ensures x in c || x in s
  {
    if |c| > 0 && LessEq(x.key, c[|c| - 1].key) {
      assert x in c;
    } else {
      if |c| > 0 {
        LessTotal(x.key, c[|c| - 1].key);
      }
      PastFetchStart(c, sa, x.key);
      if f.Some? {
        LessEqTransitive(x.key, last.key, f.value);
      }
    }
  }

  /** With no frontier the fresh records are everything past the refetch start,
      so cache and fresh records together are everything past the cursor. */
  lemma JoinExhausts(parts: seq<Partition>, c: seq<Rec>, s: seq<Rec>, sa: Option<Key>, start: Key)
    requires GapFree(parts, c, sa, start)
    requires FreshOk(parts, s, FetchStart(c, sa), start, None)
    ensures Exhausts(parts, c + Sort(s), sa, start)
  {
    SortMembers(s);
    forall x | InStore(parts, x) && Above(x, sa, start)
      ensures x in c + Sort(s)
    {
      var after := FetchStart(c, sa);
      if !(after.None? || Less(after.value, x.key)) {
        BeforeFetchStart(c, sa, x.key);
        assert x in c;
      } else {
        assert Above(x, after, start);
        assert x in s;
      }
    }
  }

  // ------------------------------------------------------------ theorem

  /** The corrected accessor, reading every partition from a cache that keeps
      the invariant, hands out a window that is ascending, made of store records
      past the cursor, and gap-free; when it holds fewer than `count` records
      it holds every store record past the cursor. */
  lemma GetOk(acc: Accessor, count: nat, sa: Option<Key>, start: Key, limit: nat)
    requires WellFormed(acc.partitions) && limit > 0 && count > 0
    requires CacheOk(acc.partitions, acc.cache, sa, start)
    ensures var w := Get(acc, None, count, sa, start, limit);
            && WindowOk(acc.partitions, w.window, sa, start)
            && (w.n < count ==> Exhausts(acc.partitions, w.window, sa, start))
  {
    var parts := acc.partitions;
    var c := Trim(acc.cache, sa);
    if sa.Some? {
      TrimOk(parts, acc.cache, sa, start);
    }
    var w := Get(acc, None, count, sa, start, limit);
    if |c| < count * |parts| {
      var window := c + Sort(Fetched(parts, count, FetchStart(c, sa), start, limit));
      var bs := Blocks(parts, count, FetchStart(c, sa), start, limit);
      BlocksOk(parts, count, FetchStart(c, sa), start, limit);
      FetchCaseOk(parts, c, bs, count, sa, start);
      assert w == Window(window, Min(count, |window|));
    } else {
      assert w == Window(c, Min(count, |c|));
      CachedCaseOk(parts, c, count, sa, start);
    }
  }

  /** The call when the cache already holds a block per partition: no fetch, and
      it is short only when there is no partition at all. */
  lemma CachedCaseOk(parts: seq<Partition>, c: seq<Rec>, count: nat, sa: Option<Key>, start: Key)
    requires count > 0 && |c| >= count * |parts|
    ensures |c| < count ==> Exhausts(parts, c, sa, start)
  {
  }

  /** The call when the cache is short: cache and sorted fresh records. */
  lemma FetchCaseOk(parts: seq<Partition>, c: seq<Rec>, bs: seq<seq<Rec>>, count: nat, sa: Option<Key>, start: Key)
    requires count > 0 && BlocksOf(bs, parts, FetchStart(c, sa), start, count)
    requires WindowOk(parts, c, sa, start)
    ensures var window := c + Sort(UpTo(Concat(bs), Frontier(bs, count)));
            && WindowOk(parts, window, sa, start)
            && (|window| < count ==> Exhausts(parts, window, sa, start))
  {
    var after := FetchStart(c, sa);
    var f := Frontier(bs, count);
    var s := UpTo(Concat(bs), f);
    FreshOkOf(bs, parts, after, start, count);
    JoinAscending(c, s, sa);
    JoinFromStore(parts, c, s, sa, start);
    JoinGapFree(parts, c, s, sa, start, f);
    if |c + Sort(s)| < count {
      assert |Sort(s)| == |s| by {
        assert |multiset(Sort(s))| == |multiset(s)|;
      }
      if f.Some? {
        FreshFull(bs, count, f.value);
      }
      JoinExhausts(parts, c, s, sa, start);
    }
  }

  // ------------------------------------------------------------- consume

  /** After the consumer pulls `m` records and moves its cursor to the last of
      them (or anywhere between it and the next unpulled record), the rest of
      the window is a cache that keeps the invariant for the new cursor. */
  lemma ConsumeOk(acc: Accessor, w: Window, m: nat, sa: Option<Key>, next: Option<Key>, start: Key)
    requires m <= w.n <= |w.window| && WindowOk(acc.partitions, w.window, sa, start)
    requires AtOrAfter(next, sa)
    requires m > 0 ==> next.Some? && LessEq(w.window[m - 1].key, next.value)
    ensures CacheOk(acc.partitions, Consume(acc, w, m).cache, next, start)
  {
    if next.Some? {
      var s := w.window;
      AscendingSuffix(s, m);
      SuffixMembers(s, m);
      SuffixGapFree(acc.partitions, s, m, sa, next, start);
    }
  }

  lemma SuffixMembers(s: seq<Rec>, m: nat)
    requires m <= |s|
    ensures forall x :: x in s[m..] ==> x in s
  {
    forall x | x in s[m..]
      ensures x in s
    {
      var i :| 0 <= i < |s[m..]| && s[m..][i] == x;
      assert s[m + i] == x;
    }
  }

  lemma SuffixGapFree(parts: seq<Partition>, s: seq<Rec>, m: nat, sa: Option<Key>, next: Option<Key>, start: Key)
    requires m <= |s| && WindowOk(parts, s, sa, start)
    requires AtOrAfter(next, sa) && next.Some?
    requires m > 0 ==> LessEq(s[m - 1].key, next.value)
    ensures GapFree(parts, s[m..], next, start)
  {
    var rest := s[m..];
    if |rest| > 0 {
      assert rest[|rest| - 1] == s[|s| - 1];
      forall x | InStore(parts, x) && Above(x, next, start) && LessEq(x.key, rest[|rest| - 1].key)
        ensures x in rest
      {
        AboveMonotone(x, sa, next, start);
        assert x in s;
        var i :| 0 <= i < |s| && s[i] == x;
        if i < m {
          PulledNotAbove(s, m, i, next.value);
        }
        assert rest[i - m] == x;
      }
    }
  }

  /** A record already pulled is not past a cursor at or after the last pulled record. */
  lemma PulledNotAbove(s: seq<Rec>, m: nat, i: nat, next: Key)
    requires Ascending(s) && i < m <= |s| && LessEq(s[m - 1].key, next)
    ensures !Less(next, s[i].key)
  {
    if i < m - 1 {
      LessLessEq(s[i].key, s[m - 1].key, next);
      LessAsymmetric(s[i].key, next);
    } else {
      LessEqTransitive(s[i].key, s[m - 1].key, next);
      if s[i].key == next {
        LessIrreflexive(next);
      } else {
        LessAsymmetric(s[i].key, next);
      }
    }
  }
}

=== FILE: discovery.dfy ===
/**
 The discovery helpers of utils.py: the retry predicate, the prefix
 enumeration over a plain store collection, partition-count detection and
 filtering of collection names against the project's listing. The listing is
 an input sequence of names.
 */
module Discovery {
  import opened Keys
  import opened Records
  import opened Wrappers
  import opened Store
  import opened Prefixes

  // ------------------------------------------------------------ retry_on_exception

  /** The exceptions a store read can raise, as far as retrying cares. */
  datatype Exception = KeyboardInterrupt | OtherException(name: string)

  /** `retry_on_exception` (utils.py lines 8-10): retry anything but an interrupt. */
  function RetryOn(e: Exception): (retry: bool)
    ensures retry <==> !e.KeyboardInterrupt?
    ensures e.OtherException? ==> retry
  {
    match e
    case KeyboardInterrupt => false
    case OtherException(_) => true
  }

  // ------------------------------------------------------------ generate_prefixes

  /** The keys a collection holds. */
  function KeysOf(p: Partition): set<Key> {
    set x | x in p :: x.key
  }

  /** `col.get(count=1, startafter=sa)` on a plain collection: its one key. */
  function StoreFirst(p: Partition, limit: nat): FirstKey {
    (sa: Option<Key>) =>
      var g := StoreGet(p, 1, sa, "", limit);
      if |g| == 0 then None else Some(g[0].key)
  }

  lemma EmptyNotAbove(k: Key)
    ensures LessEq("", k)
  {
  }

  /** A one-record read of an ordered collection returns its least key after
      the cursor. */
  lemma StoreFirstLeast(p: Partition, limit: nat)
    requires Ascending(p) && limit > 0
    ensures ReadsLeast(StoreFirst(p, limit), KeysOf(p))
  {
    var first := StoreFirst(p, limit);
    forall sa: Option<Key>
      ensures first(sa).Some? ==> first(sa).value in KeysOf(p) && After(first(sa).value, sa)
      ensures forall k :: k in KeysOf(p) && After(k, sa) ==> first(sa).Some? && LessEq(first(sa).value, k)
    {
      var e := Eligible(p, sa, "");
      EligibleMembers(p, sa, "");
      EligibleAscending(p, sa, "");
      assert StoreGet(p, 1, sa, "", limit) == Take(e, 1);
      if |e| > 0 {
        assert e[0] in e;
        HeadBelowTail(e);
      }
      forall k | k in KeysOf(p) && After(k, sa)
        ensures first(sa).Some? && LessEq(first(sa).value, k)
      {
        var x :| x in p && x.key == k;
        EmptyNotAbove(k);
        assert x in e;
        if x != e[0] {
          assert x in e[1..] by {
            var i :| 0 <= i < |e| && e[i] == x;
            assert e[1..][i - 1] == x;
          }
        }
      }
    }
  }

  /** `generate_prefixes` (utils.py lines 37-47) over a plain collection. */
  function GeneratePrefixes(p: Partition, codelen: nat, startafter: Option<Key>, limit: nat, fuel: nat): (r: (seq<Key>, bool))
    ensures |r.0| <= fuel && forall i :: 0 <= i < |r.0| ==> |r.0[i]| <= codelen
  {
    Codes(StoreFirst(p, limit), codelen, startafter, fuel)
  }

  /** Over an ordered collection of well-formed keys, the generated codes are
      the first `codelen` characters of keys after the cursor, strictly
      ascending; one read more than there are such keys ends the loop; and an
      ended loop has yielded a code that starts every key after the cursor. */
  lemma GeneratePrefixesOk(p: Partition, codelen: nat, startafter: Option<Key>, limit: nat, fuel: nat)
    requires Ascending(p) && limit > 0 && AllKeyChars(KeysOf(p))
    ensures var r := GeneratePrefixes(p, codelen, startafter, limit, fuel);
            && FromKeys(KeysOf(p), startafter, codelen, r.0) && StrictlyAscending(r.0)
            && (fuel > |Remaining(KeysOf(p), startafter)| ==> r.1)
            && (r.1 ==> forall k :: k in KeysOf(p) && After(k, startafter) ==>
                          exists i :: 0 <= i < |r.0| && StartsWith(k, r.0[i]))
  {
    var first := StoreFirst(p, limit);
    StoreFirstLeast(p, limit);
    CodesSound(first, KeysOf(p), codelen, startafter, fuel);
    if fuel > |Remaining(KeysOf(p), startafter)| {
      CodesEnd(first, KeysOf(p), codelen, startafter, fuel);
    }
    if Codes(first, codelen, startafter, fuel).1 {
      CodesComplete(first, KeysOf(p), codelen, startafter, fuel);
    }
  }

  // ------------------------------------------------------------ filter_collections_exist

  /** `a` is `b` with some entries deleted, the rest in their order. */
  predicate SubSeq<T(==)>(a: seq<T>, b: seq<T>)
    decreases |b|
  {
    |a| == 0 || (|b| > 0 && if a[0] == b[0] then SubSeq(a[1..], b[1..]) else SubSeq(a, b[1..]))
  }

  /** `filter_collections_exist` (utils.py lines 27-35): the listed names that
      are among the candidates, in listing order, each as often as listed. */
  function FilterExisting(listing: seq<string>, candidates: seq<string>): (r: seq<string>)
    ensures forall x :: x in r <==> x in listing && x in candidates
    ensures forall x :: multiset(r)[x] == if x in candidates then multiset(listing)[x] else 0
    ensures SubSeq(r, listing)
  {
    if |listing| == 0 then []
    else
      var rest := FilterExisting(listing[1..], candidates);
      assert listing == [listing[0]] + listing[1..];
      if listing[0] in candidates then [listing[0]] + rest else rest
  }

  /** Filtering twice changes nothing. */
  lemma {:induction false} FilterIdempotent(listing: seq<string>, candidates: seq<string>)
    ensures FilterExisting(FilterExisting(listing, candidates), candidates) == FilterExisting(listing, candidates)
    decreases |listing|
  {
    if |listing| > 0 {
      FilterIdempotent(listing[1..], candidates);
    }
  }

  /** A listing of candidates only is returned whole. */
  lemma {:induction false} FilterAllCandidates(listing: seq<string>, candidates: seq<string>)
    requires forall x :: x in listing ==> x in candidates
    ensures FilterExisting(listing, candidates) == listing
    decreases |listing|
  {
    if |listing| > 0 {
      assert forall x :: x in listing[1..] ==> x in listing;
      FilterAllCandidates(listing[1..], candidates);
      assert listing[0] in candidates;
      assert listing == [listing[0]] + listing[1..];
    }
  }
}

=== FILE: drain_props.dfy ===
/**
 How a scan ends. A scan never counts past its count limit, and a scan
 without a stop key that switches itself off short of the count limit has
 read the whole store after the cursor it started from: together with
 `BatchProps.ScanYields`, it has then handed out every store record after
 that cursor that passes the rules.
 */
module DrainProps {
  import opened Keys
  import opened Records
  import opened Wrappers
  import opened Store
  import opened CachedBlocks
  import opened CacheWindow
  import opened Scanner
  import opened WalkProps
  import opened PageProps
  import opened BatchProps

  /** No store record lies after `lo` and beyond `hi`. */
  ghost predicate Drained(w: World, lo: Option<Key>, hi: Option<Key>, start: Key) {
    forall x :: InStore(w.parts, x) && Above(x, lo, start) ==> Through(x, hi)
  }

  /** The scanner was switched off although the count limit was not reached. */
  predicate ShortOfLimit(st: State, r: State) {
    !r.enabled && (st.total == 0 || r.scanned < st.total)
  }

  /** Draining composes: from `lo`, what is not through `mid` is after it. */
  lemma DrainedJoin(w: World, lo: Option<Key>, mid: Option<Key>, hi: Option<Key>, start: Key)
    requires AtOrAfter(hi, mid) && Drained(w, mid, hi, start)
    ensures Drained(w, lo, hi, start)
  {
    forall x | InStore(w.parts, x) && Above(x, lo, start)
      ensures Through(x, hi)
    {
      if Through(x, mid) {
        ThroughMonotone(x, mid, hi);
      } else {
        PastThrough(x, lo, mid, start);
      }
    }
  }

  // ------------------------------------------------------------ one page

  /** A page of a scanner without a stop key that switches it off short of
      the count limit neither jumped nor got all it asked for, so it has read
      every store record after its cursor. */
  lemma PageEnds(w: World, cfg: Config, st: State, start: Key, mnr: nat, batchcount: int)
    requires Ready(w, st, start) && JumpsOk(cfg, w.parts) && mnr > 0 && cfg.stopbefore.None?
    ensures var r := ReadPage(w, cfg, st, start, mnr, batchcount);
            ShortOfLimit(st, r.1) ==> Drained(w, st.startafter, r.1.startafter, start)
  {
    var r := ReadPage(w, cfg, st, start, mnr, batchcount);
    var win := Call(w, st, start, mnr);
    var b := Begin(st, batchcount);
    PageWalk(w, cfg, st, start, mnr, batchcount);
    PageOnWindow(w, st, start, mnr);
    WalkStopped(cfg, w.join, win.window[..win.n], 0, b);
    if ShortOfLimit(st, r.1) {
      PageDrained(w, cfg, st, start, mnr, batchcount);
    }
  }

  /** Every page from a ready state that switches the scanner off short of
      the count limit drains the store after its cursor. */
  ghost predicate Ends(w: World, step: PageStep, start: Key) {
    forall st: State, mnr: nat, batchcount: int {:trigger step(st, mnr, batchcount)} ::
      Ready(w, st, start) && mnr > 0 ==>
        var r := step(st, mnr, batchcount);
        ShortOfLimit(st, r.1) ==> Drained(w, st.startafter, r.1.startafter, start)
  }

  lemma PagingEnds(w: World, cfg: Config, start: Key)
    requires JumpsOk(cfg, w.parts) && cfg.stopbefore.None?
    ensures Ends(w, Paging(w, cfg, start), start)
  {
    forall st: State, mnr: nat, batchcount: int | Ready(w, st, start) && mnr > 0
      ensures var r := Paging(w, cfg, start)(st, mnr, batchcount);
              ShortOfLimit(st, r.1) ==> Drained(w, st.startafter, r.1.startafter, start)
    {
      PageEnds(w, cfg, st, start, mnr, batchcount);
    }
  }

  // ------------------------------------------------------------ the batch loop

  /** A batch loop that switches the scanner off short of the count limit
      was switched off by a page that drained the store, and every page
      before it kept the scanner on; so it drained the store after the
      cursor the loop started from. */
  lemma {:induction false} BatchLoopEnds(w: World, cfg: Config, step: PageStep, st: State, start: Key, batchcount: int, fuel: nat)
    requires Steps(w, cfg, step, start) && Ends(w, step, start) && Counts(step) && Live(w, st, start)
    ensures var r := BatchLoop(step, cfg, st, batchcount, fuel);
            st.enabled && ShortOfLimit(st, r.1) ==> Drained(w, st.startafter, r.1.startafter, start)
    decreases fuel
  {
    var mnr := MaxNext(cfg, st, batchcount);
    if fuel > 0 && mnr > 0 && st.enabled {
      var r := step(st, mnr, batchcount);
      var rest := BatchLoop(step, cfg, r.1, r.0.batchcount, fuel - 1);
      assert BatchLoop(step, cfg, st, batchcount, fuel).1 == rest.1;
      if r.1.enabled {
        BatchLoopEnds(w, cfg, step, r.1, start, r.0.batchcount, fuel - 1);
        if ShortOfLimit(st, rest.1) {
          BatchForward(w, cfg, step, r.1, start, r.0.batchcount, fuel - 1);
          DrainedJoin(w, st.startafter, r.1.startafter, rest.1.startafter, start);
        }
      } else {
        assert rest.1 == r.1;
      }
    }
  }

  /** A batch of a scanner without a stop key that switches it off short of
      the count limit drains the store after the cursor the batch started from. */
  lemma BatchEnds(w: World, cfg: Config, st: State, fuel: nat)
    requires Accessing(w) && JumpsOk(cfg, w.parts) && cfg.stopbefore.None? && Live(w, st, st.start)
    ensures var r := Batch(w, cfg, st, fuel);
            st.enabled && ShortOfLimit(st, r.1) ==> Drained(w, st.startafter, r.1.startafter, st.start)
  {
    var step := Paging(w, cfg, st.start);
    PagingSteps(w, cfg, st.start);
    PagingEnds(w, cfg, st.start);
    PagingCounts(w, cfg, st.start);
    BatchLoopEnds(w, cfg, step, st.(start := ""), st.start, cfg.batchsize, fuel);
  }

  // ------------------------------------------------------------ the scan

  /** Every batch keeps the counters: it counts what it yields, keeps the
      limit, and never counts past it. */
  ghost predicate Counted(batch: BatchStep) {
    forall st: State, fuel: nat {:trigger batch(st, fuel)} ::
      var r := batch(st, fuel);
      && r.1.scanned == st.scanned + |r.0| && r.1.total == st.total
      && (st.total != 0 && st.scanned <= st.total ==> r.1.scanned <= st.total)
  }

  /** Every batch from a live scanner without a seek key that switches it off
      short of the count limit drains the store after its cursor. */
  ghost predicate BatchesEnd(w: World, batch: BatchStep) {
    forall st: State, fuel: nat {:trigger batch(st, fuel)} ::
      Live(w, st, "") && st.start == "" && st.enabled ==>
        var r := batch(st, fuel);
        ShortOfLimit(st, r.1) ==> Drained(w, st.startafter, r.1.startafter, "")
  }

  lemma BatchingCounted(w: World, cfg: Config)
    requires Accessing(w)
    ensures Counted(Batching(w, cfg))
  {
    forall st: State, fuel: nat
      ensures var r := Batching(w, cfg)(st, fuel);
              && r.1.scanned == st.scanned + |r.0| && r.1.total == st.total
              && (st.total != 0 && st.scanned <= st.total ==> r.1.scanned <= st.total)
    {
      BatchBound(w, cfg, st, fuel);
    }
  }

  lemma BatchingEnds(w: World, cfg: Config)
    requires Accessing(w) && JumpsOk(cfg, w.parts) && cfg.stopbefore.None?
    ensures BatchesEnd(w, Batching(w, cfg))
  {
    forall st: State, fuel: nat | Live(w, st, "") && st.start == "" && st.enabled
      ensures var r := Batching(w, cfg)(st, fuel);
              ShortOfLimit(st, r.1) ==> Drained(w, st.startafter, r.1.startafter, "")
    {
      BatchEnds(w, cfg, st, fuel);
    }
  }

  /** The batches of a scan, joined, have the length of the batch plus the rest. */
  lemma ConcatStep(b: seq<Rec>, bs: seq<seq<Rec>>)
    ensures Concat(if |b| > 0 then [b] + bs else bs) == b + Concat(bs)
  {
    if |b| > 0 {
      var all := [b] + bs;
      assert all[0] == b && all[1..] == bs;
    }
  }

  /** A scan loop counts every record it hands out and never counts past the
      count limit. */
  lemma {:induction false} ScanLoopCounts(batch: BatchStep, st: State, fuel: nat)
    requires Counted(batch)
    ensures var r := ScanLoop(batch, st, fuel);
            && r.1.scanned == st.scanned + |Concat(r.0)| && r.1.total == st.total
            && (st.total != 0 && st.scanned <= st.total ==> r.1.scanned <= st.total)
    decreases fuel
  {
    if fuel > 0 && st.enabled {
      var b := batch(st, fuel);
      ScanLoopCounts(batch, b.1, fuel - 1);
      ConcatStep(b.0, ScanLoop(batch, b.1, fuel - 1).0);
    }
  }

  /** A scan under a count limit hands out no more records than the limit
      leaves: a new scanner with count `total` hands out at most `total`. */
  lemma ScanCounts(w: World, cfg: Config, st: State, fuel: nat)
    requires Accessing(w)
    ensures var r := ScanBatches(w, cfg, st, fuel);
            && r.1.scanned == st.scanned + |Concat(r.0)|
            && (st.total != 0 && st.scanned <= st.total ==> |Concat(r.0)| <= st.total - st.scanned)
  {
    BatchingCounted(w, cfg);
    ScanLoopCounts(Batching(w, cfg), st, fuel);
  }

  /** A scan loop that switches the scanner off short of the count limit
      drains the store after the cursor it started from. */
  lemma {:induction false} ScanLoopEnds(w: World, cfg: Config, batch: BatchStep, st: State, fuel: nat)
    requires Batches(w, cfg, batch) && BatchesEnd(w, batch) && Counted(batch)
    requires Live(w, st, "") && st.start == ""
    ensures var r := ScanLoop(batch, st, fuel);
            st.enabled && ShortOfLimit(st, r.1) ==> Drained(w, st.startafter, r.1.startafter, "")
    decreases fuel
  {
    if fuel > 0 && st.enabled {
      var b := batch(st, fuel);
      var rest := ScanLoop(batch, b.1, fuel - 1);
      assert ScanLoop(batch, st, fuel).1 == rest.1;
      if b.1.enabled {
        ScanLoopEnds(w, cfg, batch, b.1, fuel - 1);
        if ShortOfLimit(st, rest.1) {
          ScanLoopYields(w, cfg, batch, b.1, fuel - 1);
          DrainedJoin(w, st.startafter, b.1.startafter, rest.1.startafter, "");
        }
      } else {
        assert rest.1 == b.1;
      }
    }
  }

  /** A scan without a stop key that switches itself off short of its count
      limit has handed out the merged form of every store record after the
      cursor it started from that passes the rules, and it has read past all
      of them. */
  lemma ScanEnds(w: World, cfg: Config, st: State, fuel: nat)
    requires Accessing(w) && JumpsOk(cfg, w.parts) && cfg.stopbefore.None?
    requires Live(w, st, "") && st.start == ""
    ensures var r := ScanBatches(w, cfg, st, fuel);
            st.enabled && ShortOfLimit(st, r.1) ==>
              && Drained(w, st.startafter, r.1.startafter, "")
              && forall x :: InStore(w.parts, x) && Above(x, st.startafter, "") && Passes(cfg, w.join, x)
                   ==> Merge(w.join, x) in Concat(r.0)
  {
    BatchingOk(w, cfg);
    BatchingEnds(w, cfg);
    BatchingCounted(w, cfg);
    ScanLoopEnds(w, cfg, Batching(w, cfg), st, fuel);
    ScanYields(w, cfg, st, fuel);
  }
}

=== FILE: join_examples.dfy ===
/**
 Two runs of the secondary join as written in which a primary record misses
 data a secondary holds for its key, while `Lookup` finds it.
 */
module JoinExamples {
  import opened Keys
  import opened Records
  import opened Wrappers
  import opened Store
  import opened CachedBlocks
  import opened Secondary

  function Row(k: Key): Rec {
    Rec(k, 0, map[])
  }

  lemma AddAllOne(d: SecData, r: Rec)
    ensures AddAll(d, [r]) == AddSec(d, r)
  {
    assert [r][1..] == [];
  }

  /** Reading one record `r` of a live secondary. */
  lemma VisitOne(acc: SecResult, j: nat, r: Rec, n: nat)
    requires j < |acc.depleted|
    ensures Visit(acc, j, [r], n).last == Some(r.key)
    ensures Visit(acc, j, [r], n).data.Keys == acc.data.Keys + {r.key}
    ensures Visit(acc, j, [r], n).depleted == if 1 < n then acc.depleted[j := true] else acc.depleted
  {
    AddAllOne(acc.data, r);
  }

  /** The loop over two live secondaries visits both. */
  lemma LoopTwo(b0: seq<Rec>, b1: seq<Rec>, n: nat, acc: SecResult)
    requires |acc.depleted| == 2 && !acc.depleted[0] && !acc.depleted[1]
    ensures SecLoop([b0, b1], 0, n, acc) == Visit(Visit(acc, 0, b0, n), 1, b1, n)
  {
    var a1 := Visit(acc, 0, b0, n);
    assert SecLoop([b0, b1], 0, n, acc) == SecLoop([b0, b1], 1, n, a1);
  }

  /** The loop over one live secondary visits it. */
  lemma LoopOne(b0: seq<Rec>, n: nat, acc: SecResult)
    requires |acc.depleted| == 1 && !acc.depleted[0]
    ensures SecLoop([b0], 0, n, acc) == Visit(acc, 0, b0, n)
  {
  }

  /** The loop over one depleted secondary changes nothing. */
  lemma LoopOneDepleted(b0: seq<Rec>, n: nat, acc: SecResult)
    requires |acc.depleted| == 1 && acc.depleted[0]
    ensures SecLoop([b0], 0, n, acc) == acc
  {
  }

  // ------------------------------------------------------------ `last` overshoots

  /** Secondary S1 holds b d, secondary S2 holds e; one record is read per
      secondary per call. Reading from b, S1 returns b and S2 returns e, so
      `last` becomes e although S1 was cut off at b. */
  const S1: Partition := [Row("b"), Row("d")]
  const S2: Partition := [Row("e")]

  lemma ReadS1()
    ensures SecFetch(S1, 1, "b", 100) == [Row("b")]
  {
    FetchLoopExact(S1, 1, None, "b", 100);
    assert Eligible(S1, None, "b")[0] == Row("b");
  }

  lemma ReadS2()
    ensures SecFetch(S2, 1, "b", 100) == [Row("e")]
  {
    FetchLoopExact(S2, 1, None, "b", 100);
    assert Eligible(S2, None, "b") == [Row("e")];
  }

  /** The call at b: `last` is e and the data holds b and e only. */
  lemma CallAtB()
    ensures var r := SecCall([S1, S2], [false, false], 1, "b", 100);
            r.last == Some("e") && r.data.Keys == {"b", "e"}
  {
    ReadS1();
    ReadS2();
    var bs := Blocks([S1, S2], 1, None, "b", 100);
    assert bs == [[Row("b")], [Row("e")]];
    var acc := SecResult(None, map[], [false, false]);
    LoopTwo([Row("b")], [Row("e")], 1, acc);
    VisitOne(acc, 0, Row("b"), 1);
    VisitOne(Visit(acc, 0, [Row("b")], 1), 1, Row("e"), 1);
  }

  /** The primary reads b, then d: d is not past e, so no call is made and d
      finds nothing, although S1 holds d. */
  lemma LastOvershoots()
    ensures var st := JoinAt([S1, S2], SecResult(None, map[], [false, false]), "b", 1, 100).1;
            && st.last == Some("e")
            && JoinAt([S1, S2], st, "d", 1, 100).0 == None
            && Lookup([S1, S2], "d").Some?
  {
    CallAtB();
    assert !Less("e", "d");
    assert Row("d") in [S1, S2][0];
    LookupLatest([S1, S2], "d");
  }

  // ------------------------------------------------------------ depleted data is dropped

  /** Secondary S holds only c; two records are read per call. */
  const S: Partition := [Row("c")]

  lemma ReadS()
    ensures SecFetch(S, 2, "a", 100) == [Row("c")]
  {
    FetchLoopExact(S, 2, None, "a", 100);
    assert Eligible(S, None, "a") == [Row("c")];
  }

  /** The first batch's call at a returns c only, so S is marked depleted. */
  lemma CallAtA()
    ensures SecCall([S], [false], 2, "a", 100).depleted == [true]
  {
    ReadS();
    SecCallDepletion([S], [false], 2, "a", 100, 0);
  }

  /** The primary holds a b c and batches hold two records. The first batch
      reads a and b and marks S depleted; the second batch starts at c with
      fresh data, skips S, and c finds nothing, although S holds c. */
  lemma DepletedDropped()
    ensures var st1 := JoinAt([S], SecResult(None, map[], [false]), "a", 2, 100).1;
            var st2 := JoinAt([S], st1, "b", 2, 100).1;
            && st2.depleted == [true]
            && JoinAt([S], NewBatch(st2), "c", 2, 100).0 == None
            && Lookup([S], "c").Some?
  {
    CallAtA();
    var acc := SecResult(None, map[], [false]);
    var st1 := JoinAt([S], acc, "a", 2, 100).1;
    assert st1.last == Some("c") by {
      ReadS();
      assert Blocks([S], 2, None, "a", 100) == [[Row("c")]];
      LoopOne([Row("c")], 2, acc);
      VisitOne(acc, 0, Row("c"), 2);
    }
    assert !Less("c", "b");
    var st2 := JoinAt([S], st1, "b", 2, 100).1;
    var empty := SecResult(None, map[], [true]);
    LoopOneDepleted(SecFetch(S, 2, "c", 100), 2, empty);
    assert Blocks([S], 2, None, "c", 100) == [SecFetch(S, 2, "c", 100)];
    assert SecCall([S], [true], 2, "c", 100).data == map[];
    assert Row("c") in [S][0];
    LookupLatest([S], "c");
  }
}

=== FILE: keys.dfy ===
/**
 Record keys and their order. Keys are strings compared the way Python compares
 `str` values: lexicographically, character by character, a proper prefix being
 smaller. Dafny's own `<` on sequences means "proper prefix", so the order is
 defined here explicitly.
 */
module Keys {

  type Key = string

  /** The sentinel appended to a prefix to skip past every key with that prefix. */
  const LimitKeyChar: char := '~'

  /** Strict lexicographic order on strings (Python's `a < b`). */
  predicate Less(a: string, b: string)
    decreases |a|
  {
    if |a| == 0 then |b| > 0
    else if |b| == 0 then false
    else if a[0] != b[0] then a[0] < b[0]
    else Less(a[1..], b[1..])
  }

  predicate LessEq(a: string, b: string) {
    a == b || Less(a, b)
  }

  /** Python's `s.startswith(p)`. */
  predicate StartsWith(s: string, p: string) {
    |p| <= |s| && s[..|p|] == p
  }

  /** The key-encoding invariant behind the prefix jump: every character of a
      real key sorts strictly below the sentinel. */
  predicate KeyChars(s: string) {
    forall i :: 0 <= i < |s| ==> s[i] < LimitKeyChar
  }

  /** `p + '~'`, the cursor that skips every key starting with `p`. */
  function Jump(p: string): (r: string)
    ensures |r| == |p| + 1 && r[..|p|] == p && r[|p|] == LimitKeyChar
  {
    p + [LimitKeyChar]
  }

  /** Python's `max(a, b)` on strings: `b` only when it is strictly greater. */
  function Max(a: string, b: string): (r: string)
    ensures r == a || r == b
    ensures LessEq(a, r) && LessEq(b, r)
  {
    LessTotal(a, b);
    if Less(a, b) then b else a
  }

  lemma {:induction false} LessIrreflexive(a: string)
    ensures !Less(a, a)
    decreases |a|
  {
    if |a| > 0 {
      LessIrreflexive(a[1..]);
    }
  }

  lemma {:induction false} LessAsymmetric(a: string, b: string)
    requires Less(a, b)
    ensures !Less(b, a)
    decreases |a|
  {
    if |a| > 0 && |b| > 0 && a[0] == b[0] {
      LessAsymmetric(a[1..], b[1..]);
    }
  }

  lemma {:induction false} LessTransitive(a: string, b: string, c: string)
    requires Less(a, b) && Less(b, c)
    ensures Less(a, c)
    decreases |a|
  {
    if |a| > 0 && a[0] == b[0] && b[0] == c[0] {
      LessTransitive(a[1..], b[1..], c[1..]);
    }
  }

  lemma {:induction false} LessTotal(a: string, b: string)
    ensures a == b || Less(a, b) || Less(b, a)
    decreases |a|
  {
    if |a| > 0 && |b| > 0 && a[0] == b[0] {
      LessTotal(a[1..], b[1..]);
      if a[1..] == b[1..] {
        assert a == [a[0]] + a[1..] && b == [b[0]] + b[1..];
      }
    }
  }

  lemma LessEqTransitive(a: string, b: string, c: string)
    requires LessEq(a, b) && LessEq(b, c)
    ensures LessEq(a, c)
  {
    if a != b && b != c {
      LessTransitive(a, b, c);
    }
  }

  lemma LessLessEq(a: string, b: string, c: string)
    requires Less(a, b) && LessEq(b, c)
    ensures Less(a, c)
  {
    if b != c {
      LessTransitive(a, b, c);
    }
  }

  lemma LessEqLess(a: string, b: string, c: string)
    requires LessEq(a, b) && Less(b, c)
    ensures Less(a, c)
  {
    if a != b {
      LessTransitive(a, b, c);
    }
  }

  /** A key lies below the jump cursor of every prefix it starts with. */
  lemma {:induction false} BelowJump(p: string, k: string)
    requires StartsWith(k, p) && KeyChars(k)
    ensures Less(k, Jump(p))
    decreases |p|
  {
    if |p| == 0 {
      assert |k| == 0 || k[0] < LimitKeyChar;
    } else {
      assert k[0] == p[0];
      assert Jump(p)[1..] == Jump(p[1..]);
      assert k[1..][..|p[1..]|] == k[..|p|][1..];
      BelowJump(p[1..], k[1..]);
    }
  }

  /** The prefix jump is exact: for well-formed keys, the keys above `p + '~'`
      are precisely the keys above `p` that do not start with `p`. */
  lemma {:induction false} JumpSkipsPrefix(p: string, k: string)
    requires KeyChars(k)
    ensures Less(Jump(p), k) <==> (Less(p, k) && !StartsWith(k, p))
    decreases |p|
  {
    if |p| == 0 {
      assert StartsWith(k, p);
      if |k| > 0 {
        assert k[0] < LimitKeyChar;
      }
    } else if |k| > 0 && p[0] == k[0] {
      assert Jump(p)[1..] == Jump(p[1..]);
      assert StartsWith(k, p) <==> StartsWith(k[1..], p[1..]) by {
        if StartsWith(k[1..], p[1..]) {
          assert k[..|p|] == [k[0]] + k[1..][..|p[1..]|];
          assert p == [p[0]] + p[1..];
        }
        if StartsWith(k, p) {
          assert k[1..][..|p[1..]|] == k[..|p|][1..];
        }
      }
      JumpSkipsPrefix(p[1..], k[1..]);
    } else if |k| > 0 {
      assert !StartsWith(k, p) by {
        if |p| <= |k| {
          assert k[..|p|][0] != p[0];
        }
      }
    }
  }

  /** A prefix never sorts above the key it starts. */
  lemma {:induction false} PrefixNotAbove(p: string, k: string)
    requires StartsWith(k, p)
    ensures LessEq(p, k)
    decreases |p|
  {
    if |p| > 0 {
      assert k[0] == p[0];
      assert k[1..][..|p[1..]|] == k[..|p|][1..];
      PrefixNotAbove(p[1..], k[1..]);
      if p[1..] == k[1..] {
        assert p == [p[0]] + p[1..] && k == [k[0]] + k[1..];
      }
    }
  }

  /** Whatever its characters, a key from `p` up to `p + '~'` starts with
      `p`: the jump never passes over a key that does not start with `p`. */
  lemma {:induction false} BetweenJump(p: string, k: string)
    requires LessEq(p, k) && LessEq(k, Jump(p))
    ensures StartsWith(k, p)
    decreases |p|
  {
    if |p| > 0 && k != p {
      assert |k| > 0;
      assert Jump(p)[0] == p[0];
      assert k[0] == p[0];
      assert Jump(p)[1..] == Jump(p[1..]);
      if k == Jump(p) {
        assert k[..|p|] == p;
      } else {
        BetweenJump(p[1..], k[1..]);
        assert k[..|p|] == [k[0]] + k[1..][..|p[1..]|];
        assert p == [p[0]] + p[1..];
      }
    }
  }

  /** No well-formed key equals a jump cursor. */
  lemma NotJump(p: string, k: string)
    requires KeyChars(k)
    ensures k != Jump(p)
  {
  }

  /** Python's `s[:n]`: slicing clamps at the end of the string. */
  function Prefix(s: string, n: nat): (r: string)
    ensures StartsWith(s, r)
    ensures |r| == if n <= |s| then n else |s|
  {
    if n <= |s| then s[..n] else s
  }
}

=== FILE: legacy_scanner.dfy ===
/**
 The parts of the older `CollectionScanner` (__init__.py) that differ from
 the current one: the has-many attachment, the per-record sub-item read
 (`get_additional_column_data`) and `scan_prefixes`, all on top of the older
 accessor `_CollectionWrapper.get`, which reads its request size as
 `count[0]`.
 */
module LegacyScanner {
  import opened Keys
  import opened Records
  import opened Wrappers
  import opened Store
  import opened Sorting
  import opened CacheWindow
  import opened LegacyWrapper
  import opened Prefixes

  // ------------------------------------------------------------ has-many attachment

  /** `r.get(prop)` is truthy. */
  predicate Holds(r: Rec, prop: string) {
    prop in r.fields && Truthy(r.fields[prop])
  }

  /** Attaching the sub-items read for `prop` (__init__.py lines 234-240):
      non-empty sub-items go into a property the record does not already
      hold; a held property is never overwritten, and nothing else changes. */
  function AttachHasMany(r: Rec, prop: string, sub: seq<Fields>): (a: Rec)
    ensures a.key == r.key && a.ts == r.ts
    ensures forall f :: f != prop ==> (f in a.fields <==> f in r.fields)
    ensures forall f :: f != prop && f in r.fields ==> a.fields[f] == r.fields[f]
    ensures Holds(a, prop) <==> Holds(r, prop) || |sub| > 0
    ensures Holds(r, prop) || |sub| == 0 ==> a == r
    ensures !Holds(r, prop) && |sub| > 0 ==> a.fields[prop] == Items(sub)
  {
    if |sub| > 0 && !Holds(r, prop) then r.(fields := r.fields[prop := Items(sub)]) else r
  }

  /** Once a property holds sub-items, a later attachment leaves it alone. */
  lemma AttachOnce(r: Rec, prop: string, sub: seq<Fields>, sub': seq<Fields>)
    requires |sub| > 0
    ensures AttachHasMany(AttachHasMany(r, prop, sub), prop, sub') == AttachHasMany(r, prop, sub)
  {
  }

  /** Attachments to different properties commute, so the order in which the
      has-many dictionary is walked does not matter. */
  lemma AttachCommutes(r: Rec, p1: string, s1: seq<Fields>, p2: string, s2: seq<Fields>)
    requires p1 != p2
    ensures AttachHasMany(AttachHasMany(r, p1, s1), p2, s2) == AttachHasMany(AttachHasMany(r, p2, s2), p1, s1)
  {
    var a := AttachHasMany(AttachHasMany(r, p1, s1), p2, s2);
    var b := AttachHasMany(AttachHasMany(r, p2, s2), p1, s1);
    assert a.fields == b.fields;
  }

  // ------------------------------------------------------------ the `count` argument

  /** The `count` keyword as a caller passes it: a list, or a bare number. */
  datatype CountArg = CountList(items: seq<int>) | CountInt(n: int)

  /** `kwargs.pop('count')[0]` (__init__.py line 53). */
  function CountOf(c: CountArg): (r: Result<int>)
    ensures r.Ok? <==> c.CountList? && |c.items| > 0
    ensures r.Ok? ==> r.value == c.items[0]
    ensures c.CountInt? ==> r == Err(TypeError)
  {
    match c
    case CountInt(_) => Err(TypeError)
    case CountList(items) => if |items| == 0 then Err(IndexError) else Ok(items[0])
  }

  /** `_CollectionWrapper.get` with `count` as passed: the call fails before
      any read when the argument cannot be subscripted. */
  function WrapperGet(parts: seq<Partition>, c: CountArg, sa: Option<Key>, start: Key, limit: nat): (r: Result<seq<Rec>>)
    ensures r.Err? <==> CountOf(c).Err?
    ensures r.Ok? ==> Ascending(r.value)
    ensures r.Ok? && CountOf(c).value > 0 ==> |r.value| <= CountOf(c).value
  {
    match CountOf(c)
    case Err(e) => Err(e)
    case Ok(n) => Ok(LegacyGet(parts, n, sa, start, limit))
  }

  // ------------------------------------------------------------ get_additional_column_data

  /** The has-many collection as the server's `prefix=['<key>_']` filter
      shows it: the records whose key starts with the item key and `_`. */
  function ItemRecords(p: Partition, key: Key): (q: Partition)
    ensures forall x :: x in q <==> x in p && StartsWith(x.key, key + "_")
  {
    if |p| == 0 then []
    else
      var rest := ItemRecords(p[1..], key);
      assert forall x :: x in p <==> x == p[0] || x in p[1..];
      (if StartsWith(p[0].key, key + "_") then [p[0]] else []) + rest
  }

  /** The prefix filter keeps the collection's order. */
  lemma {:induction false} ItemRecordsAscending(p: Partition, key: Key)
    requires Ascending(p)
    ensures Ascending(ItemRecords(p, key))
    decreases |p|
  {
    if |p| > 0 {
      AscendingSuffix(p, 1);
      ItemRecordsAscending(p[1..], key);
      HeadBelowTail(p);
      var rest := ItemRecords(p[1..], key);
      if StartsWith(p[0].key, key + "_") {
        ConsAscending(p[0], rest);
      }
    }
  }

  /** The fields of records read with `meta={'_key'}` once `_key` is popped. */
  function FieldsOf(rs: seq<Rec>): (fs: seq<Fields>)
    ensures |fs| == |rs| && forall i :: 0 <= i < |rs| ==> fs[i] == rs[i].fields
  {
    seq(|rs|, i requires 0 <= i < |rs| => rs[i].fields)
  }

  /** The read loop of `get_additional_column_data` (__init__.py lines
      177-191) with request size `m`: read `m` records after the cursor, and
      go round again only when more than `m` came back. The answer is the
      fields read and the number of reads made, or nothing when `fuel` reads
      did not end the loop. */
  function ColumnLoop(parts: seq<Partition>, m: int, sa: Option<Key>, limit: nat, fuel: nat): (r: Option<(seq<Fields>, nat)>)
    ensures r.Some? ==> (r.value.1 == 0 <==> m == 0)
    decreases fuel
  {
    if m == 0 then Some(([], 0))
    else if fuel == 0 then None
    else
      var got := LegacyGet(parts, m, sa, "", limit);
      if |got| <= m then Some((FieldsOf(got), 1))
      else
        // only a negative `m` gets here, and then nothing was read, so the
        // cursor has not moved
        match ColumnLoop(parts, m, sa, limit, fuel - 1)
        case None => None
        case Some(more) => Some((FieldsOf(got) + more.0, more.1 + 1))
  }

  /** A positive request size makes exactly one read, of at most `m`
      records; a zero one makes none. */
  lemma ColumnOneRead(parts: seq<Partition>, m: int, sa: Option<Key>, limit: nat, fuel: nat)
    requires m >= 0 && fuel > 0
    ensures var r := ColumnLoop(parts, m, sa, limit, fuel);
            && r.Some? && r.value.1 == (if m == 0 then 0 else 1) && |r.value.0| <= m
            && (m > 0 ==> r.value.0 == FieldsOf(LegacyGet(parts, m, sa, "", limit)))
  {
  }

  /** A negative request size reads nothing, which is "more than `m`", so the
      loop never ends. */
  lemma {:induction false} ColumnNegativeSpins(parts: seq<Partition>, m: int, sa: Option<Key>, limit: nat, fuel: nat)
    requires m < 0
    ensures ColumnLoop(parts, m, sa, limit, fuel) == None
    decreases fuel
  {
    if fuel > 0 {
      ColumnNegativeSpins(parts, m, sa, limit, fuel - 1);
    }
  }

  /** `get_additional_column_data(collection, key)` on the unpartitioned
      has-many collection `p`, with no cursor to start from. */
  function AdditionalColumnData(p: Partition, key: Key, m: int, limit: nat, fuel: nat): (r: Option<(seq<Fields>, nat)>)
    ensures m < 0 ==> r.None?
  {
    if m < 0 then ColumnNegativeSpins([ItemRecords(p, key)], m, None, limit, fuel); None else
    ColumnLoop([ItemRecords(p, key)], m, None, limit, fuel)
  }

  /** `f` is the fields of a record of `p` that belongs to item `key`. */
  ghost predicate FromItem(p: Partition, key: Key, f: Fields) {
    exists x :: x in p && StartsWith(x.key, key + "_") && f == x.fields
  }

  /** With a positive request size the sub-items are read in one call: at
      most `m` of them, each the fields of a record of `p` whose key starts
      with the item key and `_`. */
  lemma AdditionalColumnDataOk(p: Partition, key: Key, m: int, limit: nat, fuel: nat)
    requires Ascending(p) && limit > 0 && m > 0 && fuel > 0
    ensures var r := AdditionalColumnData(p, key, m, limit, fuel);
            && r.Some? && r.value.1 == 1 && |r.value.0| <= m
            && forall i :: 0 <= i < |r.value.0| ==> FromItem(p, key, r.value.0[i])
  {
    var q := ItemRecords(p, key);
    ItemRecordsAscending(p, key);
    ColumnOneRead([q], m, None, limit, fuel);
    LegacyGetSound([q], m, None, "", limit);
    FieldsFromItems(LegacyGet([q], m, None, "", limit), q, p, key);
  }

  lemma FieldsFromItems(got: seq<Rec>, q: Partition, p: Partition, key: Key)
    requires forall x :: x in got ==> InStore([q], x) && Above(x, None, "")
    requires forall x :: x in q <==> x in p && StartsWith(x.key, key + "_")
    ensures forall i :: 0 <= i < |got| ==> FromItem(p, key, FieldsOf(got)[i])
  {
    forall i | 0 <= i < |got|
      ensures FromItem(p, key, FieldsOf(got)[i])
    {
      assert got[i] in got;
      var j :| 0 <= j < |[q]| && got[i] in [q][j];
      assert got[i] in q;
      assert FieldsOf(got)[i] == got[i].fields;
    }
  }

  // ------------------------------------------------------------ scan_prefixes

  /** A read of the wrapper from a cursor: the records, or the error raised. */
  type Read = Option<Key> -> Result<seq<Rec>>

  /** The wrapper read with the `count` argument `c` as passed. */
  function Reader(parts: seq<Partition>, c: CountArg, limit: nat): Read {
    (sa: Option<Key>) => WrapperGet(parts, c, sa, "", limit)
  }

  /** The loop of `scan_prefixes` (__init__.py lines 276-288): each record
      read yields the first `codelen` characters of its key and moves the
      cursor past them; a read that returns nothing ends the loop, and a read
      that raises ends it with the error. */
  function PrefixLoop(read: Read, codelen: nat, sa: Option<Key>, fuel: nat): (r: Result<seq<Key>>)
    ensures r.Ok? ==> forall i :: 0 <= i < |r.value| ==> |r.value[i]| <= codelen
    decreases fuel
  {
    if fuel == 0 then Ok([])
    else match read(sa)
      case Err(e) => Err(e)
      case Ok(got) =>
        if |got| == 0 then Ok([])
        else
          var codes := seq(|got|, i requires 0 <= i < |got| => Prefix(got[i].key, codelen));
          match PrefixLoop(read, codelen, Some(Jump(codes[|codes| - 1])), fuel - 1)
          case Err(e) => Err(e)
          case Ok(rest) => Ok(codes + rest)
  }

  /** `scan_prefixes` as written: it passes `count=1`, a bare number. */
  function ScanPrefixesAsWritten(parts: seq<Partition>, codelen: nat, sa: Option<Key>, limit: nat, fuel: nat): (r: Result<seq<Key>>)
    ensures r.Ok? ==> r.value == []
  {
    assert Reader(parts, CountInt(1), limit)(sa) == Err(TypeError);
    PrefixLoop(Reader(parts, CountInt(1), limit), codelen, sa, fuel)
  }

  /** Every run of `scan_prefixes` as written fails with a `TypeError` at its
      first read, before yielding anything. */
  lemma ScanPrefixesRaises(parts: seq<Partition>, codelen: nat, sa: Option<Key>, limit: nat, fuel: nat)
    requires fuel > 0
    ensures ScanPrefixesAsWritten(parts, codelen, sa, limit, fuel) == Err(TypeError)
  {
    assert Reader(parts, CountInt(1), limit)(sa) == Err(TypeError);
  }

  /** `scan_prefixes` passing `count=[1]`, as the wrapper expects. */
  function ScanPrefixes(parts: seq<Partition>, codelen: nat, sa: Option<Key>, limit: nat, fuel: nat): (r: Result<seq<Key>>)
    ensures r.Ok? ==> forall i :: 0 <= i < |r.value| ==> |r.value[i]| <= codelen
  {
    PrefixLoop(Reader(parts, CountList([1]), limit), codelen, sa, fuel)
  }

  /** The one-key read with `count=[1]`: the key the wrapper returns. */
  function WrapperFirst(parts: seq<Partition>, limit: nat): FirstKey {
    (sa: Option<Key>) =>
      var got := LegacyGet(parts, 1, sa, "", limit);
      if |got| == 0 then None else Some(got[0].key)
  }

  /** `read` never fails and returns at most one record, whose key `first`
      returns. */
  ghost predicate OneKey(read: Read, first: FirstKey) {
    forall sa: Option<Key> {:trigger read(sa)} ::
      && read(sa).Ok? && |read(sa).value| <= 1
      && first(sa) == if |read(sa).value| == 0 then None else Some(read(sa).value[0].key)
  }

  lemma OneKeyWrapper(parts: seq<Partition>, limit: nat)
    ensures OneKey(Reader(parts, CountList([1]), limit), WrapperFirst(parts, limit))
  {
  }

  /** Over a read of at most one record the loop is the prefix enumeration. */
  lemma {:induction false} PrefixLoopCodes(read: Read, first: FirstKey, codelen: nat, sa: Option<Key>, fuel: nat)
    requires OneKey(read, first)
    ensures PrefixLoop(read, codelen, sa, fuel) == Ok(Codes(first, codelen, sa, fuel).0)
    decreases fuel
  {
    if fuel > 0 {
      var got := read(sa).value;
      if |got| > 0 {
        var code := Prefix(got[0].key, codelen);
        PrefixLoopCodes(read, first, codelen, Some(Jump(code)), fuel - 1);
        var codes := seq(|got|, i requires 0 <= i < |got| => Prefix(got[i].key, codelen));
        assert codes == [code];
      }
    }
  }

  /** The corrected `scan_prefixes` never fails, and it is the prefix
      enumeration over the wrapper's one-key read. */
  lemma ScanPrefixesCodes(parts: seq<Partition>, codelen: nat, sa: Option<Key>, limit: nat, fuel: nat)
    ensures ScanPrefixes(parts, codelen, sa, limit, fuel) == Ok(Codes(WrapperFirst(parts, limit), codelen, sa, fuel).0)
  {
    OneKeyWrapper(parts, limit);
    PrefixLoopCodes(Reader(parts, CountList([1]), limit), WrapperFirst(parts, limit), codelen, sa, fuel);
  }

  /** The keys the store holds. */
  function StoreKeys(parts: seq<Partition>): set<Key> {
    set j, x | 0 <= j < |parts| && x in parts[j] :: x.key
  }

  /** The wrapper's one-key read returns a store key after the cursor. */
  lemma WrapperFirstFrom(parts: seq<Partition>, limit: nat)
    requires WellFormed(parts) && limit > 0
    ensures ReadsFrom(WrapperFirst(parts, limit), StoreKeys(parts))
  {
    forall sa: Option<Key> | WrapperFirst(parts, limit)(sa).Some?
      ensures WrapperFirst(parts, limit)(sa).value in StoreKeys(parts)
      ensures After(WrapperFirst(parts, limit)(sa).value, sa)
    {
      var got := LegacyGet(parts, 1, sa, "", limit);
      LegacyGetSound(parts, 1, sa, "", limit);
      assert got[0] in got;
      var j :| 0 <= j < |parts| && got[0] in parts[j];
    }
  }

  /** Over a well-formed store of well-formed keys, the corrected
      `scan_prefixes` yields, in strictly ascending order, the first `codelen`
      characters of store keys after its cursor. */
  lemma ScanPrefixesSound(parts: seq<Partition>, codelen: nat, sa: Option<Key>, limit: nat, fuel: nat)
    requires WellFormed(parts) && limit > 0 && AllKeyChars(StoreKeys(parts))
    ensures var r := ScanPrefixes(parts, codelen, sa, limit, fuel);
            r.Ok? && FromKeys(StoreKeys(parts), sa, codelen, r.value) && StrictlyAscending(r.value)
  {
    ScanPrefixesCodes(parts, codelen, sa, limit, fuel);
    WrapperFirstFrom(parts, limit);
    CodesSound(WrapperFirst(parts, limit), StoreKeys(parts), codelen, sa, fuel);
  }
}

=== FILE: legacy_wrapper.dfy ===
/**
 The older partition-aware accessor (`_CollectionWrapper.get`,
 __init__.py lines 51-77). It runs rounds over the partitions that still have
 data, asking each for `total / n + 10 * n` records, collects everything into a
 dictionary keyed by record key, drops a partition as soon as one of its reads
 comes back empty, and stops once no partition is left or the running total
 reaches zero; it then yields the collected records in key order, at most
 `count` of them.
 */
module LegacyWrapper {
  import opened Keys
  import opened Records
  import opened Wrappers
  import opened Store
  import opened Sorting
  import opened CacheWindow

  /** The per-partition request size of a round: `total / n + 10 * n` in
      Python 2 integer division (`total` is positive inside the loop, so floor
      and Euclidean division agree). */
  function Want(total: int, n: nat): (w: nat)
    requires total > 0 && n > 0
    ensures w >= 10 * n
    ensures n * (w - 10 * n) <= total < n * (w - 10 * n + 1)
  {
    total / n + 10 * n
  }

  /** One partition's read in a round and whether it ended on an empty read. */
  datatype Drained = Drained(block: seq<Rec>, emptied: bool)

  /** `while data and retrieved < count`: read `count - retrieved` more records
      after the partition's cursor, move the cursor to each record's key, and
      stop on an empty read (`emptied`) or once `count` have arrived. */
  function Drain(p: Partition, count: nat, retrieved: nat, cursor: Option<Key>, start: Key, limit: nat): (d: Drained)
    requires retrieved <= count
    ensures d.emptied ==> |d.block| < count - retrieved
    ensures !d.emptied ==> |d.block| == count - retrieved
    decreases count - retrieved
  {
    if retrieved == count then Drained([], false)
    else
      var page := StoreGet(p, count - retrieved, cursor, start, limit);
      if |page| == 0 then Drained([], true)
      else
        var rest := Drain(p, count, retrieved + |page|, Some(page[|page| - 1].key), start, limit);
        Drained(page + rest.block, rest.emptied)
  }

  /** The legacy read loop fetches what the cache window's read loop fetches,
      and it ends on an empty read exactly when the block came back short. */
  lemma {:induction false} DrainIsFetchLoop(p: Partition, count: nat, retrieved: nat, cursor: Option<Key>, start: Key, limit: nat)
    requires retrieved <= count
    ensures var d := Drain(p, count, retrieved, cursor, start, limit);
            && d.block == FetchLoop(p, count - retrieved, cursor, start, limit)
            && (d.emptied <==> |d.block| < count - retrieved)
    decreases count - retrieved
  {
    if retrieved < count {
      var want: nat := count - retrieved;
      var page := StoreGet(p, want, cursor, start, limit);
      if |page| > 0 {
        var n := |page|;
        var next := Some(page[n - 1].key);
        var got: nat := retrieved + n;
        DrainIsFetchLoop(p, count, got, next, start, limit);
        DrainStep(p, count, retrieved, cursor, start, limit, want, n, next, got);
      }
    }
  }

  /** One turn of the legacy read loop, given what the rest of it returns. */
  lemma DrainStep(p: Partition, count: nat, retrieved: nat, cursor: Option<Key>, start: Key, limit: nat,
                  want: nat, n: nat, next: Option<Key>, got: nat)
    requires retrieved < count && want == count - retrieved
    requires n == |StoreGet(p, want, cursor, start, limit)| && n > 0 && got == retrieved + n
    requires next == Some(StoreGet(p, want, cursor, start, limit)[n - 1].key)
    requires Drain(p, count, got, next, start, limit).block == FetchLoop(p, count - got, next, start, limit)
    ensures Drain(p, count, retrieved, cursor, start, limit).block == FetchLoop(p, want, cursor, start, limit)
  {
    var rem: nat := count - got;
    DrainUnfold(p, count, retrieved, cursor, start, limit, want, n, next, got);
    FetchLoopUnfold(p, want, cursor, start, limit, n, next, rem);
  }

  lemma DrainUnfold(p: Partition, count: nat, retrieved: nat, cursor: Option<Key>, start: Key, limit: nat,
                    want: nat, n: nat, next: Option<Key>, got: nat)
    requires retrieved < count && want == count - retrieved
    requires n == |StoreGet(p, want, cursor, start, limit)| && n > 0 && got == retrieved + n
    requires next == Some(StoreGet(p, want, cursor, start, limit)[n - 1].key)
    ensures Drain(p, count, retrieved, cursor, start, limit).block
            == StoreGet(p, want, cursor, start, limit) + Drain(p, count, got, next, start, limit).block
  {
  }

  // ------------------------------------------------------------- the dictionary

  /** `cache[r.key] = r`: replaces the entry with the same key in place, or
      appends a new one. */
  function Put(c: seq<Rec>, r: Rec): (d: seq<Rec>)
    requires DistinctKeys(c)
    ensures DistinctKeys(d) && r in d
    ensures forall x :: x in d ==> x == r || (x in c && x.key != r.key)
    ensures forall x :: x in c && x.key != r.key ==> x in d
  {
    if |c| == 0 then [r]
    else
      DistinctTail(c);
      if c[0].key == r.key then [r] + c[1..]
      else [c[0]] + Put(c[1..], r)
  }

  lemma DistinctTail(c: seq<Rec>)
    requires DistinctKeys(c) && |c| > 0
    ensures DistinctKeys(c[1..])
    ensures forall x :: x in c[1..] ==> x.key != c[0].key
  {
    forall i, j | 0 <= i < j < |c| - 1
      ensures c[1..][i].key != c[1..][j].key
    {
      assert c[1..][i] == c[i + 1] && c[1..][j] == c[j + 1];
    }
    forall x | x in c[1..]
      ensures x.key != c[0].key
    {
      var i :| 0 <= i < |c| - 1 && c[1..][i] == x;
      assert c[i + 1] == x;
    }
  }

  /** Every record of `b` stored in turn. */
  function PutAll(c: seq<Rec>, b: seq<Rec>): (d: seq<Rec>)
    requires DistinctKeys(c)
    ensures DistinctKeys(d)
    ensures forall x :: x in d ==> x in c || x in b
    decreases |b|
  {
    if |b| == 0 then c else PutAll(Put(c, b[0]), b[1..])
  }

  /** `collections.remove(col)` on a list of distinct partitions. */
  function Remove(s: seq<nat>, j: nat): (r: seq<nat>)
    ensures forall x :: x in r <==> x in s && x != j
    ensures j in s ==> |r| < |s|
    ensures |r| <= |s|
  {
    if |s| == 0 then []
    else if s[0] == j then Remove(s[1..], j)
    else [s[0]] + Remove(s[1..], j)
  }

  function Indices(n: nat): (s: seq<nat>)
    ensures |s| == n && forall i :: 0 <= i < n ==> s[i] == i
  {
    if n == 0 then [] else Indices(n - 1) + [n - 1]
  }

  // ------------------------------------------------------------- the rounds

  /** The state of the collection loop: the partitions still read (`collections`),
      each partition's cursor, the running `total_count` and the dictionary. */
  datatype Gather = Gather(active: seq<nat>, cursors: seq<Option<Key>>, total: int, cache: seq<Rec>)

  predicate Shaped(parts: seq<Partition>, g: Gather) {
    && |g.cursors| == |parts|
    && (forall j :: j in g.active ==> j < |parts|)
    && DistinctKeys(g.cache)
  }

  /** Partition `j`'s turn in a round: it is dropped exactly when its read loop
      came back short (its last read was empty), its cursor moves to the last
      key it returned, and the running total goes down by what it returned. */
  function Step(parts: seq<Partition>, j: nat, want: nat, g: Gather, start: Key, limit: nat): (r: Gather)
    requires Shaped(parts, g) && j < |parts|
    ensures Shaped(parts, r)
    ensures var b := FetchLoop(parts[j], want, g.cursors[j], start, limit);
            && r.total == g.total - |b|
            && (forall i :: i in r.active <==> i in g.active && (i != j || |b| == want))
            && |r.active| <= |g.active|
            && (j in g.active && |b| < want ==> |r.active| < |g.active|)
            && r.cursors == g.cursors[j := if |b| > 0 then Some(b[|b| - 1].key) else g.cursors[j]]
            && (forall x :: x in r.cache ==> x in g.cache || x in b)
  {
    var d := Drain(parts[j], want, 0, g.cursors[j], start, limit);
    DrainIsFetchLoop(parts[j], want, 0, g.cursors[j], start, limit);
    var cursor := if |d.block| > 0 then Some(d.block[|d.block| - 1].key) else g.cursors[j];
    var active := if d.emptied then Remove(g.active, j) else g.active;
    Gather(active, g.cursors[j := cursor], g.total - |d.block|, PutAll(g.cache, d.block))
  }

  /** `for col in list(collections)`: every partition of the round's snapshot in turn. */
  function Round(parts: seq<Partition>, todo: seq<nat>, want: nat, g: Gather, start: Key, limit: nat): (r: Gather)
    requires Shaped(parts, g) && forall j :: j in todo ==> j < |parts|
    ensures Shaped(parts, r)
    ensures |r.active| <= |g.active| && r.total <= g.total
    ensures |todo| > 0 && todo[0] in g.active && want > 0 ==> |r.active| < |g.active| || r.total < g.total
    decreases |todo|
  {
    if |todo| == 0 then g
    else
      var j := todo[0];
      assert j in todo && forall i :: i in todo[1..] ==> i in todo;
      Round(parts, todo[1..], want, Step(parts, j, want, g, start, limit), start, limit)
  }

  /** `while collections and total_count > 0`: rounds until no partition is
      left or the running total is used up. Every round drops a partition or
      lowers the total, so the loop ends. */
  function Collect(parts: seq<Partition>, g: Gather, start: Key, limit: nat): (r: Gather)
    requires Shaped(parts, g)
    ensures Shaped(parts, r)
    ensures |r.active| == 0 || r.total <= 0
    decreases |g.active|, if g.total > 0 then g.total else 0
  {
    if |g.active| == 0 || g.total <= 0 then g
    else Collect(parts, Round(parts, g.active, Want(g.total, |g.active|), g, start, limit), start, limit)
  }

  /** The call: collect from every partition starting after `sa`, then yield
      the dictionary's records in key order, stopping after `count` of them. */
  function LegacyGet(parts: seq<Partition>, count: int, sa: Option<Key>, start: Key, limit: nat): (out: seq<Rec>)
    ensures Ascending(out)
    ensures count > 0 ==> |out| <= count
    ensures count <= 0 ==> out == []
  {
    var g := Collect(parts, Gather(Indices(|parts|), seq(|parts|, _ => sa), count, []), start, limit);
    var sorted := Sort(g.cache);
    SortAscending(g.cache);
    if count > 0 then
      AscendingPrefix(sorted, if count <= |sorted| then count else |sorted|);
      Take(sorted, count)
    else sorted
  }

  // ------------------------------------------------------------- soundness

  /** Every cursor is at or after the requested one and every collected
      record is a store record after it. */
  ghost predicate Sound(parts: seq<Partition>, g: Gather, sa: Option<Key>, start: Key) {
    && (forall j :: 0 <= j < |g.cursors| ==> AtOrAfter(g.cursors[j], sa))
    && (forall x :: x in g.cache ==> InStore(parts, x) && Above(x, sa, start))
  }

  lemma StepSound(parts: seq<Partition>, j: nat, want: nat, g: Gather, sa: Option<Key>, start: Key, limit: nat)
    requires WellFormed(parts) && limit > 0
    requires Shaped(parts, g) && j < |parts| && Sound(parts, g, sa, start)
    ensures Sound(parts, Step(parts, j, want, g, start, limit), sa, start)
  {
    var cursor := g.cursors[j];
    var b := FetchLoop(parts[j], want, cursor, start, limit);
    var r := Step(parts, j, want, g, start, limit);
    BlockFacts(parts[j], want, cursor, start, limit);
    forall x | x in b
      ensures InStore(parts, x) && Above(x, sa, start)
    {
      AboveMonotone(x, sa, cursor, start);
    }
    forall i | 0 <= i < |r.cursors|
      ensures AtOrAfter(r.cursors[i], sa)
    {
      if i == j && |b| > 0 {
        var x := b[|b| - 1];
        assert x in b && r.cursors[i] == Some(x.key);
      }
    }
    forall x | x in r.cache
      ensures InStore(parts, x) && Above(x, sa, start)
    {
    }
  }

  lemma {:induction false} RoundSound(parts: seq<Partition>, todo: seq<nat>, want: nat, g: Gather,
                                      sa: Option<Key>, start: Key, limit: nat)
    requires WellFormed(parts) && limit > 0
    requires Shaped(parts, g) && (forall j :: j in todo ==> j < |parts|) && Sound(parts, g, sa, start)
    ensures Sound(parts, Round(parts, todo, want, g, start, limit), sa, start)
    decreases |todo|
  {
    if |todo| > 0 {
      assert todo[0] in todo && forall i :: i in todo[1..] ==> i in todo;
      StepSound(parts, todo[0], want, g, sa, start, limit);
      RoundSound(parts, todo[1..], want, Step(parts, todo[0], want, g, start, limit), sa, start, limit);
    }
  }

  lemma {:induction false} CollectSound(parts: seq<Partition>, g: Gather, sa: Option<Key>, start: Key, limit: nat)
    requires WellFormed(parts) && limit > 0
    requires Shaped(parts, g) && Sound(parts, g, sa, start)
    ensures Sound(parts, Collect(parts, g, start, limit), sa, start)
    decreases |g.active|, if g.total > 0 then g.total else 0
  {
    if |g.active| > 0 && g.total > 0 {
      var want := Want(g.total, |g.active|);
      RoundSound(parts, g.active, want, g, sa, start, limit);
      CollectSound(parts, Round(parts, g.active, want, g, start, limit), sa, start, limit);
    }
  }

  /** Everything the call yields is a store record after the requested cursor
      (and, being ascending, no key is yielded twice). */
  lemma LegacyGetSound(parts: seq<Partition>, count: int, sa: Option<Key>, start: Key, limit: nat)
    requires WellFormed(parts) && limit > 0
    ensures forall x :: x in LegacyGet(parts, count, sa, start, limit) ==> InStore(parts, x) && Above(x, sa, start)
  {
    var g0 := Gather(Indices(|parts|), seq(|parts|, _ => sa), count, []);
    CollectSound(parts, g0, sa, start, limit);
    var g := Collect(parts, g0, start, limit);
    forall x | x in LegacyGet(parts, count, sa, start, limit)
      ensures InStore(parts, x) && Above(x, sa, start)
    {
      assert x in multiset(Sort(g.cache));
    }
  }
}

=== FILE: page_props.dfy ===
/**
 One page against the store. The corrected accessor hands out the beginning
 of the merged store after the cursor; the walk pulls a prefix of it. So a
 page that does not stop yields, in ascending key order, the merged form of
 exactly the store records between the old and the new cursor that pass the
 scanner's rules, and it leaves the accessor's cache consistent with the new
 cursor. A short page that neither stops nor jumps has read the whole store.
 */
module PageProps {
  import opened Keys
  import opened Records
  import opened Wrappers
  import opened Store
  import opened Sorting
  import opened CachedBlocks
  import opened CacheWindow
  import opened Scanner
  import opened WalkProps

  /** Every store key an exclude prefix matches sorts at or below the jump
      cursor of its first matching prefix, so that the jump never moves the
      cursor back. It fails only for a key whose character right after the
      prefix sorts above `~`; it holds whenever the excluded keys are made of
      characters below `~` (`Keys.BelowJump`), and of every store when there
      are no exclude prefixes. */
  predicate JumpsOk(cfg: Config, parts: seq<Partition>) {
    forall j, x :: 0 <= j < |parts| && x in parts[j] && Excluded(cfg, x.key) ==>
      LessEq(x.key, Jump(FirstPrefix(cfg.excludes, x.key).value))
  }

  /** Excluded keys made of characters below `~` always meet `JumpsOk`. */
  lemma KeyCharsJumpsOk(cfg: Config, parts: seq<Partition>)
    requires forall j, x :: 0 <= j < |parts| && x in parts[j] && Excluded(cfg, x.key) ==> KeyChars(x.key)
    ensures JumpsOk(cfg, parts)
  {
    forall j, x | 0 <= j < |parts| && x in parts[j] && Excluded(cfg, x.key)
      ensures LessEq(x.key, Jump(FirstPrefix(cfg.excludes, x.key).value))
    {
      BelowJump(FirstPrefix(cfg.excludes, x.key).value, x.key);
    }
  }

  /** A key not above the cursor `hi` (no key is, when there is no cursor). */
  predicate Through(x: Rec, hi: Option<Key>) {
    hi.Some? && LessEq(x.key, hi.value)
  }

  /** Every store record after `lo` and up to `hi` that passes the rules is
      yielded, merged. */
  ghost predicate Covered(w: World, cfg: Config, lo: Option<Key>, hi: Option<Key>, start: Key, ys: seq<Rec>) {
    forall x :: InStore(w.parts, x) && Above(x, lo, start) && Through(x, hi) && Passes(cfg, w.join, x)
      ==> Merge(w.join, x) in ys
  }

  /** Every yielded record is the merged form of a store record after `lo`
      and up to `hi` that passes the rules. */
  ghost predicate Sound(w: World, cfg: Config, lo: Option<Key>, hi: Option<Key>, start: Key, ys: seq<Rec>) {
    forall y :: y in ys ==>
      exists x :: InStore(w.parts, x) && Above(x, lo, start) && Through(x, hi) && Passes(cfg, w.join, x)
                  && y == Merge(w.join, x)
  }

  /** What a page needs: a well-formed store and a cache consistent with the cursor. */
  ghost predicate Ready(w: World, st: State, start: Key) {
    && WellFormed(w.parts) && w.limit > 0 && Accessing(w)
    && st.acc.partitions == w.parts
    && CacheOk(w.parts, st.acc.cache, st.startafter, start)
  }

  /** The page state a walk starts from. */
  function Begin(st: State, batchcount: int): (p: Page)
    ensures Fresh(p, 0) && p.yielded == [] && p.count == 0
    ensures p.startafter == st.startafter && p.scanned == st.scanned && p.batchcount == batchcount
  {
    Page([], 0, 0, false, false, st.startafter, st.lastkey, st.scanned, batchcount)
  }

  /** The accessor call of a page. */
  function Call(w: World, st: State, start: Key, mnr: nat): Reply {
    w.get(st.acc, mnr, st.startafter, start)
  }

  /** The corrected accessor hands out at most the records asked for, and
      fewer only when it has no more. */
  lemma CallBound(w: World, st: State, start: Key, mnr: nat)
    requires Accessing(w) && mnr > 0
    ensures var win := Call(w, st, start, mnr);
            win.n <= mnr && (win.n == mnr || win.n == |win.window|)
  {
    assert Call(w, st, start, mnr) == Get(st.acc, None, mnr, st.startafter, start, w.limit);
  }

  lemma PageWalk(w: World, cfg: Config, st: State, start: Key, mnr: nat, batchcount: int)
    requires mnr > 0
    ensures var win := Call(w, st, start, mnr);
            ReadPage(w, cfg, st, start, mnr, batchcount).0 == Walk(cfg, w.join, win.window[..win.n], 0, Begin(st, batchcount))
  {
  }

  // ------------------------------------------------------------ walk over a window

  /** A walk over the first `n` records of a window that is the beginning of
      the merged store after `sa`. */
  ghost predicate OnWindow(parts: seq<Partition>, win: seq<Rec>, n: nat, sa: Option<Key>, start: Key) {
    n <= |win| && WindowOk(parts, win, sa, start)
  }

  /** The records a walk pulls are store records after the cursor. */
  lemma PulledFromStore(parts: seq<Partition>, win: seq<Rec>, n: nat, sa: Option<Key>, start: Key, k: nat)
    requires OnWindow(parts, win, n, sa, start) && k < n
    ensures InStore(parts, win[k]) && Above(win[k], sa, start)
  {
    assert win[k] in win;
    var j :| 0 <= j < |parts| && win[k] in parts[j];
  }

  /** A jump cursor at or after a pulled key is after the old cursor. */
  lemma JumpCursorOk(parts: seq<Partition>, win: seq<Rec>, n: nat, sa: Option<Key>, start: Key, k: nat, e: Key)
    requires OnWindow(parts, win, n, sa, start) && k < n && LessEq(win[k].key, Jump(e))
    ensures AtOrAfter(Some(Jump(e)), sa)
  {
    PulledFromStore(parts, win, n, sa, start, k);
    if sa.Some? {
      LessLessEq(sa.value, win[k].key, Jump(e));
    }
  }

  /** The cursor on the last pulled key is after the old cursor. */
  lemma EndCursorOk(parts: seq<Partition>, win: seq<Rec>, n: nat, sa: Option<Key>, start: Key)
    requires OnWindow(parts, win, n, sa, start) && 0 < n
    ensures AtOrAfter(Some(win[n - 1].key), sa)
  {
    PulledFromStore(parts, win, n, sa, start, n - 1);
  }

  /** A page that does not stop moves the cursor forward, onto or past every
      record it pulled. */
  lemma WalkCursorOk(cfg: Config, join: Key -> Option<SecRec>, parts: seq<Partition>, win: seq<Rec>, n: nat,
                     sa: Option<Key>, start: Key, p: Page)
    requires OnWindow(parts, win, n, sa, start) && JumpsOk(cfg, parts) && Fresh(p, 0) && p.startafter == sa
    requires !Walk(cfg, join, win[..n], 0, p).stopped
    ensures var r := Walk(cfg, join, win[..n], 0, p);
            && AtOrAfter(r.startafter, sa)
            && (r.pulled > 0 ==> r.startafter.Some? && LessEq(win[r.pulled - 1].key, r.startafter.value))
  {
    var recs := win[..n];
    var r := Walk(cfg, join, recs, 0, p);
    WalkHalt(cfg, join, recs, 0, p);
    if r.jump {
      WalkJumpOk(cfg, join, parts, win, n, sa, start, p);
    } else {
      WalkEndCursor(cfg, join, recs, 0, p);
      if n > 0 {
        EndCursorOk(parts, win, n, sa, start);
      }
    }
  }

  /** A page that jumps puts the cursor past the last record it pulled. */
  lemma WalkJumpOk(cfg: Config, join: Key -> Option<SecRec>, parts: seq<Partition>, win: seq<Rec>, n: nat,
                   sa: Option<Key>, start: Key, p: Page)
    requires OnWindow(parts, win, n, sa, start) && JumpsOk(cfg, parts) && Fresh(p, 0)
    requires Walk(cfg, join, win[..n], 0, p).jump
    ensures var r := Walk(cfg, join, win[..n], 0, p);
            && 0 < r.pulled <= n && r.startafter.Some? && AtOrAfter(r.startafter, sa)
            && LessEq(win[r.pulled - 1].key, r.startafter.value)
  {
    var recs := win[..n];
    var r := Walk(cfg, join, recs, 0, p);
    WalkJumpCursor(cfg, join, recs, 0, p);
    var k := r.pulled - 1;
    assert recs[k] == win[k];
    var e := FirstPrefix(cfg.excludes, win[k].key).value;
    PulledFromStore(parts, win, n, sa, start, k);
    StoreKeyOk(cfg, parts, win[k]);
    JumpCursorOk(parts, win, n, sa, start, k, e);
  }

  /** Every excluded store key sorts at or below its jump cursor. */
  lemma StoreKeyOk(cfg: Config, parts: seq<Partition>, x: Rec)
    requires JumpsOk(cfg, parts) && InStore(parts, x) && Excluded(cfg, x.key)
    ensures LessEq(x.key, Jump(FirstPrefix(cfg.excludes, x.key).value))
  {
    var j :| 0 <= j < |parts| && x in parts[j];
  }

  /** No record lies after a cursor and through it. */
  lemma AboveNotThrough(x: Rec, sa: Option<Key>, start: Key)
    ensures Above(x, sa, start) ==> !Through(x, sa)
  {
    if sa.Some? && Less(sa.value, x.key) {
      LessAsymmetric(sa.value, x.key);
      LessIrreflexive(x.key);
    }
  }

  /** Keys after a key starting with `e` and up to the jump cursor of `e`
      start with `e` themselves: the jump skips only them. */
  lemma JumpRegion(e: Key, k: Key, xk: Key)
    requires StartsWith(k, e) && Less(k, xk)
    ensures LessEq(xk, Jump(e)) ==> StartsWith(xk, e)
  {
    if LessEq(xk, Jump(e)) {
      PrefixNotAbove(e, k);
      LessEqLess(e, k, xk);
      BetweenJump(e, xk);
    }
  }

  /** A key starting with the prefix another key was excluded by is excluded. */
  lemma PrefixExcludes(cfg: Config, k: Key, xk: Key)
    requires Excluded(cfg, k) && StartsWith(xk, FirstPrefix(cfg.excludes, k).value)
    ensures Excluded(cfg, xk)
  {
    FirstPrefixFirst(cfg.excludes, k);
    FirstPrefixFirst(cfg.excludes, xk);
  }

  /** A store record found through the last pulled key is among the pulled records. */
  lemma PulledThrough(parts: seq<Partition>, win: seq<Rec>, n: nat, sa: Option<Key>, start: Key, m: nat, x: Rec)
    requires OnWindow(parts, win, n, sa, start) && 0 < m <= n
    requires InStore(parts, x) && Above(x, sa, start) && LessEq(x.key, win[m - 1].key)
    ensures x in win[..n][0..m]
  {
    AscendingBelowLast(win);
    assert win[m - 1] in win;
    LessEqTransitive(x.key, win[m - 1].key, win[|win| - 1].key);
    InPrefixBelowLast(win, win[..m], x);
    assert win[..n][0..m] == win[..m];
  }

  /** Completeness of a page at one store record: a record after the old
      cursor and through the new one that passes the rules is yielded. */
  lemma WalkCoveredAt(cfg: Config, join: Key -> Option<SecRec>, parts: seq<Partition>, win: seq<Rec>, n: nat,
                      sa: Option<Key>, start: Key, p: Page, x: Rec)
    requires OnWindow(parts, win, n, sa, start) && Fresh(p, 0) && p.startafter == sa && p.yielded == []
    requires !Walk(cfg, join, win[..n], 0, p).stopped
    requires InStore(parts, x) && Above(x, sa, start)
    ensures var r := Walk(cfg, join, win[..n], 0, p);
            Through(x, r.startafter) && Passes(cfg, join, x) ==> Merge(join, x) in r.yielded
  {
    var recs := win[..n];
    var r := Walk(cfg, join, recs, 0, p);
    WalkHalt(cfg, join, recs, 0, p);
    WalkJumpCursor(cfg, join, recs, 0, p);
    WalkEndCursor(cfg, join, recs, 0, p);
    if r.pulled > 0 {
      var k := win[r.pulled - 1].key;
      LessTotal(x.key, k);
      if LessEq(x.key, k) {
        PulledThrough(parts, win, n, sa, start, r.pulled, x);
        WalkYields(cfg, join, recs, 0, p);
        KeptMembers(cfg, join, recs[0..r.pulled]);
      } else if r.jump {
        PulledFromStore(parts, win, n, sa, start, r.pulled - 1);
        JumpRegion(FirstPrefix(cfg.excludes, k).value, k, x.key);
        if Through(x, r.startafter) {
          PrefixExcludes(cfg, k, x.key);
        }
      } else {
        LessAsymmetric(k, x.key);
        LessIrreflexive(k);
      }
    } else {
      AboveNotThrough(x, sa, start);
    }
  }

  /** A pulled record is not above the last pulled one. */
  lemma PulledBelowLast(win: seq<Rec>, k: nat, m: nat)
    requires Ascending(win) && k < m <= |win|
    ensures LessEq(win[k].key, win[m - 1].key)
  {
  }

  /** The merged passing records among the first `m` pulled ones come from
      store records after `sa` and through any cursor `hi` at or after the
      last of them. */
  lemma KeptSound(cfg: Config, join: Key -> Option<SecRec>, parts: seq<Partition>, win: seq<Rec>, n: nat,
                  sa: Option<Key>, start: Key, m: nat, hi: Option<Key>, y: Rec)
    requires OnWindow(parts, win, n, sa, start) && m <= n
    requires m > 0 ==> hi.Some? && LessEq(win[m - 1].key, hi.value)
    requires y in Kept(cfg, join, win[..n][0..m])
    ensures exists x :: InStore(parts, x) && Above(x, sa, start) && Through(x, hi) && Passes(cfg, join, x) && y == Merge(join, x)
  {
    var recs := win[..n];
    KeptMembers(cfg, join, recs[0..m]);
    var x :| x in recs[0..m] && Passes(cfg, join, x) && y == Merge(join, x);
    var k :| 0 <= k < m && recs[0..m][k] == x;
    assert x == win[k];
    PulledFromStore(parts, win, n, sa, start, k);
    PulledBelowLast(win, k, m);
    LessEqTransitive(x.key, win[m - 1].key, hi.value);
    assert Through(x, hi);
  }

  /** Soundness of a page at one yielded record: it is the merged form of a
      store record after the old cursor and through the new one that passes
      the rules. */
  lemma WalkSoundAt(cfg: Config, join: Key -> Option<SecRec>, parts: seq<Partition>, win: seq<Rec>, n: nat,
                    sa: Option<Key>, start: Key, p: Page, y: Rec)
    requires OnWindow(parts, win, n, sa, start) && JumpsOk(cfg, parts) && Fresh(p, 0) && p.startafter == sa && p.yielded == []
    requires !Walk(cfg, join, win[..n], 0, p).stopped
    requires y in Walk(cfg, join, win[..n], 0, p).yielded
    ensures exists x :: InStore(parts, x) && Above(x, sa, start) && Through(x, Walk(cfg, join, win[..n], 0, p).startafter)
                        && Passes(cfg, join, x) && y == Merge(join, x)
  {
    var recs := win[..n];
    var r := Walk(cfg, join, recs, 0, p);
    WalkHalt(cfg, join, recs, 0, p);
    WalkYields(cfg, join, recs, 0, p);
    WalkCursorOk(cfg, join, parts, win, n, sa, start, p);
    KeptSound(cfg, join, parts, win, n, sa, start, r.pulled, r.startafter, y);
  }

  /** A page that stops leaves the cursor on the record before the stopping
      one, which is at or after the old cursor. */
  lemma StopCursorOk(cfg: Config, join: Key -> Option<SecRec>, parts: seq<Partition>, win: seq<Rec>, n: nat,
                     sa: Option<Key>, start: Key, p: Page)
    requires OnWindow(parts, win, n, sa, start) && Fresh(p, 0) && p.startafter == sa
    requires Walk(cfg, join, win[..n], 0, p).stopped
    ensures var r := Walk(cfg, join, win[..n], 0, p);
            && 0 < r.pulled && StopsAt(cfg, win[r.pulled - 1].key)
            && AtOrAfter(r.startafter, sa)
            && r.startafter == if 1 < r.pulled then Some(win[r.pulled - 2].key) else sa
  {
    var recs := win[..n];
    var r := Walk(cfg, join, recs, 0, p);
    WalkStopped(cfg, join, recs, 0, p);
    WalkStopCursor(cfg, join, recs, 0, p);
    if 1 < r.pulled {
      PulledFromStore(parts, win, n, sa, start, r.pulled - 2);
    }
  }

  /** What a page that stops yields: the passing records before the stopping one. */
  lemma StopYields(cfg: Config, join: Key -> Option<SecRec>, parts: seq<Partition>, win: seq<Rec>, n: nat,
                   sa: Option<Key>, start: Key, p: Page)
    requires OnWindow(parts, win, n, sa, start) && Fresh(p, 0) && p.startafter == sa && p.yielded == []
    requires Walk(cfg, join, win[..n], 0, p).stopped
    ensures var r := Walk(cfg, join, win[..n], 0, p);
            0 < r.pulled && r.yielded == Kept(cfg, join, win[..n][0..r.pulled - 1])
  {
    var recs := win[..n];
    var r := Walk(cfg, join, recs, 0, p);
    StopCursorOk(cfg, join, parts, win, n, sa, start, p);
    WalkYields(cfg, join, recs, 0, p);
    KeptLastHalts(cfg, join, recs[0..r.pulled]);
    assert recs[0..r.pulled][..r.pulled - 1] == recs[0..r.pulled - 1];
  }

  /** Soundness of a page that stops, at one yielded record. */
  lemma StopSoundAt(cfg: Config, join: Key -> Option<SecRec>, parts: seq<Partition>, win: seq<Rec>, n: nat,
                    sa: Option<Key>, start: Key, p: Page, y: Rec)
    requires OnWindow(parts, win, n, sa, start) && Fresh(p, 0) && p.startafter == sa && p.yielded == []
    requires Walk(cfg, join, win[..n], 0, p).stopped
    requires y in Walk(cfg, join, win[..n], 0, p).yielded
    ensures exists x :: InStore(parts, x) && Above(x, sa, start) && Through(x, Walk(cfg, join, win[..n], 0, p).startafter)
                        && Passes(cfg, join, x) && y == Merge(join, x)
  {
    var r := Walk(cfg, join, win[..n], 0, p);
    StopCursorOk(cfg, join, parts, win, n, sa, start, p);
    StopYields(cfg, join, parts, win, n, sa, start, p);
    KeptSound(cfg, join, parts, win, n, sa, start, r.pulled - 1, r.startafter, y);
  }

  /** Completeness of a page that stops, at one store record. */
  lemma StopCoveredAt(cfg: Config, join: Key -> Option<SecRec>, parts: seq<Partition>, win: seq<Rec>, n: nat,
                      sa: Option<Key>, start: Key, p: Page, x: Rec)
    requires OnWindow(parts, win, n, sa, start) && Fresh(p, 0) && p.startafter == sa && p.yielded == []
    requires Walk(cfg, join, win[..n], 0, p).stopped
    requires InStore(parts, x) && Above(x, sa, start)
    ensures var r := Walk(cfg, join, win[..n], 0, p);
            Through(x, r.startafter) && Passes(cfg, join, x) ==> Merge(join, x) in r.yielded
  {
    var r := Walk(cfg, join, win[..n], 0, p);
    StopCursorOk(cfg, join, parts, win, n, sa, start, p);
    StopYields(cfg, join, parts, win, n, sa, start, p);
    if 1 < r.pulled && LessEq(x.key, win[r.pulled - 2].key) {
      PulledThrough(parts, win, n, sa, start, r.pulled - 1, x);
      KeptMembers(cfg, join, win[..n][0..r.pulled - 1]);
    } else {
      AboveNotThrough(x, sa, start);
    }
  }

  // ------------------------------------------------------------ one page

  /** A ready scanner's accessor call returns the beginning of the merged
      store after the cursor, and all of it when it returns fewer records
      than asked for. */
  lemma PageOnWindow(w: World, st: State, start: Key, mnr: nat)
    requires Ready(w, st, start) && mnr > 0
    ensures var win := Call(w, st, start, mnr);
            && OnWindow(w.parts, win.window, win.n, st.startafter, start)
            && (win.n < mnr ==> Exhausts(w.parts, win.window, st.startafter, start))
  {
    GetOk(st.acc, mnr, st.startafter, start, w.limit);
    assert Call(w, st, start, mnr) == Get(st.acc, None, mnr, st.startafter, start, w.limit);
  }

  /** A page yields every store record after the old cursor and through the
      new one that passes the rules. */
  lemma PageCovered(w: World, cfg: Config, st: State, start: Key, mnr: nat, batchcount: int)
    requires Ready(w, st, start) && mnr > 0
    ensures var p := ReadPage(w, cfg, st, start, mnr, batchcount).0;
            Covered(w, cfg, st.startafter, p.startafter, start, p.yielded)
  {
    var win := Call(w, st, start, mnr);
    var b := Begin(st, batchcount);
    PageWalk(w, cfg, st, start, mnr, batchcount);
    PageOnWindow(w, st, start, mnr);
    var r := Walk(cfg, w.join, win.window[..win.n], 0, b);
    forall x | InStore(w.parts, x) && Above(x, st.startafter, start) && Through(x, r.startafter) && Passes(cfg, w.join, x)
      ensures Merge(w.join, x) in r.yielded
    {
      if r.stopped {
        StopCoveredAt(cfg, w.join, w.parts, win.window, win.n, st.startafter, start, b, x);
      } else {
        WalkCoveredAt(cfg, w.join, w.parts, win.window, win.n, st.startafter, start, b, x);
      }
    }
  }

  /** A page yields only merged store records after the old cursor and
      through the new one that pass the rules. */
  lemma PageSound(w: World, cfg: Config, st: State, start: Key, mnr: nat, batchcount: int)
    requires Ready(w, st, start) && mnr > 0 && JumpsOk(cfg, w.parts)
    ensures var p := ReadPage(w, cfg, st, start, mnr, batchcount).0;
            Sound(w, cfg, st.startafter, p.startafter, start, p.yielded)
  {
    var win := Call(w, st, start, mnr);
    var b := Begin(st, batchcount);
    PageWalk(w, cfg, st, start, mnr, batchcount);
    PageOnWindow(w, st, start, mnr);
    var r := Walk(cfg, w.join, win.window[..win.n], 0, b);
    forall y | y in r.yielded
      ensures exists x :: InStore(w.parts, x) && Above(x, st.startafter, start) && Through(x, r.startafter)
                          && Passes(cfg, w.join, x) && y == Merge(w.join, x)
    {
      if r.stopped {
        StopSoundAt(cfg, w.join, w.parts, win.window, win.n, st.startafter, start, b, y);
      } else {
        WalkSoundAt(cfg, w.join, w.parts, win.window, win.n, st.startafter, start, b, y);
      }
    }
  }

  /** A page yields, in order, the merged form of the records it pulled from
      the beginning of the window that pass the rules; it pulls no more
      records than it asked for. */
  lemma PageYields(w: World, cfg: Config, st: State, start: Key, mnr: nat, batchcount: int)
    requires Accessing(w) && mnr > 0
    ensures var win := Call(w, st, start, mnr);
            var p := ReadPage(w, cfg, st, start, mnr, batchcount).0;
            && p.pulled <= win.n <= mnr
            && p.yielded == Kept(cfg, w.join, win.window[..p.pulled])
  {
    var win := Call(w, st, start, mnr);
    var b := Begin(st, batchcount);
    CallBound(w, st, start, mnr);
    PageWalk(w, cfg, st, start, mnr, batchcount);
    WalkYields(cfg, w.join, win.window[..win.n], 0, b);
    var r := Walk(cfg, w.join, win.window[..win.n], 0, b);
    assert win.window[..win.n][0..r.pulled] == win.window[..r.pulled];
  }

  /** Each yielded record is counted as scanned and taken off the batch. */
  lemma PageScanned(w: World, cfg: Config, st: State, start: Key, mnr: nat, batchcount: int)
    requires mnr > 0
    ensures var p := ReadPage(w, cfg, st, start, mnr, batchcount).0;
            p.scanned == st.scanned + |p.yielded| && p.batchcount == batchcount - |p.yielded|
  {
    var win := Call(w, st, start, mnr);
    PageWalk(w, cfg, st, start, mnr, batchcount);
    WalkScanned(cfg, w.join, win.window[..win.n], 0, Begin(st, batchcount));
  }

  /** A page over a ready scanner yields in strictly ascending key order. */
  lemma PageAscending(w: World, cfg: Config, st: State, start: Key, mnr: nat, batchcount: int)
    requires Ready(w, st, start) && mnr > 0
    ensures Ascending(ReadPage(w, cfg, st, start, mnr, batchcount).0.yielded)
  {
    var win := Call(w, st, start, mnr);
    var p := ReadPage(w, cfg, st, start, mnr, batchcount).0;
    PageOnWindow(w, st, start, mnr);
    PageYields(w, cfg, st, start, mnr, batchcount);
    AscendingPrefix(win.window, p.pulled);
    KeptAscending(cfg, w.join, win.window[..p.pulled]);
  }

  /** A page that stops switches the scanner off: the stopping record is not
      counted, so the page counts fewer records than it asked for, and it
      did not jump. */
  lemma PageStopDisables(w: World, cfg: Config, st: State, start: Key, mnr: nat, batchcount: int)
    requires Accessing(w) && mnr > 0
    ensures var (p, st1) := ReadPage(w, cfg, st, start, mnr, batchcount);
            p.stopped ==> !st1.enabled
  {
    var win := Call(w, st, start, mnr);
    var b := Begin(st, batchcount);
    CallBound(w, st, start, mnr);
    PageWalk(w, cfg, st, start, mnr, batchcount);
    WalkStopped(cfg, w.join, win.window[..win.n], 0, b);
    WalkJumped(cfg, w.join, win.window[..win.n], 0, b);
    WalkCount(cfg, w.join, win.window[..win.n], 0, b);
  }

  /** A page that does not stop leaves the scanner ready for the next page:
      the accessor keeps what was not pulled, and that is consistent with the
      new cursor. */
  lemma PageReady(w: World, cfg: Config, st: State, start: Key, mnr: nat, batchcount: int)
    requires Ready(w, st, start) && mnr > 0 && JumpsOk(cfg, w.parts)
    requires !ReadPage(w, cfg, st, start, mnr, batchcount).0.stopped
    ensures Ready(w, ReadPage(w, cfg, st, start, mnr, batchcount).1, start)
  {
    var win := Call(w, st, start, mnr);
    var b := Begin(st, batchcount);
    PageWalk(w, cfg, st, start, mnr, batchcount);
    PageOnWindow(w, st, start, mnr);
    var r := Walk(cfg, w.join, win.window[..win.n], 0, b);
    var st1 := ReadPage(w, cfg, st, start, mnr, batchcount).1;
    assert st1.acc == Consume(st.acc, win, r.pulled) && st1.startafter == r.startafter;
    WalkCursorOk(cfg, w.join, w.parts, win.window, win.n, st.startafter, start, b);
    ConsumeOk(st.acc, win, r.pulled, st.startafter, r.startafter, start);
  }

  /** Every store record after `sa` is in a window that holds them all, so it
      is through any cursor on or after the window's last key. */
  lemma DrainedThrough(parts: seq<Partition>, win: seq<Rec>, sa: Option<Key>, start: Key, hi: Option<Key>)
    requires Ascending(win) && Exhausts(parts, win, sa, start)
    requires |win| > 0 ==> hi.Some? && LessEq(win[|win| - 1].key, hi.value)
    ensures forall x :: InStore(parts, x) && Above(x, sa, start) ==> Through(x, hi)
  {
    forall x | InStore(parts, x) && Above(x, sa, start)
      ensures Through(x, hi)
    {
      var k :| 0 <= k < |win| && win[k] == x;
      PulledBelowLast(win, k, |win|);
      LessEqTransitive(x.key, win[|win| - 1].key, hi.value);
    }
  }

  /** A page that asked for more records than it pulled, and neither stopped
      nor jumped, has read the whole store after the cursor: no store record
      lies after the new cursor. */
  lemma PageDrained(w: World, cfg: Config, st: State, start: Key, mnr: nat, batchcount: int)
    requires Ready(w, st, start) && mnr > 0 && JumpsOk(cfg, w.parts)
    requires var p := ReadPage(w, cfg, st, start, mnr, batchcount).0;
             !p.stopped && !p.jump && p.count < mnr
    ensures var p := ReadPage(w, cfg, st, start, mnr, batchcount).0;
            forall x :: InStore(w.parts, x) && Above(x, st.startafter, start) ==> Through(x, p.startafter)
  {
    var win := Call(w, st, start, mnr);
    var b := Begin(st, batchcount);
    CallBound(w, st, start, mnr);
    PageWalk(w, cfg, st, start, mnr, batchcount);
    PageOnWindow(w, st, start, mnr);
    var recs := win.window[..win.n];
    var r := Walk(cfg, w.join, recs, 0, b);
    WalkHalt(cfg, w.join, recs, 0, b);
    WalkCount(cfg, w.join, recs, 0, b);
    WalkCursorOk(cfg, w.join, w.parts, win.window, win.n, st.startafter, start, b);
    DrainedThrough(w.parts, win.window, st.startafter, start, r.startafter);
  }

  /** A page never moves the cursor backwards. */
  lemma PageForward(w: World, cfg: Config, st: State, start: Key, mnr: nat, batchcount: int)
    requires Ready(w, st, start) && mnr > 0 && JumpsOk(cfg, w.parts)
    ensures AtOrAfter(ReadPage(w, cfg, st, start, mnr, batchcount).1.startafter, st.startafter)
  {
    var win := Call(w, st, start, mnr);
    var b := Begin(st, batchcount);
    PageWalk(w, cfg, st, start, mnr, batchcount);
    PageOnWindow(w, st, start, mnr);
    if Walk(cfg, w.join, win.window[..win.n], 0, b).stopped {
      StopCursorOk(cfg, w.join, w.parts, win.window, win.n, st.startafter, start, b);
    } else {
      WalkCursorOk(cfg, w.join, w.parts, win.window, win.n, st.startafter, start, b);
    }
  }
}

=== FILE: partitions.dfy ===
/**
 Partition-count detection (`get_num_partitions`, utils.py lines 13-25). A
 partitioned collection `c` is stored as collections named `c_0`, `c_1`, ...
 (`"{}_{}".format(colname, p)`, scanner.py line 57). The detector scans the
 project's listing for names matching `c_(\d+)` at their start, collects the
 parsed indices, and answers their number when it equals the largest index
 plus one, and nothing otherwise.
 */
module Partitions {
  import opened Keys
  import opened Wrappers
  import opened Sets

  predicate IsDigit(c: char) {
    '0' <= c <= '9'
  }

  predicate AllDigits(d: string) {
    forall i :: 0 <= i < |d| ==> IsDigit(d[i])
  }

  /** The run of digits at the start of `s` (`\\d+` is greedy). */
  function LeadingDigits(s: string): (d: string)
    ensures StartsWith(s, d) && AllDigits(d)
    ensures |d| < |s| ==> !IsDigit(s[|d|])
  {
    if |s| > 0 && IsDigit(s[0]) then
      var rest := LeadingDigits(s[1..]);
      assert s[..|rest| + 1] == [s[0]] + s[1..][..|rest|];
      [s[0]] + rest
    else []
  }

  /** Python's `int()` of a digit string. */
  function DecimalValue(d: string): nat
    requires AllDigits(d)
  {
    if |d| == 0 then 0 else DecimalValue(d[..|d| - 1]) * 10 + (d[|d| - 1] as int - '0' as int)
  }

  /** Python's `str()` of a natural number. */
  function Decimal(n: nat): (d: string)
    ensures |d| > 0 && AllDigits(d)
  {
    if n < 10 then [('0' as int + n) as char]
    else Decimal(n / 10) + [('0' as int + n % 10) as char]
  }

  /** Reading back a rendered number gives the number. */
  lemma {:induction false} DecimalRoundTrip(n: nat)
    ensures DecimalValue(Decimal(n)) == n
    decreases n
  {
    if n >= 10 {
      var d := Decimal(n);
      assert d[..|d| - 1] == Decimal(n / 10);
      DecimalRoundTrip(n / 10);
    }
  }

  /** A string of digits is its own leading run. */
  lemma {:induction false} LeadingAll(d: string)
    requires AllDigits(d)
    ensures LeadingDigits(d) == d
    decreases |d|
  {
    if |d| > 0 {
      LeadingAll(d[1..]);
    }
  }

  /** `re.match(r'<name>_(\\d+)', entry)`, anchored at the start only: the
      parsed partition index, if the entry matches. */
  function PartitionIndex(name: string, entry: string): (r: Option<nat>)
    ensures r.Some? ==> StartsWith(entry, name + "_") && |entry| > |name| + 1 && IsDigit(entry[|name| + 1])
  {
    var pre := name + "_";
    if StartsWith(entry, pre) then
      var d := LeadingDigits(entry[|pre|..]);
      if |d| > 0 then Some(DecimalValue(d)) else None
    else None
  }

  /** The name of partition `j` of `name`. */
  function PartitionName(name: string, j: nat): string {
    name + "_" + Decimal(j)
  }

  /** The detector recognises the names the scanner builds for partitions. */
  lemma PartitionNameIndex(name: string, j: nat)
    ensures PartitionIndex(name, PartitionName(name, j)) == Some(j)
  {
    var pre := name + "_";
    var e := PartitionName(name, j);
    assert e[..|pre|] == pre && e[|pre|..] == Decimal(j);
    LeadingAll(Decimal(j));
    DecimalRoundTrip(j);
  }

  /** The parsed indices of the matching entries, in listing order. */
  function Matches(name: string, listing: seq<string>): (m: seq<nat>)
    ensures |m| <= |listing|
  {
    if |listing| == 0 then []
    else
      (match PartitionIndex(name, listing[0]) case Some(j) => [j] case None => [])
      + Matches(name, listing[1..])
  }

  /** The indices that occur are exactly those of the matching entries. */
  lemma {:induction false} MatchesMembers(name: string, listing: seq<string>)
    ensures forall j :: j in Matches(name, listing) <==>
              exists i :: 0 <= i < |listing| && PartitionIndex(name, listing[i]) == Some(j)
    decreases |listing|
  {
    if |listing| > 0 {
      MatchesMembers(name, listing[1..]);
      forall j | (exists i :: 0 <= i < |listing| && PartitionIndex(name, listing[i]) == Some(j))
        ensures j in Matches(name, listing)
      {
        var i :| 0 <= i < |listing| && PartitionIndex(name, listing[i]) == Some(j);
        if i > 0 {
          assert listing[1..][i - 1] == listing[i];
        }
      }
      forall j | j in Matches(name, listing[1..])
        ensures exists i :: 0 <= i < |listing| && PartitionIndex(name, listing[i]) == Some(j)
      {
        var i :| 0 <= i < |listing[1..]| && PartitionIndex(name, listing[1..][i]) == Some(j);
        assert listing[i + 1] == listing[1..][i];
      }
    }
  }

  /** When every entry matches, every entry contributes an index. */
  lemma {:induction false} MatchesAll(name: string, listing: seq<string>)
    requires forall i :: 0 <= i < |listing| ==> PartitionIndex(name, listing[i]).Some?
    ensures |Matches(name, listing)| == |listing|
    decreases |listing|
  {
    if |listing| > 0 {
      assert forall i :: 0 <= i < |listing[1..]| ==> listing[1..][i] == listing[i + 1];
      MatchesAll(name, listing[1..]);
    }
  }

  function MaxOf(s: seq<nat>): (r: nat)
    requires |s| > 0
    ensures r in s && forall i :: 0 <= i < |s| ==> s[i] <= r
  {
    if |s| == 1 then s[0]
    else
      var m := MaxOf(s[1..]);
      if s[0] >= m then s[0] else m
  }

  /** `get_num_partitions` as written: the number of matches when it equals
      the largest index plus one. */
  function NumPartitionsAsWritten(name: string, listing: seq<string>): (r: Option<nat>)
    ensures r.Some? ==> r.value > 0
  {
    var m := Matches(name, listing);
    if |m| > 0 && |m| == MaxOf(m) + 1 then Some(|m|) else None
  }

  /** The indices in `0 <= j < n`. */
  function Range(n: nat): (r: set<nat>)
    ensures forall j: nat :: j in r <==> j < n
    ensures |r| == n
  {
    if n == 0 then {}
    else
      var r := Range(n - 1);
      assert n - 1 !in r;
      r + {n - 1}
  }

  /** The distinct indices of the matching entries. */
  function IndexSet(name: string, listing: seq<string>): set<nat> {
    set j | j in Matches(name, listing)
  }

  lemma IndexSetMembers(name: string, listing: seq<string>)
    ensures forall j: nat :: j in IndexSet(name, listing) ==> j in Matches(name, listing)
  {
  }

  /** The partition count intended: `n` when the listed indices are exactly
      `0 .. n-1`, however many entries repeat an index. */
  function NumPartitions(name: string, listing: seq<string>): (r: Option<nat>)
    ensures r.Some? ==> r.value > 0 && forall j :: 0 <= j < r.value ==>
              exists i :: 0 <= i < |listing| && PartitionIndex(name, listing[i]) == Some(j)
  {
    MatchesMembers(name, listing);
    var s := IndexSet(name, listing);
    if |s| > 0 && forall j :: 0 <= j < |s| ==> j in s then
      IndexSetMembers(name, listing);
      Some(|s|)
    else None
  }

  /** The corrected detector answers `n` exactly when the listed indices are
      `0 .. n-1`. */
  lemma NumPartitionsExact(name: string, listing: seq<string>, n: nat)
    ensures NumPartitions(name, listing) == Some(n) <==> n > 0 && IndexSet(name, listing) == Range(n)
  {
    var s := IndexSet(name, listing);
    if NumPartitions(name, listing).Some? {
      SubsetFull(Range(|s|), s);
    }
  }

  /** For `n` distinct indices with largest `top`, "`n` is the largest plus
      one" means "all of `0 .. n-1` occur". */
  lemma DenseIndices(s: set<nat>, n: nat, top: nat)
    requires |s| == n && top in s && forall x :: x in s ==> x <= top
    ensures n == top + 1 <==> forall j :: 0 <= j < n ==> j in s
  {
    if n == top + 1 {
      assert s <= Range(n);
      SubsetFull(s, Range(n));
    }
    if forall j :: 0 <= j < n ==> j in s {
      assert Range(n) <= s;
      SubsetFull(Range(n), s);
    }
  }

  /** Without repeated indices the detector as written and the corrected one
      agree. */
  lemma AsWrittenAgrees(name: string, listing: seq<string>)
    requires Distinct(Matches(name, listing))
    ensures NumPartitionsAsWritten(name, listing) == NumPartitions(name, listing)
  {
    var m := Matches(name, listing);
    var s := IndexSet(name, listing);
    DistinctCard(m);
    assert |s| == |m|;
    if |m| > 0 {
      var top := MaxOf(m);
      forall x | x in s
        ensures x <= top
      {
        var i :| 0 <= i < |m| && m[i] == x;
      }
      DenseIndices(s, |m|, top);
    }
  }

  /** Both detectors recognise the `n` partitions the scanner names. */
  lemma NamesRoundTrip(name: string, n: nat)
    requires n > 0
    ensures var listing := seq(n, (j: nat) => PartitionName(name, j));
            NumPartitions(name, listing) == Some(n) && NumPartitionsAsWritten(name, listing) == Some(n)
  {
    var listing := seq(n, (j: nat) => PartitionName(name, j));
    forall i | 0 <= i < n
      ensures PartitionIndex(name, listing[i]) == Some(i)
    {
      PartitionNameIndex(name, i);
    }
    MatchesMembers(name, listing);
    MatchesAll(name, listing);
    var m := Matches(name, listing);
    assert IndexSet(name, listing) == Range(n);
    NumPartitionsExact(name, listing, n);
    assert n - 1 in m;
    var top := MaxOf(m);
    assert top < n;
  }

  lemma IndexOne(rest: string)
    requires rest == "" || !IsDigit(rest[0])
    ensures PartitionIndex("c", "c_1" + rest) == Some(1)
  {
    var e := "c_1" + rest;
    assert e[..2] == "c_";
    var d := LeadingDigits(e[2..]);
    assert e[2..] == "1" + rest;
    assert e[2..][1..] == rest;
    assert LeadingDigits(rest) == [];
    assert d == "1";
    assert d[..0] == [];
    assert DecimalValue(d) == 1;
    assert "c" + "_" == "c_";
  }

  lemma MatchesCons(name: string, listing: seq<string>, j: nat)
    requires |listing| > 0 && PartitionIndex(name, listing[0]) == Some(j)
    ensures Matches(name, listing) == [j] + Matches(name, listing[1..])
  {
  }

  lemma IndexZero()
    ensures PartitionIndex("c", "c_0") == Some(0)
  {
    PartitionNameIndex("c", 0);
    assert PartitionName("c", 0) == "c_0";
  }

  /** A stray entry repeating an index: with `c_1` and `c_1_old` listed the
      detector as written answers two partitions though `c_0` is missing,
      and the corrected one answers nothing. */
  lemma RepeatedIndexCounted()
    ensures NumPartitionsAsWritten("c", ["c_1", "c_1_old"]) == Some(2)
    ensures 0 !in IndexSet("c", ["c_1", "c_1_old"])
    ensures NumPartitions("c", ["c_1", "c_1_old"]) == None
  {
    var listing := ["c_1", "c_1_old"];
    IndexOne("");
    IndexOne("_old");
    MatchesCons("c", ["c_1_old"], 1);
    assert ["c_1_old"][1..] == [];
    MatchesCons("c", listing, 1);
    assert listing[1..] == ["c_1_old"];
    assert Matches("c", listing) == [1, 1];
    assert IndexSet("c", listing) == {1};
  }

  lemma StrayMatches()
    ensures Matches("c", ["c_0", "c_1", "c_1_old"]) == [0, 1, 1]
  {
    IndexZero();
    IndexOne("");
    IndexOne("_old");
    MatchesCons("c", ["c_1_old"], 1);
    assert ["c_1_old"][1..] == [];
    MatchesCons("c", ["c_1", "c_1_old"], 1);
    assert ["c_1", "c_1_old"][1..] == ["c_1_old"];
    MatchesCons("c", ["c_0", "c_1", "c_1_old"], 0);
    assert ["c_0", "c_1", "c_1_old"][1..] == ["c_1", "c_1_old"];
  }

  /** Indices 0, 1, 1: the count 3 is not the largest plus one. */
  lemma RepeatedAsWritten(name: string, listing: seq<string>)
    requires Matches(name, listing) == [0, 1, 1]
    ensures NumPartitionsAsWritten(name, listing) == None
  {
    assert [0, 1, 1][1..] == [1, 1] && [1, 1][1..] == [1];
  }

  /** Indices 0, 1, 1: both partitions are listed. */
  lemma RepeatedCorrected(name: string, listing: seq<string>)
    requires Matches(name, listing) == [0, 1, 1]
    ensures NumPartitions(name, listing) == Some(2)
  {
    assert IndexSet(name, listing) == Range(2);
    NumPartitionsExact(name, listing, 2);
  }

  /** With `c_0`, `c_1` and `c_1_old` listed the detector as written answers
      nothing although both partitions exist; the corrected one answers two. */
  lemma RepeatedIndexRejects()
    ensures NumPartitionsAsWritten("c", ["c_0", "c_1", "c_1_old"]) == None
    ensures NumPartitions("c", ["c_0", "c_1", "c_1_old"]) == Some(2)
  {
    StrayMatches();
    RepeatedAsWritten("c", ["c_0", "c_1", "c_1_old"]);
    RepeatedCorrected("c", ["c_0", "c_1", "c_1_old"]);
  }
}

=== FILE: prefixes.dfy ===
/**
 The prefix enumeration of `generate_prefixes` (utils.py lines 37-47) and of
 the older `scan_prefixes` (__init__.py lines 276-288): read the first key
 after the cursor, yield its first `codelen` characters as a code, move the
 cursor to `code + '~'`, and stop when a read returns nothing. The loop is
 written over an abstract one-key read so that the same proofs serve both
 callers.
 */
module Prefixes {
  import opened Keys
  import opened Wrappers
  import opened Sets

  /** A one-record read: the key it returns after the cursor, if any. */
  type FirstKey = Option<Key> -> Option<Key>

  /** The store filter `key > startafter` (no cursor: every key). */
  predicate After(k: Key, sa: Option<Key>) {
    sa.None? || Less(sa.value, k)
  }

  /** Every key the read returns is a key of `keys` after the cursor. */
  ghost predicate ReadsFrom(first: FirstKey, keys: set<Key>) {
    forall sa: Option<Key> {:trigger first(sa)} ::
      first(sa).Some? ==> first(sa).value in keys && After(first(sa).value, sa)
  }

  /** The read returns the least key of `keys` after the cursor, and nothing
      exactly when there is none. */
  ghost predicate ReadsLeast(first: FirstKey, keys: set<Key>) {
    && ReadsFrom(first, keys)
    && forall sa: Option<Key>, k: Key {:trigger first(sa), k in keys} ::
         k in keys && After(k, sa) ==> first(sa).Some? && LessEq(first(sa).value, k)
  }

  /** Every key is well formed, so that `code + '~'` skips exactly the keys
      starting with `code`. */
  predicate AllKeyChars(keys: set<Key>) {
    forall k :: k in keys ==> KeyChars(k)
  }

  /** The loop: the codes yielded, and whether it ended on an empty read
      (`fuel` bounds the number of reads). */
  function Codes(first: FirstKey, codelen: nat, sa: Option<Key>, fuel: nat): (r: (seq<Key>, bool))
    ensures |r.0| <= fuel
    ensures forall i :: 0 <= i < |r.0| ==> |r.0[i]| <= codelen
    decreases fuel
  {
    if fuel == 0 then ([], false)
    else match first(sa)
      case None => ([], true)
      case Some(k) =>
        var code := Prefix(k, codelen);
        var rest := Codes(first, codelen, Some(Jump(code)), fuel - 1);
        ([code] + rest.0, rest.1)
  }

  /** A string below a key that does not start with it stays below the key's
      first `n` characters when it is at most `n` long. */
  lemma {:induction false} BelowPrefix(p: string, k: string, n: nat)
    requires Less(p, k) && !StartsWith(k, p) && |p| <= n
    ensures Less(p, Prefix(k, n))
    decreases |p|
  {
    assert |p| > 0 && |k| > 0;
    if p[0] == k[0] {
      BelowPrefix(p[1..], k[1..], n - 1);
      assert Prefix(k, n)[1..] == Prefix(k[1..], n - 1);
    }
  }

  /** Each code is the first `codelen` characters of a key after the cursor. */
  ghost predicate FromKeys(keys: set<Key>, sa: Option<Key>, codelen: nat, cs: seq<Key>) {
    forall i :: 0 <= i < |cs| ==> exists k :: k in keys && After(k, sa) && cs[i] == Prefix(k, codelen)
  }

  predicate StrictlyAscending(cs: seq<Key>) {
    forall i, j :: 0 <= i < j < |cs| ==> Less(cs[i], cs[j])
  }

  /** Every code is the first `codelen` characters of a key after the cursor,
      and the codes come in strictly ascending order (so none is yielded
      twice). */
  lemma {:induction false} CodesSound(first: FirstKey, keys: set<Key>, codelen: nat, sa: Option<Key>, fuel: nat)
    requires ReadsFrom(first, keys) && AllKeyChars(keys)
    ensures var r := Codes(first, codelen, sa, fuel);
FromKeys(keys, sa, codelen, r.0) && StrictlyAscending(r.0)
    decreases fuel
  {
    if fuel > 0 && first(sa).Some? {
      var k := first(sa).value;
      var code := Prefix(k, codelen);
      var cur := Some(Jump(code));
      var rest := Codes(first, codelen, cur, fuel - 1);
      CodesSound(first, keys, codelen, cur, fuel - 1);
      assert FromKeys(keys, cur, codelen, rest.0);
      BelowJump(code, k);
      forall i | 0 <= i < |rest.0|
        ensures Less(code, rest.0[i])
        ensures exists k' :: k' in keys && After(k', sa) && rest.0[i] == Prefix(k', codelen)
      {
        var k' :| k' in keys && After(k', cur) && rest.0[i] == Prefix(k', codelen);
        assert KeyChars(k');
        JumpSkipsPrefix(code, k');
        LessTransitive(k, Jump(code), k');
        if sa.Some? {
          LessTransitive(sa.value, k, k');
        }
        BelowPrefix(code, k', codelen);
      }
      var r := Codes(first, codelen, sa, fuel);
      assert r.0 == [code] + rest.0;
      assert forall i :: 0 < i < |r.0| ==> r.0[i] == rest.0[i - 1];
    }
  }

  /** A loop that ended has yielded a code that starts every key after the
      cursor: the jumps skip only keys that start with a yielded code. */
  lemma {:induction false} CodesComplete(first: FirstKey, keys: set<Key>, codelen: nat, sa: Option<Key>, fuel: nat)
    requires ReadsLeast(first, keys) && AllKeyChars(keys)
    requires Codes(first, codelen, sa, fuel).1
    ensures var r := Codes(first, codelen, sa, fuel);
            forall k :: k in keys && After(k, sa) ==> exists i :: 0 <= i < |r.0| && StartsWith(k, r.0[i])
    decreases fuel
  {
    if first(sa).Some? {
      var k0 := first(sa).value;
      var code := Prefix(k0, codelen);
      var cur := Some(Jump(code));
      var rest := Codes(first, codelen, cur, fuel - 1);
      CodesComplete(first, keys, codelen, cur, fuel - 1);
      var r := Codes(first, codelen, sa, fuel);
      assert r.0 == [code] + rest.0;
      PrefixNotAbove(code, k0);
      forall k | k in keys && After(k, sa)
        ensures exists i :: 0 <= i < |r.0| && StartsWith(k, r.0[i])
      {
        if StartsWith(k, code) {
          assert StartsWith(k, r.0[0]);
        } else {
          assert LessEq(k0, k);
          LessEqTransitive(code, k0, k);
          JumpSkipsPrefix(code, k);
          var j :| 0 <= j < |rest.0| && StartsWith(k, rest.0[j]);
          assert r.0[j + 1] == rest.0[j];
        }
      }
    }
  }

  /** The keys of `keys` after the cursor. */
  ghost function Remaining(keys: set<Key>, sa: Option<Key>): set<Key> {
    set k | k in keys && After(k, sa)
  }

  /** One read more than there are keys after the cursor ends the loop: each
      read's key lies below the next cursor. */
  lemma {:induction false} CodesEnd(first: FirstKey, keys: set<Key>, codelen: nat, sa: Option<Key>, fuel: nat)
    requires ReadsLeast(first, keys) && AllKeyChars(keys)
    requires fuel > |Remaining(keys, sa)|
    ensures Codes(first, codelen, sa, fuel).1
    decreases fuel
  {
    if first(sa).Some? {
      var k0 := first(sa).value;
      var code := Prefix(k0, codelen);
      var cur := Some(Jump(code));
      BelowJump(code, k0);
      LessAsymmetric(k0, Jump(code));
      forall k | k in Remaining(keys, cur)
        ensures k in Remaining(keys, sa) - {k0}
      {
        LessTransitive(k0, Jump(code), k);
        if sa.Some? {
          LessTransitive(sa.value, k0, k);
        }
      }
      SubsetCard(Remaining(keys, cur), Remaining(keys, sa) - {k0});
      CodesEnd(first, keys, codelen, cur, fuel - 1);
    }
  }
}

=== FILE: records.dfy ===
/**
 Records as the collection store returns them and as the scanner yields them.
 A fetched record always carries its `_key` and `_ts` (the scanner asks for
 both); they are kept apart from the free-form fields so that stripping them
 and merging secondary data can be stated precisely.
 */
module Records {
  import opened Keys
  import opened Wrappers

  /** A field value of a heterogeneous record. */
  datatype Value =
    | Null
    | Bool(b: bool)
    | Int(i: int)
    | Str(s: string)
    | Items(items: seq<map<string, Value>>)  // a has-many list of sub-records

  type Fields = map<string, Value>

  /** Python truthiness of a field value. */
  predicate Truthy(v: Value) {
    match v
    case Null => false
    case Bool(b) => b
    case Int(i) => i != 0
    case Str(s) => |s| > 0
    case Items(xs) => |xs| > 0
  }

  /** A record with its internal `_key` and `_ts` (milliseconds since the epoch). */
  datatype Rec = Rec(key: Key, ts: int, fields: Fields)

  /** A record as yielded: `_key`/`_ts` present only when the caller asked for them in `meta`. */
  datatype Output = Output(key: Option<Key>, ts: Option<int>, fields: Fields)

  /** Secondary data gathered for one key: the merged fields and the freshest timestamp. */
  datatype SecRec = SecRec(ts: int, fields: Fields)

  /** Removes the internal fields the caller did not request (scanner.py lines 272-274). */
  function Strip(r: Rec, meta: set<string>): (o: Output)
    ensures o.fields == r.fields
    ensures o.key.Some? <==> "_key" in meta
    ensures o.ts.Some? <==> "_ts" in meta
    ensures o.key.Some? ==> o.key.value == r.key
    ensures o.ts.Some? ==> o.ts.value == r.ts
  {
    Output(if "_key" in meta then Some(r.key) else None,
           if "_ts" in meta then Some(r.ts) else None,
           r.fields)
  }

  /** Stripping loses nothing that was asked for: with both internal fields
      requested, the original record can be rebuilt from the output. */
  lemma StripKeepsRequested(r: Rec, meta: set<string>)
    requires "_key" in meta && "_ts" in meta
    ensures var o := Strip(r, meta); Rec(o.key.value, o.ts.value, o.fields) == r
  {
  }

  /** `r.update(srecord)` followed by the timestamp comparison, exactly as
      written (scanner.py lines 263-267): the update already overwrites `_ts`
      with the secondary timestamp, so the comparison never fires. */
  function MergeSecondaryAsWritten(r: Rec, s: SecRec): (m: Rec)
    ensures m.key == r.key && m.ts == s.ts
    ensures forall f :: f in s.fields ==> f in m.fields && m.fields[f] == s.fields[f]
    ensures forall f :: f in r.fields && f !in s.fields ==> f in m.fields && m.fields[f] == r.fields[f]
    ensures m.fields.Keys == r.fields.Keys + s.fields.Keys
  {
    var updated := Rec(r.key, s.ts, r.fields + s.fields);
    if s.ts > updated.ts then updated.(ts := s.ts) else updated
  }

  /** The written merge drops a newer primary timestamp: primary `_ts` 300
      merged with secondary `_ts` 250 gives 250, not the maximum 300. */
  lemma MergeAsWrittenLosesNewerPrimary()
    ensures var m := MergeSecondaryAsWritten(Rec("a2", 300, map[]), SecRec(250, map[]));
            m.ts == 250 && m.ts < 300
  {
  }

  /** The two merges differ only in the timestamp, and agree exactly when
      the secondary is not older than the primary. */
  lemma MergeAsWrittenAgrees(r: Rec, s: SecRec)
    ensures MergeSecondaryAsWritten(r, s).fields == MergeSecondary(r, s).fields
    ensures MergeSecondaryAsWritten(r, s) == MergeSecondary(r, s) <==> s.ts >= r.ts
  {
  }

  /** The intended merge: secondary fields override, and the merged timestamp
      is the later of the primary and secondary timestamps. */
  function MergeSecondary(r: Rec, s: SecRec): (m: Rec)
    ensures m.key == r.key
    ensures m.ts >= r.ts && m.ts >= s.ts && (m.ts == r.ts || m.ts == s.ts)
    ensures forall f :: f in s.fields ==> f in m.fields && m.fields[f] == s.fields[f]
    ensures forall f :: f in r.fields && f !in s.fields ==> f in m.fields && m.fields[f] == r.fields[f]
    ensures m.fields.Keys == r.fields.Keys + s.fields.Keys
  {
    Rec(r.key, if s.ts > r.ts then s.ts else r.ts, r.fields + s.fields)
  }
}

=== FILE: scanner.dfy ===
/**
 The batch and cursor state machine of `CollectionScanner` (scanner.py lines
 131-302). A batch reads pages through the partition-aware accessor; each page
 is walked record by record under the stop-before, exclude-prefix and end
 timestamp rules, merged with the secondary data and stripped of the internal
 fields the caller did not ask for. After each page a continuation formula
 decides whether the scanner stays enabled.

 The model uses the corrected accessor (`CachedBlocks.Get`) and the per-key
 secondary merge (`Secondary.Lookup`, `Records.MergeSecondary`); the code as
 written is modelled beside them.
 */
module Scanner {
  import opened Keys
  import opened Records
  import opened Wrappers
  import opened Store
  import opened CachedBlocks
  import opened Secondary

  /** The scanner's fixed configuration: `batchsize`, `max_next_records`,
      `stopbefore`, `exclude_prefixes`, `endts` (already converted to
      milliseconds) and the caller's `meta` list. */
  datatype Config = Config(
    batchsize: nat,
    maxNext: nat,
    stopbefore: Option<Key>,
    excludes: seq<Key>,
    endts: Option<int>,
    meta: set<string>)

  /** What one accessor call hands out: a window of which the first `n`
      records are handed out. */
  type Reply = r: Window | r.n <= |r.window| witness Window([], 0)

  /** What the scanner reads: the primary partitions, the secondary data for
      each key, the server's per-call limit, and the accessor call
      `get(accessor, count, startafter, start)`. `Joined` fixes the last two
      to `Secondary.Lookup` and the corrected `CachedBlocks.Get`. */
  datatype World = World(
    parts: seq<Partition>,
    join: Key -> Option<SecRec>,
    limit: nat,
    get: (Accessor, nat, Option<Key>, Key) -> Reply)

  /** The accessor call of the world is the corrected accessor of `CachedBlocks`. */
  ghost predicate Accessing(w: World) {
    forall acc: Accessor, n: nat, sa: Option<Key>, s: Key {:trigger Get(acc, None, n, sa, s, w.limit)} ::
      n > 0 ==> w.get(acc, n, sa, s) == Get(acc, None, n, sa, s, w.limit)
  }

  /** The accessor call of `CachedBlocks` as a world's accessor call (a call
      for no records returns nothing). */
  function CachedCall(limit: nat): (Accessor, nat, Option<Key>, Key) -> Reply {
    (acc: Accessor, n: nat, sa: Option<Key>, s: Key) => if n > 0 then Get(acc, None, n, sa, s, limit) else Window([], 0)
  }

  /** The world of a scanner over primary partitions `parts` and secondary
      collections `secs`. */
  function Joined(parts: seq<Partition>, secs: seq<Partition>, limit: nat): (w: World)
    ensures w.parts == parts && w.limit == limit && Accessing(w)
    ensures forall k :: w.join(k) == Lookup(secs, k)
  {
    World(parts, k => Lookup(secs, k), limit, CachedCall(limit))
  }

  /** The scanner's mutable state: the accessor with its cache, the cursor
      `startafter`, `lastkey`, `scanned_count`, `totalcount` (0 for no limit),
      `enabled` and the seek key `start` used by the next batch. */
  datatype State = State(
    acc: Accessor,
    startafter: Option<Key>,
    lastkey: Option<Key>,
    scanned: nat,
    total: nat,
    enabled: bool,
    start: Key)

  /** A freshly constructed scanner (scanner.py lines 164-178). */
  function Init(parts: seq<Partition>, total: nat, startafter: Option<Key>, start: Key): (st: State)
    ensures st.enabled && st.scanned == 0 && st.acc.cache == [] && st.acc.partitions == parts
    ensures st.startafter == startafter && st.lastkey.None? && st.total == total && st.start == start
  {
    State(Accessor(parts, []), startafter, None, 0, total, true, start)
  }

  /** `reset()`: counters, cursor and `enabled` back to their initial values;
      `totalcount` is cleared too, so a reset scanner has no count limit. */
  function Reset(st: State): (r: State)
    ensures r.scanned == 0 && r.total == 0 && r.enabled
    ensures r.startafter.None? && r.lastkey.None?
    ensures r.acc == st.acc && r.start == st.start
  {
    State(st.acc, None, None, 0, 0, true, st.start)
  }

  /** `set_startafter(startafter)`: only the cursor changes. */
  function SetStartafter(st: State, sa: Option<Key>): (r: State)
    ensures r.startafter == sa
    ensures r.acc == st.acc && r.lastkey == st.lastkey && r.scanned == st.scanned
    ensures r.total == st.total && r.enabled == st.enabled && r.start == st.start
  {
    st.(startafter := sa)
  }

  /** `_get_max_next_records(batchcount)`: the page size, bounded by
      `max_next_records`, by what the batch still wants and, under a count
      limit, by what the scan still may yield. */
  function MaxNext(cfg: Config, st: State, batchcount: int): (m: int)
    ensures m <= cfg.maxNext && m <= batchcount
    ensures st.total != 0 ==> m <= st.total - st.scanned
    ensures m == cfg.maxNext || m == batchcount || (st.total != 0 && m == st.total - st.scanned)
  {
    var m := Min(cfg.maxNext, batchcount);
    if st.total != 0 then Min(m, st.total - st.scanned) else m
  }

  /** The first prefix of `ps` that `k` starts with (the exclude loop). */
  function FirstPrefix(ps: seq<Key>, k: Key): (r: Option<Key>)
    ensures r.Some? ==> StartsWith(k, r.value)
  {
    if |ps| == 0 then None
    else if StartsWith(k, ps[0]) then Some(ps[0])
    else FirstPrefix(ps[1..], k)
  }

  /** The exclude loop finds a prefix exactly when the key starts with one of
      them, and it finds the first such prefix in list order. */
  lemma {:induction false} FirstPrefixFirst(ps: seq<Key>, k: Key)
    ensures FirstPrefix(ps, k).None? <==> forall i :: 0 <= i < |ps| ==> !StartsWith(k, ps[i])
    ensures FirstPrefix(ps, k).Some? ==>
              exists i :: 0 <= i < |ps| && ps[i] == FirstPrefix(ps, k).value
                          && forall j :: 0 <= j < i ==> !StartsWith(k, ps[j])
    decreases |ps|
  {
    if |ps| > 0 && !StartsWith(k, ps[0]) {
      FirstPrefixFirst(ps[1..], k);
      assert forall i :: 1 <= i < |ps| ==> ps[i] == ps[1..][i - 1];
      if FirstPrefix(ps, k).Some? {
        var i :| 0 <= i < |ps[1..]| && ps[1..][i] == FirstPrefix(ps, k).value
                 && forall j :: 0 <= j < i ==> !StartsWith(k, ps[1..][j]);
        assert ps[i + 1] == FirstPrefix(ps, k).value;
      }
    }
  }

  /** A key starting with `stopbefore` ends the scan. */
  predicate StopsAt(cfg: Config, k: Key) {
    cfg.stopbefore.Some? && StartsWith(k, cfg.stopbefore.value)
  }

  /** A key starting with one of the excluded prefixes. */
  predicate Excluded(cfg: Config, k: Key) {
    FirstPrefix(cfg.excludes, k).Some?
  }

  /** A merged record newer than a given (non-zero) `endts` is not yielded. */
  predicate TooNew(cfg: Config, r: Rec) {
    cfg.endts.Some? && cfg.endts.value != 0 && r.ts > cfg.endts.value
  }

  /** The primary record with the secondary data for its key merged in. */
  function Merge(join: Key -> Option<SecRec>, r: Rec): (m: Rec)
    ensures m.key == r.key && m.ts >= r.ts
    ensures join(r.key).None? ==> m == r
    ensures join(r.key).Some? ==> m == MergeSecondary(r, join(r.key).value)
  {
    match join(r.key)
    case None => r
    case Some(s) => MergeSecondary(r, s)
  }

  /** A record that ends the page: a stop-before key or an excluded key. */
  predicate Halts(cfg: Config, k: Key) {
    StopsAt(cfg, k) || Excluded(cfg, k)
  }

  /** A handed-out record the scanner yields. */
  predicate Passes(cfg: Config, join: Key -> Option<SecRec>, x: Rec) {
    !Halts(cfg, x.key) && !TooNew(cfg, Merge(join, x))
  }

  /** The reference for what a page yields from the records it pulled: each
      one that passes, merged, in order. */
  function Kept(cfg: Config, join: Key -> Option<SecRec>, xs: seq<Rec>): (ys: seq<Rec>)
    ensures |ys| <= |xs|
  {
    if |xs| == 0 then []
    else (if Passes(cfg, join, xs[0]) then [Merge(join, xs[0])] else []) + Kept(cfg, join, xs[1..])
  }

  /** A page yields nothing but the merged form of a pulled record that passes. */
  lemma {:induction false} KeptFrom(cfg: Config, join: Key -> Option<SecRec>, xs: seq<Rec>)
    ensures forall y :: y in Kept(cfg, join, xs) ==> exists x :: x in xs && Passes(cfg, join, x) && y == Merge(join, x)
    decreases |xs|
  {
    if |xs| > 0 {
      KeptFrom(cfg, join, xs[1..]);
      assert forall x :: x in xs[1..] ==> x in xs;
    }
  }

  /** The walk over one page: the records yielded so far (merged, not yet
      stripped), how many records the accessor handed out, `count`, the jump
      and stop flags, and the cursor and counters as the walk leaves them. */
  datatype Page = Page(
    yielded: seq<Rec>,
    pulled: nat,
    count: nat,
    jump: bool,
    stopped: bool,
    startafter: Option<Key>,
    lastkey: Option<Key>,
    scanned: nat,
    batchcount: int)

  /** The cursor rules for one record, the `i`-th handed out (scanner.py
      lines 248-259): a stop-before key stops the page uncounted; an excluded
      key is counted and moves the cursor past its prefix; any other key is
      counted and becomes the cursor and `lastkey`. */
  function Advance(cfg: Config, x: Rec, i: nat, p: Page): (q: Page)
    ensures q.pulled == i + 1
    ensures q.stopped <==> p.stopped || StopsAt(cfg, x.key)
    ensures q.jump <==> p.jump || (!StopsAt(cfg, x.key) && Excluded(cfg, x.key))
    ensures q.count == p.count + (if StopsAt(cfg, x.key) then 0 else 1)
    ensures q.yielded == p.yielded && q.scanned == p.scanned && q.batchcount == p.batchcount
    ensures StopsAt(cfg, x.key) ==> q.startafter == p.startafter
    ensures !StopsAt(cfg, x.key) && Excluded(cfg, x.key) ==>
              q.startafter == Some(Jump(FirstPrefix(cfg.excludes, x.key).value))
    ensures !Halts(cfg, x.key) ==> q.startafter == Some(x.key) && q.lastkey == Some(x.key)
  {
    if StopsAt(cfg, x.key) then p.(pulled := i + 1, stopped := true)
    else match FirstPrefix(cfg.excludes, x.key)
      case Some(e) => p.(pulled := i + 1, count := p.count + 1, jump := true, startafter := Some(Jump(e)))
      case None => p.(pulled := i + 1, count := p.count + 1, startafter := Some(x.key), lastkey := Some(x.key))
  }

  /** The yield rules for a record that did not halt the page (scanner.py
      lines 262-277): the secondary data is merged in and the merged record
      is yielded, counted as scanned and taken off the batch, unless it is
      newer than `endts`. */
  function Yield(cfg: Config, join: Key -> Option<SecRec>, x: Rec, q: Page): (r: Page)
    ensures r.pulled == q.pulled && r.count == q.count && r.jump == q.jump && r.stopped == q.stopped
    ensures r.startafter == q.startafter && r.lastkey == q.lastkey
    ensures !TooNew(cfg, Merge(join, x)) ==>
              r.yielded == q.yielded + [Merge(join, x)] && r.scanned == q.scanned + 1 && r.batchcount == q.batchcount - 1
    ensures TooNew(cfg, Merge(join, x)) ==>
              r.yielded == q.yielded && r.scanned == q.scanned && r.batchcount == q.batchcount
  {
    var m := Merge(join, x);
    if TooNew(cfg, m) then q
    else q.(yielded := q.yielded + [m], scanned := q.scanned + 1, batchcount := q.batchcount - 1)
  }

  /** The page loop from the `i`-th handed-out record on: records are taken
      in turn until one halts the page. */
  function Walk(cfg: Config, join: Key -> Option<SecRec>, recs: seq<Rec>, i: nat, p: Page): (r: Page)
    requires i <= |recs| && p.pulled <= i
    ensures p.pulled <= r.pulled <= |recs|
    decreases |recs| - i
  {
    if i == |recs| then p
    else
      var q := Advance(cfg, recs[i], i, p);
      if Halts(cfg, recs[i].key) then q else Walk(cfg, join, recs, i + 1, Yield(cfg, join, recs[i], q))
  }

  /** One turn of the batch loop (scanner.py lines 244-283): one accessor call
      for `mnr` records after the cursor, the walk over what it hands out, the
      accessor left with what was not pulled, and the continuation formula. */
  function ReadPage(w: World, cfg: Config, st: State, start: Key, mnr: nat, batchcount: int): (r: (Page, State))
    ensures r.1.acc.partitions == st.acc.partitions
    ensures r.1.total == st.total && r.1.start == st.start
    ensures r.1.startafter == r.0.startafter && r.1.lastkey == r.0.lastkey && r.1.scanned == r.0.scanned
    ensures r.1.enabled <==> (r.0.count >= mnr && (st.total == 0 || r.0.scanned < st.total)) || r.0.jump
  {
    var win := w.get(st.acc, mnr, st.startafter, start);
    var p := Walk(cfg, w.join, win.window[..win.n], 0,
                  Page([], 0, 0, false, false, st.startafter, st.lastkey, st.scanned, batchcount));
    var enabled := (p.count >= mnr && (st.total == 0 || p.scanned < st.total)) || p.jump;
    (p, State(Consume(st.acc, win, p.pulled), p.startafter, p.lastkey, p.scanned, st.total, enabled, st.start))
  }

  /** One page of a batch: the state, the page size and the batch's
      remaining count in, the page and the new state out. */
  type PageStep = (State, nat, int) -> (Page, State)

  /** The pages of the batch that reads `w` from the seek key `start`. */
  function Paging(w: World, cfg: Config, start: Key): PageStep {
    (st: State, mnr: nat, batchcount: int) => ReadPage(w, cfg, st, start, mnr, batchcount)
  }

  /** The batch loop: pages while the page size is positive and the scanner is
      enabled. `fuel` bounds the number of pages (the loop itself ends only
      because the store is finite). */
  function BatchLoop(step: PageStep, cfg: Config, st: State, batchcount: int, fuel: nat): (r: (seq<Rec>, State))
    ensures !st.enabled || MaxNext(cfg, st, batchcount) <= 0 ==> r == ([], st)
    decreases fuel
  {
    var mnr := MaxNext(cfg, st, batchcount);
    if fuel == 0 || mnr <= 0 || !st.enabled then ([], st)
    else
      var (p, st1) := step(st, mnr, batchcount);
      var (ys, st2) := BatchLoop(step, cfg, st1, p.batchcount, fuel - 1);
      (p.yielded + ys, st2)
  }

  /** `get_new_batch()`: the seek key is used for this batch only. */
  function Batch(w: World, cfg: Config, st: State, fuel: nat): (r: (seq<Rec>, State))
    ensures !st.enabled ==> r == ([], st.(start := ""))
  {
    BatchLoop(Paging(w, cfg, st.start), cfg, st.(start := ""), cfg.batchsize, fuel)
  }

  /** What the caller receives for the yielded records. */
  function Outputs(cfg: Config, ys: seq<Rec>): (os: seq<Output>)
    ensures |os| == |ys|
    ensures forall i :: 0 <= i < |ys| ==> os[i].fields == ys[i].fields
  {
    seq(|ys|, i requires 0 <= i < |ys| => Strip(ys[i], cfg.meta))
  }

  /** One batch: the state and the page bound in, the batch and the new state out. */
  type BatchStep = (State, nat) -> (seq<Rec>, State)

  /** The batches of the scanner that reads `w`. */
  function Batching(w: World, cfg: Config): BatchStep {
    (st: State, fuel: nat) => Batch(w, cfg, st, fuel)
  }

  /** The scan loop: batches while enabled, empty ones dropped; `fuel` bounds
      the number of batches and of pages per batch. */
  function ScanLoop(batch: BatchStep, st: State, fuel: nat): (r: (seq<seq<Rec>>, State))
    ensures forall i :: 0 <= i < |r.0| ==> |r.0[i]| > 0
    decreases fuel
  {
    if fuel == 0 || !st.enabled then ([], st)
    else
      var (b, st1) := batch(st, fuel);
      var (bs, st2) := ScanLoop(batch, st1, fuel - 1);
      (if |b| > 0 then [b] + bs else bs, st2)
  }

  /** `scan_collection_batches()`. */
  function ScanBatches(w: World, cfg: Config, st: State, fuel: nat): (r: (seq<seq<Rec>>, State))
    ensures forall i :: 0 <= i < |r.0| ==> |r.0[i]| > 0
    ensures !st.enabled ==> r == ([], st)
  {
    ScanLoop(Batching(w, cfg), st, fuel)
  }
}

=== FILE: secondary.dfy ===
/**
 The secondary join (`get_secondary_data`, scanner.py lines 196-216, and its
 use in `get_new_batch`, lines 260-267). Secondary collections share the
 primary's keys; for each primary record the scanner merges in the fields of
 every secondary record with the same key, keeping the latest timestamp.

 The scanner reads the secondaries in bulk: one call fetches up to `n` records
 of every secondary not yet depleted, starting at the current key, merges them
 into a per-key dictionary and marks a secondary depleted when it returned
 fewer than `n` records; a later record refetches only once its key is past
 the last key seen. `Lookup` is the per-key merge this is meant to compute.
 */
module Secondary {
  import opened Keys
  import opened Records
  import opened Wrappers
  import opened Store
  import opened Sorting
  import opened CachedBlocks
  import opened CacheWindow

  /** What one secondary hands out for `get(count=[n], start=start)`: no
      cursor, so its cache is dropped and it returns its first `n` records at
      or after `start`. */
  function SecFetch(q: Partition, n: nat, start: Key, limit: nat): (rs: seq<Rec>)
    ensures |rs| <= n
  {
    FetchLoop(q, n, None, start, limit)
  }

  /** `SecFetch` is what the partition-aware accessor hands out for such a
      call on a single partition, whatever was left in its cache: as written,
      and likewise for the corrected accessor. */
  lemma SecFetchViaAccessor(q: Partition, cache: seq<Rec>, n: nat, start: Key, limit: nat)
    requires Ascending(q) && n > 0 && limit > 0
    ensures var w := GetAsWritten(Accessor([q], cache), None, n, None, start, limit);
            w.window == SecFetch(q, n, start, limit) && w.n == |w.window|
    ensures var w := Get(Accessor([q], cache), None, n, None, start, limit);
            w.window == SecFetch(q, n, start, limit) && w.n == |w.window|
  {
    var b := FetchLoop(q, n, None, start, limit);
    GetNoCursor(Accessor([q], cache), n, start, limit);
    SingleFetched(q, n, start, limit);
    SortAscendingIdentity(b);
    WrittenNoCursor(q, cache, n, start, limit);
  }

  /** The accessor as written, called without a cursor on one partition,
      drops its cache and hands out the sorted block of that partition. */
  lemma WrittenNoCursor(q: Partition, cache: seq<Rec>, n: nat, start: Key, limit: nat)
    requires n > 0
    ensures GetAsWritten(Accessor([q], cache), None, n, None, start, limit).window
            == Sort(FetchLoop(q, n, None, start, limit))
  {
    var b := FetchLoop(q, n, None, start, limit);
    var bs := Blocks([q], n, None, start, limit);
    assert bs == [b];
    assert bs[1..] == [];
    assert Concat(bs) == b + Concat(bs[1..]);
    var acc := Accessor([q], cache);
    assert TrimAsWritten(acc.cache, None) == [];
    assert FetchStart([], None) == None;
    assert Columns(acc.partitions, None) == [q];
    assert 0 < n * |[q]|;
    assert FanOut([q], n, None, start, limit) == b;
    assert [] + Sort(b) == Sort(b);
  }

  /** A call without a cursor drops the cache and hands out the sorted fresh records. */
  lemma GetNoCursor(acc: Accessor, n: nat, start: Key, limit: nat)
    requires n > 0 && |acc.partitions| > 0
    ensures var w := Get(acc, None, n, None, start, limit);
            w.window == Sort(Fetched(acc.partitions, n, None, start, limit))
  {
    assert 0 < n * |acc.partitions|;
  }

  /** Sorting an ascending sequence changes nothing. */
  lemma SortAscendingIdentity(b: seq<Rec>)
    requires Ascending(b)
    ensures Sort(b) == b
  {
    AscendingDistinct(b);
    SortAscending(b);
    AscendingUnique(Sort(b), b);
  }

  /** With one partition the frontier cuts nothing: the fresh records are the block. */
  lemma SingleFetched(q: Partition, n: nat, start: Key, limit: nat)
    requires Ascending(q) && limit > 0
    ensures Fetched([q], n, None, start, limit) == FetchLoop(q, n, None, start, limit)
    ensures Ascending(FetchLoop(q, n, None, start, limit))
  {
    var b := FetchLoop(q, n, None, start, limit);
    var bs := Blocks([q], n, None, start, limit);
    assert bs == [b];
    BlockFacts(q, n, None, start, limit);
    UpToOne(b, n);
    assert Fetched([q], n, None, start, limit) == UpTo(Concat(bs), Frontier(bs, n));
  }

  lemma UpToOne(b: seq<Rec>, n: nat)
    requires Ascending(b)
    ensures UpTo(Concat([b]), Frontier([b], n)) == b
  {
    var f := Frontier([b], n);
    assert [b][1..] == [];
    assert Concat([b]) == b + Concat([]) == b;
    assert Frontier([b][1..], n) == None;
    if f.Some? {
      assert n > 0 && |b| == n && f == Some(b[n - 1].key);
      AscendingBelowLast(b);
    }
    UpToAll(b, f);
  }

  // ------------------------------------------------------------ merging

  /** Per-key merged secondary data (`secondary_data`). */
  type SecData = map<Key, SecRec>

  /** `secondary_data[key].update(r)` and the timestamp rule: the fields of the
      newer record override, and the timestamp is the later one. */
  function AddSec(d: SecData, r: Rec): (e: SecData)
    ensures e.Keys == d.Keys + {r.key}
    ensures forall k :: k in d && k != r.key ==> e[k] == d[k]
    ensures e[r.key].ts >= r.ts && (r.key in d ==> e[r.key].ts >= d[r.key].ts)
    ensures e[r.key].ts == r.ts || (r.key in d && e[r.key].ts == d[r.key].ts)
    ensures forall f :: f in r.fields ==> f in e[r.key].fields && e[r.key].fields[f] == r.fields[f]
    ensures r.key in d ==> forall f :: f in d[r.key].fields && f !in r.fields ==>
              f in e[r.key].fields && e[r.key].fields[f] == d[r.key].fields[f]
    ensures e[r.key].fields.Keys == (if r.key in d then d[r.key].fields.Keys else {}) + r.fields.Keys
  {
    var fields := (if r.key in d then d[r.key].fields else map[]) + r.fields;
    var ts := if r.key !in d || r.ts > d[r.key].ts then r.ts else d[r.key].ts;
    d[r.key := SecRec(ts, fields)]
  }

  /** The records of `rs` merged in turn. */
  function AddAll(d: SecData, rs: seq<Rec>): (e: SecData)
    decreases |rs|
  {
    if |rs| == 0 then d else AddAll(AddSec(d, rs[0]), rs[1..])
  }

  /** The records of `rs` with key `k`, in order. */
  function Holding(rs: seq<Rec>, k: Key): (h: seq<Rec>)
    ensures forall x :: x in h <==> x in rs && x.key == k
    ensures |h| <= |rs|
  {
    if |rs| == 0 then []
    else (if rs[0].key == k then [rs[0]] else []) + Holding(rs[1..], k)
  }

  /** Merging only sees, at key `k`, the records with key `k`. */
  lemma {:induction false} AddAllAt(d: SecData, rs: seq<Rec>, k: Key)
    ensures (k in AddAll(d, rs) <==> k in AddAll(d, Holding(rs, k)))
    ensures k in AddAll(d, rs) ==> AddAll(d, rs)[k] == AddAll(d, Holding(rs, k))[k]
    decreases |rs|
  {
    if |rs| > 0 {
      var e := AddSec(d, rs[0]);
      AddAllAt(e, rs[1..], k);
      if rs[0].key == k {
        assert Holding(rs, k) == [rs[0]] + Holding(rs[1..], k);
        assert Holding(rs, k)[1..] == Holding(rs[1..], k);
      } else {
        assert Holding(rs, k) == Holding(rs[1..], k);
        AddAllSame(d, e, Holding(rs[1..], k), k);
      }
    }
  }

  /** Two dictionaries that agree at `k` still agree at `k` after merging the
      same records. */
  lemma {:induction false} AddAllSame(d: SecData, e: SecData, rs: seq<Rec>, k: Key)
    requires (k in d <==> k in e) && (k in d ==> d[k] == e[k])
    ensures (k in AddAll(d, rs) <==> k in AddAll(e, rs))
    ensures k in AddAll(d, rs) ==> AddAll(d, rs)[k] == AddAll(e, rs)[k]
    decreases |rs|
  {
    if |rs| > 0 {
      AddAllSame(AddSec(d, rs[0]), AddSec(e, rs[0]), rs[1..], k);
    }
  }

  /** What merging leaves at key `k`: present when it was before or some
      merged record has key `k`, with the latest timestamp among them. */
  lemma {:induction false} AddAllKey(d: SecData, rs: seq<Rec>, k: Key)
    ensures var e := AddAll(d, rs);
            && (k in e <==> k in d || exists x :: x in rs && x.key == k)
            && (k in e ==> (k in d ==> e[k].ts >= d[k].ts)
                           && (forall x :: x in rs && x.key == k ==> e[k].ts >= x.ts)
                           && ((k in d && e[k].ts == d[k].ts) || exists x :: x in rs && x.key == k && e[k].ts == x.ts))
    decreases |rs|
  {
    if |rs| > 0 {
      var e0 := AddSec(d, rs[0]);
      AddAllKey(e0, rs[1..], k);
      assert forall x :: x in rs <==> x == rs[0] || x in rs[1..];
    }
  }

  // ------------------------------------------------------------ the reference

  /** Every secondary record with key `k`, secondary by secondary. */
  function ForKey(secs: seq<Partition>, k: Key): (rs: seq<Rec>)
    ensures forall x :: x in rs ==> x.key == k
  {
    if |secs| == 0 then [] else Holding(secs[0], k) + ForKey(secs[1..], k)
  }

  lemma {:induction false} ForKeyMembers(secs: seq<Partition>, k: Key)
    ensures forall x :: x in ForKey(secs, k) <==> exists j :: 0 <= j < |secs| && x in secs[j] && x.key == k
    decreases |secs|
  {
    if |secs| > 0 {
      ForKeyMembers(secs[1..], k);
      forall x | x in ForKey(secs, k)
        ensures exists j :: 0 <= j < |secs| && x in secs[j] && x.key == k
      {
        if x !in Holding(secs[0], k) {
          var j :| 0 <= j < |secs[1..]| && x in secs[1..][j] && x.key == k;
          assert x in secs[j + 1];
        }
      }
      forall x, j | 0 <= j < |secs| && x in secs[j] && x.key == k
        ensures x in ForKey(secs, k)
      {
        if j > 0 {
          assert x in secs[1..][j - 1];
        }
      }
    }
  }

  /** The merge the secondary join stands for: the fields of every secondary
      record with key `k`, later secondaries overriding earlier ones, and the
      latest of their timestamps; `None` when no secondary holds `k`. */
  function Lookup(secs: seq<Partition>, k: Key): (r: Option<SecRec>)
    ensures r.Some? ==> exists j, x :: 0 <= j < |secs| && x in secs[j] && x.key == k
  {
    ForKeyMembers(secs, k);
    AddAllKey(map[], ForKey(secs, k), k);
    var d := AddAll(map[], ForKey(secs, k));
    if k in d then Some(d[k]) else None
  }

  /** `Lookup` finds a record exactly when some secondary holds the key, and
      its timestamp is the latest among the secondary records for the key. */
  lemma LookupLatest(secs: seq<Partition>, k: Key)
    ensures Lookup(secs, k).Some? <==> exists j, x :: 0 <= j < |secs| && x in secs[j] && x.key == k
    ensures Lookup(secs, k).Some? ==>
              && (forall j, x :: 0 <= j < |secs| && x in secs[j] && x.key == k ==> Lookup(secs, k).value.ts >= x.ts)
              && (exists j, x :: 0 <= j < |secs| && x in secs[j] && x.key == k && Lookup(secs, k).value.ts == x.ts)
  {
    ForKeyMembers(secs, k);
    AddAllKey(map[], ForKey(secs, k), k);
  }

  // ------------------------------------------------------------ one call

  /** What `get_secondary_data` returns, and the depletion flags it leaves. */
  datatype SecResult = SecResult(last: Option<Key>, data: SecData, depleted: seq<bool>)

  /** Reading one secondary that returned `rs`: its records are merged, `last`
      moves to its last key, and it is marked depleted when it returned fewer
      than `n` records. */
  function Visit(acc: SecResult, j: nat, rs: seq<Rec>, n: nat): (r: SecResult)
    requires j < |acc.depleted|
    ensures |r.depleted| == |acc.depleted|
    ensures forall i :: 0 <= i < |acc.depleted| && acc.depleted[i] ==> r.depleted[i]
  {
    var last := if |rs| > 0 then Some(rs[|rs| - 1].key) else acc.last;
    var depleted := if |rs| < n then acc.depleted[j := true] else acc.depleted;
    SecResult(last, AddAll(acc.data, rs), depleted)
  }

  /** The loop over the secondaries from the `j`-th on, `bs[i]` being what the
      `i`-th returns for the call; a depleted secondary is skipped. */
  function SecLoop(bs: seq<seq<Rec>>, j: nat, n: nat, acc: SecResult): (r: SecResult)
    requires j <= |bs| && |acc.depleted| == |bs|
    ensures |r.depleted| == |bs|
    ensures forall i :: 0 <= i < |bs| && acc.depleted[i] ==> r.depleted[i]
    decreases |bs| - j
  {
    if j == |bs| then acc
    else SecLoop(bs, j + 1, n, if acc.depleted[j] then acc else Visit(acc, j, bs[j], n))
  }

  /** `get_secondary_data(start)` with `n` records asked of each secondary. */
  function SecCall(secs: seq<Partition>, depleted: seq<bool>, n: nat, start: Key, limit: nat): (r: SecResult)
    requires |depleted| == |secs|
    ensures |r.depleted| == |secs|
    ensures forall i :: 0 <= i < |secs| && depleted[i] ==> r.depleted[i]
  {
    SecLoop(Blocks(secs, n, None, start, limit), 0, n, SecResult(None, map[], depleted))
  }

  /** A secondary is depleted after the loop exactly when it was before, or it
      was read and returned fewer than `n` records: flags are only ever set. */
  lemma {:induction false} SecLoopDepletion(bs: seq<seq<Rec>>, j: nat, n: nat, acc: SecResult, i: nat)
    requires j <= |bs| && |acc.depleted| == |bs| && i < |bs|
    ensures SecLoop(bs, j, n, acc).depleted[i] <==> acc.depleted[i] || (j <= i && |bs[i]| < n)
    decreases |bs| - j
  {
    if j < |bs| {
      SecLoopDepletion(bs, j + 1, n, if acc.depleted[j] then acc else Visit(acc, j, bs[j], n), i);
    }
  }

  lemma SecCallDepletion(secs: seq<Partition>, depleted: seq<bool>, n: nat, start: Key, limit: nat, i: nat)
    requires |depleted| == |secs| && i < |secs|
    ensures SecCall(secs, depleted, n, start, limit).depleted[i]
            <==> depleted[i] || |SecFetch(secs[i], n, start, limit)| < n
  {
    SecLoopDepletion(Blocks(secs, n, None, start, limit), 0, n, SecResult(None, map[], depleted), i);
  }

  /** A depleted secondary is never read again: the loop's result does not
      depend on what it would return. */
  lemma {:induction false} SecLoopSkips(bs: seq<seq<Rec>>, q: seq<Rec>, i: nat, j: nat, n: nat, acc: SecResult)
    requires j <= |bs| && |acc.depleted| == |bs| && i < |bs| && acc.depleted[i]
    ensures SecLoop(bs[i := q], j, n, acc) == SecLoop(bs, j, n, acc)
    decreases |bs| - j
  {
    if j < |bs| {
      var next := if acc.depleted[j] then acc else Visit(acc, j, bs[j], n);
      assert acc.depleted[j] || (j != i && bs[i := q][j] == bs[j]);
      assert next.depleted[i];
      SecLoopSkips(bs, q, i, j + 1, n, next);
    }
  }

  lemma SecCallSkipsDepleted(secs: seq<Partition>, q: Partition, i: nat, depleted: seq<bool>, n: nat, start: Key, limit: nat)
    requires |depleted| == |secs| && i < |secs| && depleted[i]
    ensures SecCall(secs[i := q], depleted, n, start, limit) == SecCall(secs, depleted, n, start, limit)
  {
    var bs := Blocks(secs, n, None, start, limit);
    assert Blocks(secs[i := q], n, None, start, limit) == bs[i := SecFetch(q, n, start, limit)];
    SecLoopSkips(bs, SecFetch(q, n, start, limit), i, 0, n, SecResult(None, map[], depleted));
  }

  // ------------------------------------------------------------ what one call gathers

  /** The records the loop merges from the `j`-th secondary on, given each
      secondary's fetch `bs[i]` and the flags. */
  function Gathered(bs: seq<seq<Rec>>, depleted: seq<bool>, j: nat): seq<Rec>
    requires j <= |bs| && |depleted| == |bs|
    decreases |bs| - j
  {
    if j == |bs| then []
    else (if depleted[j] then [] else bs[j]) + Gathered(bs, depleted, j + 1)
  }

  lemma {:induction false} GatheredFlags(bs: seq<seq<Rec>>, a: seq<bool>, b: seq<bool>, j: nat)
    requires j <= |bs| && |a| == |bs| == |b|
    requires forall i :: j <= i < |bs| ==> a[i] == b[i]
    ensures Gathered(bs, a, j) == Gathered(bs, b, j)
    decreases |bs| - j
  {
    if j < |bs| {
      assert a[j] == b[j];
      GatheredFlags(bs, a, b, j + 1);
    }
  }

  lemma {:induction false} AddAllAppend(d: SecData, a: seq<Rec>, b: seq<Rec>)
    ensures AddAll(d, a + b) == AddAll(AddAll(d, a), b)
    decreases |a|
  {
    if |a| > 0 {
      assert (a + b)[0] == a[0] && (a + b)[1..] == a[1..] + b;
      AddAllAppend(AddSec(d, a[0]), a[1..], b);
    } else {
      assert a + b == b;
    }
  }

  /** The loop merges exactly the gathered records, in order. */
  lemma {:induction false} SecLoopData(bs: seq<seq<Rec>>, j: nat, n: nat, acc: SecResult)
    requires j <= |bs| && |acc.depleted| == |bs|
    ensures SecLoop(bs, j, n, acc).data == AddAll(acc.data, Gathered(bs, acc.depleted, j))
    decreases |bs| - j
  {
    if j < |bs| {
      var next := if acc.depleted[j] then acc else Visit(acc, j, bs[j], n);
      SecLoopData(bs, j + 1, n, next);
      GatheredFlags(bs, next.depleted, acc.depleted, j + 1);
      var g := Gathered(bs, acc.depleted, j + 1);
      if acc.depleted[j] {
        assert Gathered(bs, acc.depleted, j) == [] + g == g;
      } else {
        AddAllAppend(acc.data, bs[j], g);
      }
    }
  }

  lemma {:induction false} HoldingAppend(a: seq<Rec>, b: seq<Rec>, k: Key)
    ensures Holding(a + b, k) == Holding(a, k) + Holding(b, k)
    decreases |a|
  {
    if |a| > 0 {
      assert (a + b)[0] == a[0] && (a + b)[1..] == a[1..] + b;
      HoldingAppend(a[1..], b, k);
    } else {
      assert a + b == b;
    }
  }

  // ------------------------------------------------------------ when one call is complete

  /** Filtering by the seek key keeps every record with a key at or after it. */
  lemma {:induction false} HoldingEligible(q: seq<Rec>, start: Key, k: Key)
    requires LessEq(start, k)
    ensures Holding(Eligible(q, None, start), k) == Holding(q, k)
    decreases |q|
  {
    if |q| > 0 {
      var head := if Above(q[0], None, start) then [q[0]] else [];
      HoldingAppend(head, Eligible(q[1..], None, start), k);
      HoldingEligible(q[1..], start, k);
    }
  }

  /** An ascending sequence holds no record with key `k` past a key not below `k`. */
  lemma HoldingPast(e: seq<Rec>, m: nat, k: Key)
    requires Ascending(e) && 0 < m <= |e| && LessEq(k, e[m - 1].key)
    ensures Holding(e[m..], k) == []
  {
    forall y | y in e[m..]
      ensures y.key != k
    {
      var i :| 0 <= i < |e[m..]| && e[m..][i] == y;
      assert e[m + i] == y;
      LessEqLess(k, e[m - 1].key, y.key);
      if y.key == k {
        LessIrreflexive(k);
      }
    }
    HoldingNone(e[m..], k);
  }

  lemma {:induction false} HoldingNone(rs: seq<Rec>, k: Key)
    requires forall x :: x in rs ==> x.key != k
    ensures Holding(rs, k) == []
    decreases |rs|
  {
    if |rs| > 0 {
      assert forall x :: x in rs[1..] ==> x in rs;
      HoldingNone(rs[1..], k);
    }
  }

  /** A read of `n` records covers key `k` when it came back short (it holds
      everything from its seek key on) or its last key is not below `k`. */
  predicate Covers(rs: seq<Rec>, n: nat, k: Key) {
    |rs| < n || (|rs| > 0 && LessEq(k, rs[|rs| - 1].key))
  }

  /** A covering read of a secondary holds exactly its records with key `k`. */
  lemma SecFetchHolding(q: Partition, n: nat, start: Key, limit: nat, k: Key)
    requires Ascending(q) && limit > 0 && LessEq(start, k)
    requires Covers(SecFetch(q, n, start, limit), n, k)
    ensures Holding(SecFetch(q, n, start, limit), k) == Holding(q, k)
  {
    var e := Eligible(q, None, start);
    var rs := SecFetch(q, n, start, limit);
    FetchLoopExact(q, n, None, start, limit);
    HoldingEligible(q, start, k);
    if |rs| < n {
      assert rs == e;
    } else {
      var m := |rs|;
      assert e == rs + e[m..];
      EligibleAscending(q, None, start);
      HoldingPast(e, m, k);
      HoldingAppend(rs, e[m..], k);
    }
  }

  /** Each secondary's read, skipped ones contributing nothing, holds at `k`
      what the secondary itself holds: then the gathered records at `k` are
      `ForKey`'s. */
  lemma {:induction false} HoldingGathered(bs: seq<seq<Rec>>, secs: seq<Partition>, depleted: seq<bool>, j: nat, k: Key)
    requires j <= |bs| == |secs| == |depleted|
    requires forall i :: j <= i < |bs| ==> Holding(if depleted[i] then [] else bs[i], k) == Holding(secs[i], k)
    ensures Holding(Gathered(bs, depleted, j), k) == ForKey(secs[j..], k)
    decreases |bs| - j
  {
    if j < |bs| {
      HoldingGathered(bs, secs, depleted, j + 1, k);
      HoldingAppend(if depleted[j] then [] else bs[j], Gathered(bs, depleted, j + 1), k);
      assert secs[j..][1..] == secs[j + 1..];
    }
  }

  /** One call is right at key `k` when every depleted secondary lacks `k` and
      every read one covers it: the merged data at `k` is then `Lookup`'s. */
  lemma SecCallAt(secs: seq<Partition>, depleted: seq<bool>, n: nat, start: Key, limit: nat, k: Key)
    requires |depleted| == |secs| && limit > 0 && LessEq(start, k)
    requires forall i :: 0 <= i < |secs| ==> Ascending(secs[i])
    requires forall i, x :: 0 <= i < |secs| && depleted[i] && x in secs[i] ==> x.key != k
    requires forall i :: 0 <= i < |secs| && !depleted[i] ==> Covers(SecFetch(secs[i], n, start, limit), n, k)
    ensures var d := SecCall(secs, depleted, n, start, limit).data;
            && (k in d <==> Lookup(secs, k).Some?)
            && (k in d ==> d[k] == Lookup(secs, k).value)
  {
    var bs := Blocks(secs, n, None, start, limit);
    var g := Gathered(bs, depleted, 0);
    SecLoopData(bs, 0, n, SecResult(None, map[], depleted));
    forall i | 0 <= i < |bs|
      ensures Holding(if depleted[i] then [] else bs[i], k) == Holding(secs[i], k)
    {
      if depleted[i] {
        HoldingNone(secs[i], k);
      } else {
        SecFetchHolding(secs[i], n, start, limit, k);
      }
    }
    HoldingGathered(bs, secs, depleted, 0, k);
    assert secs[0..] == secs;
    AddAllAt(map[], g, k);
    AddAllAt(map[], ForKey(secs, k), k);
    HoldingKeyed(ForKey(secs, k), k);
  }

  /** Records that all have key `k` are their own `Holding`. */
  lemma {:induction false} HoldingKeyed(rs: seq<Rec>, k: Key)
    requires forall x :: x in rs ==> x.key == k
    ensures Holding(rs, k) == rs
    decreases |rs|
  {
    if |rs| > 0 {
      assert forall x :: x in rs[1..] ==> x in rs;
      HoldingKeyed(rs[1..], k);
      assert rs == [rs[0]] + rs[1..];
    }
  }

  // ------------------------------------------------------------ the join as written

  /** Whether the record at `key` triggers a new call (scanner.py line 260):
      nothing read yet in this batch, or `key` past the last key read. */
  predicate Refetch(st: SecResult, key: Key) {
    st.last.None? || Less(st.last.value, key)
  }

  /** The join for one primary record with key `key` as written (scanner.py
      lines 260-262): call again when `Refetch` says so, then pop the key's
      entry from the batch's data. `last` and the data live for one batch, the
      depletion flags for the scanner's life. */
  function JoinAt(secs: seq<Partition>, st: SecResult, key: Key, n: nat, limit: nat): (r: (Option<SecRec>, SecResult))
    requires |st.depleted| == |secs|
    ensures |r.1.depleted| == |secs| && key !in r.1.data
    ensures forall i :: 0 <= i < |secs| && st.depleted[i] ==> r.1.depleted[i]
    ensures !Refetch(st, key) ==> r.1.depleted == st.depleted && r.1.data.Keys == st.data.Keys - {key}
  {
    var cur := if Refetch(st, key) then SecCall(secs, st.depleted, n, key, limit) else st;
    assert Refetch(st, key) ==> forall i :: 0 <= i < |secs| && st.depleted[i] ==> cur.depleted[i] by {
      if Refetch(st, key) {
        forall i | 0 <= i < |secs| && st.depleted[i]
          ensures cur.depleted[i]
        {
          SecCallDepletion(secs, st.depleted, n, key, limit, i);
        }
      }
    }
    (if key in cur.data then Some(cur.data[key]) else None, SecResult(cur.last, cur.data - {key}, cur.depleted))
  }

  /** The state a new batch starts from: only the depletion flags survive. */
  function NewBatch(st: SecResult): (r: SecResult)
    ensures r.depleted == st.depleted && r.last.None? && r.data == map[]
  {
    SecResult(None, map[], st.depleted)
  }

  /** The first record of a batch gets `Lookup`'s merge when no depleted
      secondary holds its key and every secondary still read covers it. */
  lemma JoinAtFresh(secs: seq<Partition>, st: SecResult, key: Key, n: nat, limit: nat)
    requires |st.depleted| == |secs| && st.last.None? && limit > 0
    requires forall i :: 0 <= i < |secs| ==> Ascending(secs[i])
    requires forall i, x :: 0 <= i < |secs| && st.depleted[i] && x in secs[i] ==> x.key != key
    requires forall i :: 0 <= i < |secs| && !st.depleted[i] ==> Covers(SecFetch(secs[i], n, key, limit), n, key)
    ensures JoinAt(secs, st, key, n, limit).0 == Lookup(secs, key)
  {
    SecCallAt(secs, st.depleted, n, key, limit, key);
  }
}

=== FILE: sets.dfy ===
/** Cardinality facts about finite sets used by the counting arguments. */
module Sets {

  /** A subset is no larger. */
  lemma {:induction false} SubsetCard<T>(a: set<T>, b: set<T>)
    requires a <= b
    ensures |a| <= |b|
    decreases |a|
  {
    if a != {} {
      var x :| x in a;
      SubsetCard(a - {x}, b - {x});
    }
  }

  /** A subset as large as its superset is the whole superset. */
  lemma SubsetFull<T>(a: set<T>, b: set<T>)
    requires a <= b && |a| == |b|
    ensures a == b
  {
    if a != b {
      var x :| x in b && x !in a;
      SubsetCard(a, b - {x});
    }
  }

  predicate Distinct<T(==)>(s: seq<T>) {
    forall i, j :: 0 <= i < j < |s| ==> s[i] != s[j]
  }

  /** A sequence without repeats has as many distinct elements as entries. */
  lemma {:induction false} DistinctCard<T>(s: seq<T>)
    requires Distinct(s)
    ensures |set x | x in s| == |s|
    decreases |s|
  {
    if |s| > 0 {
      DistinctCard(s[1..]);
      assert (set x | x in s) == (set x | x in s[1..]) + {s[0]};
      assert s[0] !in s[1..];
    }
  }
}

=== FILE: skew.dfy ===
/**
 The written refetch under partition skew. Partition A holds keys 1 3 5 7 and
 partition B keys 2 8 9; the consumer asks for two records per call. The first
 call fetches A's block 1 3 and B's block 2 8, hands out 1 2 and keeps 3 8. The
 second call refetches after the newest cached key 8, so A's 5 and 7 never
 arrive: it hands out 3 8 although 5 lies between them.
 */
module SkewExample {
  import opened Keys
  import opened Records
  import opened Wrappers
  import opened Store
  import opened Sorting
  import opened CachedBlocks
  import opened CacheWindow

  function Row(k: Key): Rec {
    Rec(k, 0, map[])
  }

  const A: Partition := [Row("1"), Row("3"), Row("5"), Row("7")]
  const B: Partition := [Row("2"), Row("8"), Row("9")]

  lemma AscendingA()
    ensures Ascending(A)
  {
  }

  lemma AscendingB()
    ensures Ascending(B)
  {
  }

  /** A's first block: 1 3. */
  lemma ReadAFirst()
    ensures FetchLoop(A, 2, None, "", 100) == [Row("1"), Row("3")]
  {
    AscendingA();
    FetchLoopExact(A, 2, None, "", 100);
    EligibleAll(A, None, "");
  }

  /** Nothing of A lies after 8. */
  lemma ReadAAfter()
    ensures FetchLoop(A, 2, Some("8"), "", 100) == []
  {
    AscendingA();
    FetchLoopExact(A, 2, Some("8"), "", 100);
    assert Eligible(A, Some("8"), "") == [];
  }

  /** B's first block: 2 8. */
  lemma ReadBFirst()
    ensures FetchLoop(B, 2, None, "", 100) == [Row("2"), Row("8")]
  {
    AscendingB();
    FetchLoopExact(B, 2, None, "", 100);
    EligibleAll(B, None, "");
  }

  /** Only 9 of B lies after 8. */
  lemma ReadBAfter()
    ensures FetchLoop(B, 2, Some("8"), "", 100) == [Row("9")]
  {
    AscendingB();
    FetchLoopExact(B, 2, Some("8"), "", 100);
    assert Eligible(B, Some("8"), "") == [Row("9")];
  }

  /** Two blocks joined. */
  lemma FanOutTwo(count: nat, after: Option<Key>, start: Key, limit: nat)
    ensures FanOut([A, B], count, after, start, limit)
            == FetchLoop(A, count, after, start, limit) + FetchLoop(B, count, after, start, limit)
  {
    var bs := Blocks([A, B], count, after, start, limit);
    assert bs[1..] == [bs[1]];
    assert Concat(bs[1..]) == bs[1] + Concat([]);
  }

  /** Sorting blocks `a c` and `b d` where `a < b < c < d` interleaves them. */
  lemma SortInterleaved(a: Rec, b: Rec, c: Rec, d: Rec)
    requires Less(a.key, b.key) && Less(b.key, c.key) && Less(c.key, d.key)
    ensures Sort([a, c, b, d]) == [a, b, c, d]
  {
    LessTransitive(a.key, b.key, c.key);
    LessTransitive(a.key, c.key, d.key);
    LessTransitive(b.key, c.key, d.key);
    LessIrreflexive(a.key);
    LessIrreflexive(b.key);
    LessIrreflexive(c.key);
    var u, t := [a, c, b, d], [a, b, c, d];
    assert Ascending(t);
    assert DistinctKeys(u);
    assert multiset(u) == multiset(t);
    SortAscending(u);
    AscendingUnique(Sort(u), t);
  }

  /** The intermediate values of one call that fetches: the trimmed cache `c`,
      the fan-out `fetched` and its sorted form. */
  predicate Refetches(parts: seq<Partition>, cache: seq<Rec>, count: nat, sa: Option<Key>,
                      c: seq<Rec>, fetched: seq<Rec>, sorted: seq<Rec>) {
    && count > 0 && TrimAsWritten(cache, sa) == c && |c| < count * |parts|
    && FanOut(parts, count, FetchStart(c, sa), "", 100) == fetched && Sort(fetched) == sorted
  }

  lemma Append21<T>(x: T, y: T, z: T)
    ensures [x, y] + [z] == [x, y, z]
  {
  }

  /** A call that fetches: the window is the trimmed cache followed by the
      sorted fan-out. */
  lemma RefetchWindow(parts: seq<Partition>, cache: seq<Rec>, count: nat, sa: Option<Key>,
                      c: seq<Rec>, fetched: seq<Rec>, sorted: seq<Rec>)
    requires Refetches(parts, cache, count, sa, c, fetched, sorted)
    ensures count > 0
    ensures GetAsWritten(Accessor(parts, cache), None, count, sa, "", 100)
            == Window(c + sorted, Min(count, |c| + |sorted|))
  {
  }

  lemma SortOne(x: Rec)
    ensures Sort([x]) == [x]
  {
  }

  /** First fan-out: blocks 1 3 and 2 8. */
  lemma FirstFanOut()
    ensures FanOut([A, B], 2, None, "", 100) == [Row("1"), Row("3"), Row("2"), Row("8")]
  {
    ReadAFirst();
    ReadBFirst();
    FanOutTwo(2, None, "", 100);
  }

  /** First call: window 1 2 3 8, of which 1 2 are handed out. */
  lemma FirstCall()
    ensures GetAsWritten(Accessor([A, B], []), None, 2, None, "", 100)
            == Window([Row("1"), Row("2"), Row("3"), Row("8")], 2)
  {
    var fetched := [Row("1"), Row("3"), Row("2"), Row("8")];
    var sorted := [Row("1"), Row("2"), Row("3"), Row("8")];
    FirstFanOut();
    SortInterleaved(Row("1"), Row("2"), Row("3"), Row("8"));
    RefetchWindow([A, B], [], 2, None, [], fetched, sorted);
  }

  /** Second call, cursor after the last record handed out (2): the written
      trim keeps 3 8 and the refetch starts after 8. */
  lemma SecondTrim()
    ensures TrimAsWritten([Row("3"), Row("8")], Some("2")) == [Row("3"), Row("8")]
    ensures FetchStart([Row("3"), Row("8")], Some("2")) == Some("8")
  {
    var c := [Row("3"), Row("8")];
    assert Less("2", "3") && Less("2", "8");
    LessAsymmetric("2", "3");
    assert FirstAbove(c, "2", 0) == 0;
    assert DropBelow(c, "2") == c;
  }

  /** Second fan-out: A has nothing after 8, B has 9. */
  lemma SecondFanOut()
    ensures FanOut([A, B], 2, Some("8"), "", 100) == [Row("9")]
  {
    ReadAAfter();
    ReadBAfter();
    FanOutTwo(2, Some("8"), "", 100);
  }

  lemma SecondRefetches()
    ensures Refetches([A, B], [Row("3"), Row("8")], 2, Some("2"), [Row("3"), Row("8")], [Row("9")], [Row("9")])
  {
    SecondTrim();
    SecondFanOut();
    SortOne(Row("9"));
  }

  /** Second call: window 3 8 9, of which 3 8 are handed out. */
  lemma SecondCall()
    ensures GetAsWritten(Accessor([A, B], [Row("3"), Row("8")]), None, 2, Some("2"), "", 100)
            == Window([Row("3"), Row("8"), Row("9")], 2)
  {
    SecondRefetches();
    Append21(Row("3"), Row("8"), Row("9"));
    RefetchWindow([A, B], [Row("3"), Row("8")], 2, Some("2"), [Row("3"), Row("8")], [Row("9")], [Row("9")]);
  }

  /** Record 5 lies in the store between 2 and 8 but not among 3 8 9. */
  lemma FiveMissing()
    ensures InStore([A, B], Row("5")) && Above(Row("5"), Some("2"), "") && Less("5", "8")
    ensures Row("5") !in [Row("3"), Row("8"), Row("9")]
    ensures !GapFree([A, B], [Row("3"), Row("8")], Some("2"), "")
  {
    assert [A, B][0] == A && Row("5") == A[2];
    assert InStore([A, B], Row("5"));
    assert Less("2", "5") && Less("5", "8") && LessEq("", "5");
  }

  /** The written accessor hands out 3 then 8 after 2, although the store holds
      5 between them: record 5 (and 7) is never handed out, and the second
      window is not a gap-free run of the merged store. */
  lemma WrittenRefetchSkips()
    ensures var w := GetAsWritten(Accessor([A, B], [Row("3"), Row("8")]), None, 2, Some("2"), "", 100);
            && w.window[..w.n] == [Row("3"), Row("8")]
            && InStore([A, B], Row("5")) && Above(Row("5"), Some("2"), "")
            && Less("5", "8") && Row("5") !in w.window
            && !GapFree([A, B], w.window[..w.n], Some("2"), "")
  {
    SecondCall();
    FiveMissing();
  }
}

=== FILE: sorting.dfy ===
/**
 `sorted(records, key=itemgetter(0))`: a stable sort of records by key,
 modelled as insertion sort.
 */
module Sorting {
  import opened Keys
  import opened Records
  import opened Store

  /** Non-decreasing by key. */
  predicate SortedByKey(s: seq<Rec>) {
    forall i, j :: 0 <= i < j < |s| ==> LessEq(s[i].key, s[j].key)
  }

  /** No key occurs twice. */
  predicate DistinctKeys(s: seq<Rec>) {
    forall i, j :: 0 <= i < j < |s| ==> s[i].key != s[j].key
  }

  /** Inserts `x` before the first record whose key is not below it. */
  function Insert(x: Rec, s: seq<Rec>): (r: seq<Rec>)
    ensures multiset(r) == multiset(s) + multiset{x}
  {
    if |s| == 0 then [x]
    else if LessEq(x.key, s[0].key) then [x] + s
    else
      assert s == [s[0]] + s[1..];
      [s[0]] + Insert(x, s[1..])
  }

  function Sort(xs: seq<Rec>): (r: seq<Rec>)
    ensures multiset(r) == multiset(xs)
  {
    if |xs| == 0 then []
    else
      assert xs == [xs[0]] + xs[1..];
      Insert(xs[0], Sort(xs[1..]))
  }

  /** A head not above anything in a sorted tail keeps the sequence sorted. */
  lemma ConsSorted(h: Rec, r: seq<Rec>)
    requires SortedByKey(r)
    requires forall y :: y in r ==> LessEq(h.key, y.key)
    ensures SortedByKey([h] + r)
  {
    forall i, j | 0 <= i < j < |[h] + r|
      ensures LessEq(([h] + r)[i].key, ([h] + r)[j].key)
    {
      assert ([h] + r)[j] == r[j - 1];
      if i == 0 {
        assert r[j - 1] in r;
      } else {
        assert ([h] + r)[i] == r[i - 1];
      }
    }
  }

  /** Every record of `Insert(x, s)` is `x` or a record of `s`. */
  lemma InsertMembers(x: Rec, s: seq<Rec>)
    ensures forall y :: y in Insert(x, s) ==> y == x || y in s
  {
    forall y | y in Insert(x, s)
      ensures y == x || y in s
    {
      assert y in multiset(Insert(x, s));
    }
  }

  /** In a sorted sequence the head is not above anything in the tail. */
  lemma HeadLeast(s: seq<Rec>)
    requires SortedByKey(s) && |s| > 0
    ensures forall y :: y in s[1..] ==> LessEq(s[0].key, y.key)
  {
    forall y | y in s[1..]
      ensures LessEq(s[0].key, y.key)
    {
      var i :| 0 <= i < |s[1..]| && s[1..][i] == y;
      assert s[i + 1] == y;
    }
  }

  lemma {:induction false} InsertSorted(x: Rec, s: seq<Rec>)
    requires SortedByKey(s)
    ensures SortedByKey(Insert(x, s))
    decreases |s|
  {
    if |s| > 0 {
      HeadLeast(s);
      if LessEq(x.key, s[0].key) {
        forall y | y in s
          ensures LessEq(x.key, y.key)
        {
          LessEqTransitive(x.key, s[0].key, y.key);
        }
        ConsSorted(x, s);
      } else {
        InsertSorted(x, s[1..]);
        LessTotal(x.key, s[0].key);
        InsertMembers(x, s[1..]);
        ConsSorted(s[0], Insert(x, s[1..]));
      }
    }
  }

  /** A head below everything in an ascending tail keeps the sequence ascending. */
  lemma ConsAscending(h: Rec, r: seq<Rec>)
    requires Ascending(r)
    requires forall y :: y in r ==> Less(h.key, y.key)
    ensures Ascending([h] + r)
  {
    forall i, j | 0 <= i < j < |[h] + r|
      ensures Less(([h] + r)[i].key, ([h] + r)[j].key)
    {
      assert ([h] + r)[j] == r[j - 1];
      if i == 0 {
        assert r[j - 1] in r;
      } else {
        assert ([h] + r)[i] == r[i - 1];
      }
    }
  }

  lemma {:induction false} InsertAscending(x: Rec, s: seq<Rec>)
    requires Ascending(s)
    requires forall y :: y in s ==> y.key != x.key
    ensures Ascending(Insert(x, s))
    decreases |s|
  {
    if |s| > 0 {
      HeadBelowTail(s);
      if LessEq(x.key, s[0].key) {
        assert s[0] in s;
        forall y | y in s
          ensures Less(x.key, y.key)
        {
          if y != s[0] {
            LessTransitive(x.key, s[0].key, y.key);
          }
        }
        ConsAscending(x, s);
      } else {
        assert forall y :: y in s[1..] ==> y in s;
        InsertAscending(x, s[1..]);
        LessTotal(x.key, s[0].key);
        InsertMembers(x, s[1..]);
        ConsAscending(s[0], Insert(x, s[1..]));
      }
    }
  }

  /** The sort orders by key. */
  lemma {:induction false} SortSorted(xs: seq<Rec>)
    ensures SortedByKey(Sort(xs))
    decreases |xs|
  {
    if |xs| > 0 {
      SortSorted(xs[1..]);
      InsertSorted(xs[0], Sort(xs[1..]));
    }
  }

  /** Records with distinct keys come out strictly ascending. */
  lemma {:induction false} SortAscending(xs: seq<Rec>)
    requires DistinctKeys(xs)
    ensures Ascending(Sort(xs))
    decreases |xs|
  {
    if |xs| > 0 {
      assert DistinctKeys(xs[1..]) by {
        forall i, j | 0 <= i < j < |xs[1..]|
          ensures xs[1..][i].key != xs[1..][j].key
        {
          assert xs[1..][i] == xs[i + 1] && xs[1..][j] == xs[j + 1];
        }
      }
      SortAscending(xs[1..]);
      var s := Sort(xs[1..]);
      forall y | y in s
        ensures y.key != xs[0].key
      {
        assert y in multiset(s);
        assert y in xs[1..];
        var i :| 0 <= i < |xs[1..]| && xs[1..][i] == y;
        assert xs[i + 1] == y;
      }
      InsertAscending(xs[0], s);
    }
  }

  /** Two ascending sequences holding the same records are equal: sorting has
      exactly one possible result once keys are distinct. */
  lemma {:induction false} AscendingUnique(s: seq<Rec>, t: seq<Rec>)
    requires Ascending(s) && Ascending(t) && multiset(s) == multiset(t)
    ensures s == t
    decreases |s|
  {
    assert |t| == |multiset(t)| == |multiset(s)| == |s|;
    if |s| > 0 {
      HeadsEqual(s, t);
      var s', t' := s[1..], t[1..];
      assert s == [s[0]] + s' && t == [t[0]] + t';
      assert multiset(s') == multiset(s) - multiset{s[0]};
      assert multiset(t') == multiset(t) - multiset{t[0]};
      AscendingUnique(s', t');
    }
  }

  /** Ascending sequences with the same records start with the same record. */
  lemma HeadsEqual(s: seq<Rec>, t: seq<Rec>)
    requires Ascending(s) && Ascending(t) && multiset(s) == multiset(t) && |s| > 0 && |t| > 0
    ensures s[0] == t[0]
  {
    assert s[0] in multiset(t) && t[0] in multiset(s);
    var k :| 0 <= k < |t| && t[k] == s[0];
    var i :| 0 <= i < |s| && s[i] == t[0];
    if k > 0 {
      if i > 0 {
        LessAsymmetric(s[0].key, s[i].key);
      } else {
        LessIrreflexive(t[0].key);
      }
    }
  }
}

=== FILE: store.dfy ===
/**
 The remote collection store, abstracted as an immutable key-ordered sequence
 of records per partition. One store call returns, in key order, at most
 `count` records whose key is strictly after `startafter` and not below the
 `start` seek key, and never more than the server's own per-call limit.
 */
module Store {
  import opened Keys
  import opened Records
  import opened Wrappers

  /** One physical partition: its records in storage order. */
  type Partition = seq<Rec>

  function Min(a: int, b: int): (r: int)
    ensures r <= a && r <= b && (r == a || r == b)
  {
    if a <= b then a else b
  }

  /** Strictly ascending by key (so also free of duplicate keys). */
  predicate Ascending(s: seq<Rec>) {
    forall i, j :: 0 <= i < j < |s| ==> Less(s[i].key, s[j].key)
  }

  /** A record is in the store when some partition holds it. */
  predicate InStore(parts: seq<Partition>, r: Rec) {
    exists j :: 0 <= j < |parts| && r in parts[j]
  }

  /** Partitions are each key-ordered and hold disjoint key sets. */
  predicate WellFormed(parts: seq<Partition>) {
    && (forall j :: 0 <= j < |parts| ==> Ascending(parts[j]))
    && (forall i, j, x, y :: 0 <= i < j < |parts| && x in parts[i] && y in parts[j] ==> x.key != y.key)
  }

  /** The store's filter: key after `after` (when given) and not below `start`. */
  predicate Above(r: Rec, after: Option<Key>, start: Key) {
    (after.None? || Less(after.value, r.key)) && LessEq(start, r.key)
  }

  /** The records of `p` that pass the store's filter, in order. */
  function Eligible(p: seq<Rec>, after: Option<Key>, start: Key): (r: seq<Rec>)
    ensures |r| <= |p|
  {
    if |p| == 0 then []
    else (if Above(p[0], after, start) then [p[0]] else []) + Eligible(p[1..], after, start)
  }

  /** The eligible records are exactly the partition's records that pass the filter. */
  lemma {:induction false} EligibleMembers(p: seq<Rec>, after: Option<Key>, start: Key)
    ensures forall x :: x in Eligible(p, after, start) <==> x in p && Above(x, after, start)
    decreases |p|
  {
    if |p| > 0 {
      EligibleMembers(p[1..], after, start);
      assert forall x :: x in p <==> x == p[0] || x in p[1..];
    }
  }

  /** The first `n` elements, or all of them when there are fewer. */
  function Take<T>(s: seq<T>, n: int): (r: seq<T>)
    ensures |r| == if 0 <= n <= |s| then n else if n < 0 then 0 else |s|
    ensures forall i :: 0 <= i < |r| ==> r[i] == s[i]
  {
    if n <= 0 then [] else if n <= |s| then s[..n] else s
  }

  /** One store call (`collection.get(count=..., startafter=..., start=...)`),
      with `limit` the server's own cap on records per call. */
  function StoreGet(p: Partition, count: nat, after: Option<Key>, start: Key, limit: nat): (r: seq<Rec>)
    ensures |r| <= count && |r| <= limit
  {
    Take(Eligible(p, after, start), Min(count, limit))
  }

  /** The per-partition read loop of the cache window (scanner.py lines 90-99):
      keep calling the store, moving the partition's cursor to the last key
      seen, until a call returns nothing or no more records are wanted
      (`remaining` is the requested count minus the records received so far). */
  function FetchLoop(p: Partition, remaining: nat, cursor: Option<Key>, start: Key, limit: nat): (r: seq<Rec>)
    ensures |r| <= remaining
    decreases remaining
  {
    if remaining == 0 then []
    else
      var page := StoreGet(p, remaining, cursor, start, limit);
      if |page| == 0 then []
      else page + FetchLoop(p, remaining - |page|, Some(page[|page| - 1].key), start, limit)
  }

  lemma {:induction false} EligibleAscending(p: seq<Rec>, after: Option<Key>, start: Key)
    requires Ascending(p)
    ensures Ascending(Eligible(p, after, start))
    decreases |p|
  {
    if |p| > 0 {
      EligibleAscending(p[1..], after, start);
      EligibleMembers(p[1..], after, start);
      var rest := Eligible(p[1..], after, start);
      forall x | x in rest
        ensures Less(p[0].key, x.key)
      {
        var k :| 0 <= k < |p[1..]| && p[1..][k] == x;
        assert p[k + 1] == x;
      }
    }
  }

  /** Filtering changes nothing when every record already passes. */
  lemma {:induction false} EligibleAll(p: seq<Rec>, after: Option<Key>, start: Key)
    requires forall x :: x in p ==> Above(x, after, start)
    ensures Eligible(p, after, start) == p
    decreases |p|
  {
    if |p| > 0 {
      assert forall x :: x in p[1..] ==> x in p;
      EligibleAll(p[1..], after, start);
      assert p == [p[0]] + p[1..];
    }
  }

  /** In an ascending sequence the head lies below everything after it. */
  lemma HeadBelowTail(p: seq<Rec>)
    requires Ascending(p) && |p| > 0
    ensures forall y :: y in p[1..] ==> Less(p[0].key, y.key)
  {
    forall y | y in p[1..]
      ensures Less(p[0].key, y.key)
    {
      var i :| 0 <= i < |p[1..]| && p[1..][i] == y;
      assert p[i + 1] == y;
    }
  }

  /** The cursor placed on an eligible head key leaves the whole tail eligible. */
  lemma CursorAtHead(p: seq<Rec>, after: Option<Key>, start: Key)
    requires Ascending(p) && |p| > 0 && Above(p[0], after, start)
    ensures Eligible(p, Some(p[0].key), start) == p[1..] == Eligible(p[1..], after, start)
  {
    var x := p[0].key;
    HeadBelowTail(p);
    LessIrreflexive(x);
    forall y | y in p[1..]
      ensures Above(y, Some(x), start) && Above(y, after, start)
    {
      LessEqLess(start, x, y.key);
      if after.Some? {
        LessTransitive(after.value, x, y.key);
      }
    }
    EligibleAll(p[1..], Some(x), start);
    EligibleAll(p[1..], after, start);
  }

  /** Moving the cursor to the k-th eligible key leaves exactly the eligible
      records after it: this is why advancing `startafter` to the last key
      received neither skips nor repeats records. */
  lemma {:induction false} CursorAdvance(p: seq<Rec>, after: Option<Key>, start: Key, k: nat)
    requires Ascending(p)
    requires k < |Eligible(p, after, start)|
    ensures Eligible(p, Some(Eligible(p, after, start)[k].key), start) == Eligible(p, after, start)[k + 1..]
    decreases |p|
  {
    var e := Eligible(p, after, start);
    var rest := Eligible(p[1..], after, start);
    if Above(p[0], after, start) && k == 0 {
      CursorAtHead(p, after, start);
    } else {
      var j: nat := if Above(p[0], after, start) then k - 1 else k;
      EligibleMembers(p[1..], after, start);
      assert e[k] == rest[j];
      assert e[k + 1..] == rest[j + 1..];
      assert rest[j] in p[1..];
      HeadBelowTail(p);
      LessAsymmetric(p[0].key, rest[j].key);
      CursorAdvance(p[1..], after, start, j);
    }
  }

  /** `CursorAdvance` for a cursor on the `n`-th eligible record. */
  lemma CursorAdvanceTo(p: seq<Rec>, after: Option<Key>, start: Key, n: nat, next: Option<Key>)
    requires Ascending(p)
    requires 0 < n <= |Eligible(p, after, start)| && next == Some(Eligible(p, after, start)[n - 1].key)
    ensures Eligible(p, next, start) == Eligible(p, after, start)[n..]
  {
    CursorAdvance(p, after, start, n - 1);
  }

  /** The read loop returns exactly the first `want - got` eligible records of
      the partition, however small the server's per-call limit. */
  lemma {:induction false} FetchLoopExact(p: Partition, remaining: nat, cursor: Option<Key>, start: Key, limit: nat)
    requires Ascending(p) && limit > 0
    ensures FetchLoop(p, remaining, cursor, start, limit) == Take(Eligible(p, cursor, start), remaining)
    decreases remaining
  {
    if remaining > 0 {
      var page := StoreGet(p, remaining, cursor, start, limit);
      if |page| > 0 {
        var n := |page|;
        var next := Some(page[n - 1].key);
        var rem: nat := remaining - n;
        FetchLoopExact(p, rem, next, start, limit);
        FetchLoopStep(p, remaining, cursor, start, limit, n, next, rem);
      }
    }
  }

  /** One turn of the read loop, given what the rest of the loop returns
      (`n` records received, the cursor moved to `next`, `rem` still wanted). */
  lemma FetchLoopStep(p: Partition, remaining: nat, cursor: Option<Key>, start: Key, limit: nat,
                      n: nat, next: Option<Key>, rem: nat)
    requires Ascending(p) && remaining > 0 && limit > 0
    requires n == |StoreGet(p, remaining, cursor, start, limit)| && n > 0 && rem == remaining - n
    requires next == Some(StoreGet(p, remaining, cursor, start, limit)[n - 1].key)
    requires FetchLoop(p, rem, next, start, limit) == Take(Eligible(p, next, start), rem)
    ensures FetchLoop(p, remaining, cursor, start, limit) == Take(Eligible(p, cursor, start), remaining)
  {
    var e := Eligible(p, cursor, start);
    assert StoreGet(p, remaining, cursor, start, limit) == Take(e, n);
    CursorAdvanceTo(p, cursor, start, n, next);
    FetchLoopUnfold(p, remaining, cursor, start, limit, n, next, rem);
    TakeSplit(e, n, remaining, rem);
  }

  lemma FetchLoopUnfold(p: Partition, remaining: nat, cursor: Option<Key>, start: Key, limit: nat,
                        n: nat, next: Option<Key>, rem: nat)
    requires remaining > 0
    requires n == |StoreGet(p, remaining, cursor, start, limit)| && n > 0 && rem == remaining - n
    requires next == Some(StoreGet(p, remaining, cursor, start, limit)[n - 1].key)
    ensures FetchLoop(p, remaining, cursor, start, limit)
            == StoreGet(p, remaining, cursor, start, limit) + FetchLoop(p, rem, next, start, limit)
  {
  }

  lemma TakeSplit<T>(e: seq<T>, n: nat, w: nat, m: nat)
    requires n <= w && n <= |e| && m == w - n
    ensures Take(e, n) + Take(e[n..], m) == Take(e, w)
  {
  }
}

=== FILE: walk_props.dfy ===
/**
 What one page walk does with the records the accessor hands out: it pulls
 them in order up to and including the first that halts the page, yields the
 merged form of exactly those that pass, counts every pulled record but a
 stopping one, and leaves the cursor on the last pulled key or past the
 excluded prefix.
 */
module WalkProps {
  import opened Keys
  import opened Records
  import opened Wrappers
  import opened Store
  import opened Secondary
  import opened Sorting
  import opened CacheWindow
  import opened Scanner

  /** A walk that has not halted yet and has pulled the records before `i`. */
  predicate Fresh(p: Page, i: nat) {
    p.pulled == i && !p.jump && !p.stopped
  }

  /** Where the walk ends: it pulls at least one record when there is one,
      none but the last of the pulled records halts the page, and a walk that
      raises neither flag pulls every record. */
  lemma {:induction false} WalkHalt(cfg: Config, join: Key -> Option<SecRec>, recs: seq<Rec>, i: nat, p: Page)
    requires i <= |recs| && Fresh(p, i)
    ensures i < |recs| ==> i < Walk(cfg, join, recs, i, p).pulled
    ensures forall k :: i <= k < Walk(cfg, join, recs, i, p).pulled - 1 ==> !Halts(cfg, recs[k].key)
    ensures var r := Walk(cfg, join, recs, i, p);
            !r.stopped && !r.jump ==> r.pulled == |recs|
    decreases |recs| - i
  {
    if i < |recs| && !Halts(cfg, recs[i].key) {
      WalkHalt(cfg, join, recs, i + 1, Yield(cfg, join, recs[i], Advance(cfg, recs[i], i, p)));
    }
  }

  /** The stop flag marks a stop-before key as the last pulled record. */
  lemma {:induction false} WalkStopped(cfg: Config, join: Key -> Option<SecRec>, recs: seq<Rec>, i: nat, p: Page)
    requires i <= |recs| && Fresh(p, i)
    ensures var r := Walk(cfg, join, recs, i, p);
            r.stopped <==> i < r.pulled && StopsAt(cfg, recs[r.pulled - 1].key)
    decreases |recs| - i
  {
    if i < |recs| && !Halts(cfg, recs[i].key) {
      WalkStopped(cfg, join, recs, i + 1, Yield(cfg, join, recs[i], Advance(cfg, recs[i], i, p)));
    }
  }

  /** The jump flag marks an excluded key as the last pulled record. */
  lemma {:induction false} WalkJumped(cfg: Config, join: Key -> Option<SecRec>, recs: seq<Rec>, i: nat, p: Page)
    requires i <= |recs| && Fresh(p, i)
    ensures var r := Walk(cfg, join, recs, i, p);
            r.jump <==> i < r.pulled && !StopsAt(cfg, recs[r.pulled - 1].key) && Excluded(cfg, recs[r.pulled - 1].key)
    decreases |recs| - i
  {
    if i < |recs| && !Halts(cfg, recs[i].key) {
      WalkJumped(cfg, join, recs, i + 1, Yield(cfg, join, recs[i], Advance(cfg, recs[i], i, p)));
    }
  }

  /** Every pulled record but a stopping one is counted. */
  lemma {:induction false} WalkCount(cfg: Config, join: Key -> Option<SecRec>, recs: seq<Rec>, i: nat, p: Page)
    requires i <= |recs| && Fresh(p, i)
    ensures var r := Walk(cfg, join, recs, i, p);
            r.count == p.count + (r.pulled - i) - (if r.stopped then 1 else 0)
    decreases |recs| - i
  {
    if i < |recs| && !Halts(cfg, recs[i].key) {
      WalkCount(cfg, join, recs, i + 1, Yield(cfg, join, recs[i], Advance(cfg, recs[i], i, p)));
    }
  }

  /** `Kept` over a non-empty run, one record unfolded. */
  lemma KeptCons(cfg: Config, join: Key -> Option<SecRec>, recs: seq<Rec>, i: nat, j: nat)
    requires i < j <= |recs|
    ensures Kept(cfg, join, recs[i..j])
            == (if Passes(cfg, join, recs[i]) then [Merge(join, recs[i])] else []) + Kept(cfg, join, recs[i + 1..j])
  {
    assert recs[i..j][0] == recs[i] && recs[i..j][1..] == recs[i + 1..j];
  }

  /** The walk yields exactly the pulled records that pass, merged, in order. */
  lemma {:induction false} WalkYields(cfg: Config, join: Key -> Option<SecRec>, recs: seq<Rec>, i: nat, p: Page)
    requires i <= |recs| && Fresh(p, i)
    ensures var r := Walk(cfg, join, recs, i, p);
            r.yielded == p.yielded + Kept(cfg, join, recs[i..r.pulled])
    decreases |recs| - i
  {
    var r := Walk(cfg, join, recs, i, p);
    if i < |recs| {
      var q := Advance(cfg, recs[i], i, p);
      if Halts(cfg, recs[i].key) {
        assert r == q;
        KeptHalting(cfg, join, recs, i);
      } else {
        var q' := Yield(cfg, join, recs[i], q);
        WalkYields(cfg, join, recs, i + 1, q');
        YieldKept(cfg, join, recs[i], q);
        KeptCons(cfg, join, recs, i, r.pulled);
      }
    } else {
      assert recs[i..r.pulled] == [];
    }
  }

  /** A halting record alone yields nothing. */
  lemma KeptHalting(cfg: Config, join: Key -> Option<SecRec>, recs: seq<Rec>, i: nat)
    requires i < |recs| && Halts(cfg, recs[i].key)
    ensures Kept(cfg, join, recs[i..i + 1]) == []
  {
    assert recs[i..i + 1] == [recs[i]];
  }

  /** A record that did not halt the page is yielded exactly when it passes. */
  lemma YieldKept(cfg: Config, join: Key -> Option<SecRec>, x: Rec, q: Page)
    requires !Halts(cfg, x.key)
    ensures Yield(cfg, join, x, q).yielded == q.yielded + (if Passes(cfg, join, x) then [Merge(join, x)] else [])
  {
  }

  /** Each yielded record is counted as scanned and taken off the batch. */
  lemma {:induction false} WalkScanned(cfg: Config, join: Key -> Option<SecRec>, recs: seq<Rec>, i: nat, p: Page)
    requires i <= |recs| && Fresh(p, i)
    ensures var r := Walk(cfg, join, recs, i, p);
            r.scanned == p.scanned + (|r.yielded| - |p.yielded|) && r.batchcount == p.batchcount - (|r.yielded| - |p.yielded|)
    decreases |recs| - i
  {
    if i < |recs| && !Halts(cfg, recs[i].key) {
      WalkScanned(cfg, join, recs, i + 1, Yield(cfg, join, recs[i], Advance(cfg, recs[i], i, p)));
    }
  }

  /** After a jump the cursor sits past the first excluded prefix of the last
      pulled key. */
  lemma {:induction false} WalkJumpCursor(cfg: Config, join: Key -> Option<SecRec>, recs: seq<Rec>, i: nat, p: Page)
    requires i <= |recs| && Fresh(p, i)
    ensures var r := Walk(cfg, join, recs, i, p);
            r.jump ==> i < r.pulled && Excluded(cfg, recs[r.pulled - 1].key)
                       && r.startafter == Some(Jump(FirstPrefix(cfg.excludes, recs[r.pulled - 1].key).value))
    decreases |recs| - i
  {
    if i < |recs| && !Halts(cfg, recs[i].key) {
      WalkJumpCursor(cfg, join, recs, i + 1, Yield(cfg, join, recs[i], Advance(cfg, recs[i], i, p)));
    }
  }

  /** A walk that neither stops nor jumps leaves the cursor on the last key
      it pulled (or where it was, when there was nothing to pull). */
  lemma {:induction false} WalkEndCursor(cfg: Config, join: Key -> Option<SecRec>, recs: seq<Rec>, i: nat, p: Page)
    requires i <= |recs| && Fresh(p, i)
    ensures var r := Walk(cfg, join, recs, i, p);
            !r.jump && !r.stopped ==>
              r.startafter == if i < |recs| then Some(recs[|recs| - 1].key) else p.startafter
    decreases |recs| - i
  {
    if i < |recs| && !Halts(cfg, recs[i].key) {
      WalkEndCursor(cfg, join, recs, i + 1, Yield(cfg, join, recs[i], Advance(cfg, recs[i], i, p)));
    }
  }

  /** A walk that stops leaves the cursor on the key before the stopping
      one (or where it was, when the stopping key came first). */
  lemma {:induction false} WalkStopCursor(cfg: Config, join: Key -> Option<SecRec>, recs: seq<Rec>, i: nat, p: Page)
    requires i <= |recs| && Fresh(p, i)
    ensures var r := Walk(cfg, join, recs, i, p);
            r.stopped ==> r.startafter == if i + 1 < r.pulled then Some(recs[r.pulled - 2].key) else p.startafter
    decreases |recs| - i
  {
    if i < |recs| && !Halts(cfg, recs[i].key) {
      WalkStopCursor(cfg, join, recs, i + 1, Yield(cfg, join, recs[i], Advance(cfg, recs[i], i, p)));
    }
  }

  // ------------------------------------------------------------ the reference `Kept`

  /** `Kept` holds the merged form of exactly the records that pass. */
  lemma {:induction false} KeptMembers(cfg: Config, join: Key -> Option<SecRec>, xs: seq<Rec>)
    ensures forall x :: x in xs && Passes(cfg, join, x) ==> Merge(join, x) in Kept(cfg, join, xs)
    ensures forall y :: y in Kept(cfg, join, xs) ==> exists x :: x in xs && Passes(cfg, join, x) && y == Merge(join, x)
    decreases |xs|
  {
    if |xs| > 0 {
      KeptMembers(cfg, join, xs[1..]);
      assert forall x :: x in xs ==> x == xs[0] || x in xs[1..];
      assert forall x :: x in xs[1..] ==> x in xs;
    }
  }

  /** Merging keeps keys, so `Kept` of an ascending run is ascending. */
  lemma {:induction false} KeptAscending(cfg: Config, join: Key -> Option<SecRec>, xs: seq<Rec>)
    requires Ascending(xs)
    ensures Ascending(Kept(cfg, join, xs))
    decreases |xs|
  {
    if |xs| > 0 {
      AscendingSuffix(xs, 1);
      KeptAscending(cfg, join, xs[1..]);
      if Passes(cfg, join, xs[0]) {
        KeptMembers(cfg, join, xs[1..]);
        HeadBelowTail(xs);
        var rest := Kept(cfg, join, xs[1..]);
        forall y | y in rest
          ensures Less(Merge(join, xs[0]).key, y.key)
        {
          var x :| x in xs[1..] && Passes(cfg, join, x) && y == Merge(join, x);
        }
        ConsAscending(Merge(join, xs[0]), rest);
      }
    }
  }

  /** A halting record at the end yields nothing. */
  lemma {:induction false} KeptLastHalts(cfg: Config, join: Key -> Option<SecRec>, xs: seq<Rec>)
    requires |xs| > 0 && Halts(cfg, xs[|xs| - 1].key)
    ensures Kept(cfg, join, xs) == Kept(cfg, join, xs[..|xs| - 1])
    decreases |xs|
  {
    if |xs| > 1 {
      assert xs[1..][|xs| - 2] == xs[|xs| - 1];
      KeptLastHalts(cfg, join, xs[1..]);
      assert xs[1..][..|xs| - 2] == xs[..|xs| - 1][1..];
    }
  }
}

=== FILE: wrappers.dfy ===
/** Failure-compatible helper datatypes shared by the whole model. */
module Wrappers {

  /** A value that may be absent; stands for Python's `None`. */
  datatype Option<+T> = None | Some(value: T) {
    function GetOr(default: T): T {
      match this
      case Some(v) => v
      case None => default
    }
  }

  /** Exceptions the modelled code can raise. */
  datatype Error =
    | TypeError     // subscripting a value that is not a list
    | IndexError    // subscripting an empty list
    | AssertionError

  /** Either a value or the exception that was raised instead. */
  datatype Result<+R> = Ok(value: R) | Err(error: Error)
}
